=== FILE: README.md ===
# Odoo WiPay, bank import, payroll and chat-widget decisions in Dafny

This project models the decision logic inside a group of Odoo addons and proves properties about it. The model covers:

- **`payment_wipay`**
  - The WiPay payment provider and its transactions: the outgoing payment request, the MD5 signature gate on notifications, the mapping from WiPay status to transaction state, and the reference lookups.
  - The fee table.
  - Recurring payments: the life cycle and the daily job.
  - Card tokens.
  - The security utilities: response redaction, IP allow-list and HMAC signing string.
  - The return and webhook routes.
- **`wipay_payment`**: the live fee table, the two field constraints, and the augmentation of request data.
- **`republic_bank_csv_import`**: how the rows of a Republic Bank CSV export become a bank statement.
- **`payroll_salary_calculation`**: `calculate_mondays`.
- **`website_anythingllm_chat`**:
  - The life cycle of a message sent to an AnythingLLM API, and the conversation history sent with it.
  - The `<script>` tag generated from the singleton widget configuration.

ORM records are immutable datatypes, and a record set is a sequence. Anything that calls code outside the model is a parameter. This covers:

- the `super()` results of overridden methods;
- MD5, HMAC-SHA256, and `str()` of a dictionary;
- `url_join` and the `:.2f` formatting;
- `strptime` and `float()`;
- JSON decoding, the HTTP exchanges, and the clock.

Python dictionaries are association lists that keep insertion order (`Common.Dict`). An Odoo `False` in a Char field is `None` (`Common.Text`). Amounts are exact reals.

One module per source file:

| file | module | source |
|---|---|---|
| common.dfy | Common | Option/Result, Python dicts, truthiness, `str()` and `repr()` of text |
| civil_date.dfy | CivilDate | `timedelta` and `relativedelta` date arithmetic |
| wipay_provider.dfy | WipayProvider | payment_wipay/models/payment_provider.py |
| wipay_transaction.dfy | WipayTransaction | payment_wipay/models/payment_transaction.py |
| wipay_fees.dfy | WipayFees | payment_wipay/models/payment_fees.py |
| wipay_recurring.dfy | WipayRecurring | payment_wipay/models/payment_recurring.py |
| wipay_token.dfy | WipayToken | payment_wipay/models/payment_token.py |
| wipay_security.dfy | WipaySecurity | payment_wipay/controllers/security_middleware.py |
| wipay_controllers.dfy | WipayControllers | payment_wipay/controllers/main.py |
| wipay_payment_provider.dfy | WipayPaymentProvider | wipay_payment/models/payment_provider.py |
| bank_csv_import.dfy | BankCsvImport | republic_bank_csv_import/models/import_transaction_wizard.py |
| payroll_mondays.dfy | PayrollMondays | payroll_salary_calculation/models/hr_employee.py |
| llm_chat.dfy | LlmChat | website_anythingllm_chat/models/llm_chat.py |
| chatter_fields.dfy | ChatterFields | website_anythingllm_chat/models/chatter_fields.py |

Where the addons' tests expect something other than what the code does, the model follows the code:

- payment_wipay/tests/test_wipay.py:43-61 expects the full fee under every fee structure. The code charges 0 for `merchant_absorb` and half for `split`.
- wipay_payment/tests/test_wipay.py:20-22 expects live rates in the sandbox. The code charges 0 there.
- payment_wipay/tests/test.security.py:44-51 expects a raise on a bad signature. `verify_signature` returns False.

## Model

| member | source | states |
|---|---|---|
| WipayProvider.CurrencyUrl | payment_wipay/models/payment_provider.py:49-55 | TTD and USD map to the tt endpoint and JMD to the jm endpoint; the URL is empty exactly for any other currency |
| WipayProvider.OnchangeCurrency | payment_wipay/models/payment_provider.py:46-55 | only the API URL changes; it is truthy exactly when the currency is one of the three known ones |
| WipayProvider.IsMissingRequiredFields | payment_wipay/models/payment_provider.py:69-76 | a WiPay provider is missing fields iff merchant id, API key or API URL is empty; other providers get the generic answer |
| WipayProvider.OnchangeCompletesConfiguration | payment_wipay/models/payment_provider.py:46-76 | with merchant id and key set, picking a currency completes the configuration exactly when the currency is known |
| WipayProvider.IsPublishable | payment_wipay/models/payment_provider.py:78-85 | a WiPay provider is publishable iff its state is not disabled |
| WipayProvider.IsAvailableForCountry | payment_wipay/models/payment_provider.py:117-129 | in test state always available; otherwise iff the country code is empty or TT; other providers defer to the generic rule |
| WipayProvider.IsAvailableForSaleOrder | payment_wipay/models/payment_provider.py:131-142 | WiPay is available for every sale order |
| WipayProvider.Create | payment_wipay/models/payment_provider.py:95-101 | only `is_published` can change; it becomes true iff the code is wipay, the state is not disabled and the caller did not supply it |
| WipayProvider.CreatePublishesExactlyThePublishable | payment_wipay/models/payment_provider.py:78-101 | an unpublished WiPay provider created without the flag ends up published exactly when it is publishable |
| WipayProvider.DefaultPaymentMethodCodes | payment_wipay/models/payment_provider.py:165-170 | WiPay's default method codes are exactly ['wipay'] |
| WipayTransaction.SearchWipay | payment_wipay/models/payment_transaction.py:163 | the result holds exactly the WiPay transactions with the reference |
| WipayTransaction.TxFromNotification | payment_wipay/models/payment_transaction.py:152-167 | the generic result is kept for other codes or when non-empty; otherwise it raises iff order_id is empty or matches no WiPay transaction, and returns only matching ones |
| WipayTransaction.TxFromFeedback | payment_wipay/models/payment_transaction.py:118-128 | the generic result is kept for other codes or when non-empty; without order_id the result is empty; otherwise it is exactly the matching WiPay transactions |
| WipayTransaction.FeedbackAgreesWithNotification | payment_wipay/models/payment_transaction.py:118-167 | whenever the notification lookup succeeds, the feedback lookup returns the same records |
| WipayTransaction.ProcessNotification | payment_wipay/models/payment_transaction.py:169-203 | other providers are untouched; the call raises iff the signature gate rejects or no wipay payment method exists; a rejected signature raises before any write, a missing method only after the WiPay payment id is written; past both checks only the payment id, method, state and message change; status maps success→done, pending→pending, failed→canceled, anything else→error; done and pending clear the state message, canceled and error write theirs |
| WipayTransaction.GenuineSignatureAccepted | payment_wipay/models/payment_transaction.py:177-184 | a signature equal to md5(secret ++ transaction_id ++ reference) always passes |
| WipayTransaction.UnsignedNotificationAccepted | payment_wipay/models/payment_transaction.py:177-186 | without a secret key or without a received signature the gate is not consulted |
| WipayTransaction.HandleNotification | payment_wipay/models/payment_transaction.py:152-203 | processing always lands on the WiPay transaction named by order_id, and when it does not raise it records the notified transaction id |
| WipayTransaction.BuildPaymentRequest | payment_wipay/models/payment_transaction.py:43-83 | currency TTD, country TT and environment sandbox whatever the transaction says; a signature and a bearer header are present iff the API key is non-empty, the signature hashing key ++ merchant ++ amount(2dp) ++ reference, an unset merchant id printing as "False" |
| WipayTransaction.ApiKeyOnlyAffectsSigning | payment_wipay/models/payment_transaction.py:49-83 | changing the API key changes only the signature and the Authorization header |
| WipayTransaction.AnswerErrorMessage | payment_wipay/models/payment_transaction.py:108 | a missing 'message' reads 'Unknown error' |
| WipayTransaction.ProcessPaymentReply | payment_wipay/models/payment_transaction.py:85-114 | a transport or decoding failure raises the connection error; an answer without a truthy url raises with its message; otherwise the payment id is recorded and the values carry the url and the reference |
| WipayTransaction.SpecificRenderingValues | payment_wipay/models/payment_transaction.py:37-116 | other providers keep the generic values; for WiPay it succeeds iff the answer has a truthy 'url'; a failed request and a url-less answer raise their two ValidationErrors; on success WiPay's transaction_id is recorded, nothing else of the transaction changes, and the values are the built payload with the url and the reference, with the fixed currency and environment, signed iff a key is set |
| WipayTransaction.CheckoutRendering | payment_wipay/models/payment_transaction.py:130-150 | test becomes enabled, other states are kept, nothing else of the provider changes, and the values name provider and reference |
| WipayTransaction.CheckoutRenderingIdempotent | payment_wipay/models/payment_transaction.py:142-144 | after one rendering the provider is not in test mode and a second rendering changes nothing |
| WipayFees.RatesFor | payment_wipay/models/payment_fees.py:21-40 | an unknown country uses the TT row |
| WipayFees.FullFee | payment_wipay/models/payment_fees.py:16-59 | a non-negative amount never yields a negative fee |
| WipayFees.ApplyFeeStructure | payment_wipay/models/payment_fees.py:61-67 | merchant_absorb charges 0, split exactly half, anything else the full fee, so 0 ≤ charge ≤ fee |
| WipayFees.WipayFee | payment_wipay/models/payment_fees.py:9-67 | non-WiPay transactions pay 0; a WiPay fee lies between 0 and the full fee |
| WipayFees.ComputeFees | payment_wipay/models/payment_fees.py:69-74 | `fees` is overwritten for WiPay transactions only |
| WipayFees.TrinidadFee | payment_wipay/models/payment_fees.py:40-55 | TT pays 3.00% when enabled and 3.50% otherwise, plus 0.25 in USD, 0.25×6.80 in TTD, nothing in other currencies |
| WipayFees.TaxedCountryFee | payment_wipay/models/payment_fees.py:27-59 | JM and BB pay their own percentage times 1.15 |
| WipayFees.UnknownCountryFee | payment_wipay/models/payment_fees.py:40-59 | another country pays TT's percentage with neither the fixed fee nor a tax |
| WipayFees.FeeMonotonic | payment_wipay/models/payment_fees.py:42-67 | a larger amount never costs a smaller fee |
| WipayPaymentProvider.ComputeFee | wipay_payment/models/payment_provider.py:40-50 | other providers get the generic fee; outside the live environment or in another currency the fee is 0 |
| WipayPaymentProvider.LiveFeeTable | wipay_payment/models/payment_provider.py:43-50 | live: USD 3.8%+0.25, TTD 3.5%+0.25, JMD 4.2% |
| WipayPaymentProvider.CheckApiKey | wipay_payment/models/payment_provider.py:27-31 | the record set passes iff no WiPay provider has an empty API key |
| WipayPaymentProvider.CheckAccountNumber | wipay_payment/models/payment_provider.py:33-37 | the record set passes iff no WiPay provider has an empty account number |
| WipayPaymentProvider.ConstraintsIgnoreOtherProviders | wipay_payment/models/payment_provider.py:27-37 | non-WiPay providers never trip either constraint |
| WipayPaymentProvider.WithCredentials | wipay_payment/models/payment_provider.py:63-67 | the three credentials overwrite caller values; every other key is kept |
| WipayPaymentProvider.WithFlag | wipay_payment/models/payment_provider.py:68-71 | a flag is set to '1' when on and the data is untouched otherwise |
| WipayPaymentProvider.AugmentRequestData | wipay_payment/models/payment_provider.py:63-71 | credentials are always present; avs and tokenize are '1' when enabled and the caller's value otherwise |
| WipayPaymentProvider.AugmentKeepsCallerData | wipay_payment/models/payment_provider.py:63-71 | every other caller key goes out unchanged |
| WipayPaymentProvider.AugmentDropsNoKey | wipay_payment/models/payment_provider.py:63-71 | no caller key is dropped |
| WipayPaymentProvider.FlagsIffEnabled | wipay_payment/models/payment_provider.py:68-71 | for a caller that did not send them, avs and tokenize are present iff enabled |
| WipayPaymentProvider.FailureError | wipay_payment/models/payment_provider.py:82-90 | timeout, HTTP error and other failures each surface as a ValidationError |
| WipayPaymentProvider.MakeRequest | wipay_payment/models/payment_provider.py:53-90 | the intended behaviour: the augmented data is posted; every answer is returned with follow-up done/cancel/none by its status; every failure is a ValidationError |
| WipayPaymentProvider.MakeRequestAsWritten | wipay_payment/models/payment_provider.py:53-90 | as written: an answer is returned iff its status is neither 'success' nor 'failed'; those two raise the generic "request failed" error; transport failures keep their own messages |
| WipayPaymentProvider.SuccessfulAnswerReportedAsFailure | wipay_payment/models/payment_provider.py:75-90 | a 'success' answer is a failed request as written and a done follow-up as intended |
| WipayPaymentProvider.AsWrittenAgreesWithoutFollowUp | wipay_payment/models/payment_provider.py:53-90 | outside the two follow-up statuses, as written and as intended give the same posted data, answer and errors |
| CivilDate.AddDays | payment_wipay/models/payment_recurring.py:94 | adding n days yields a valid date whose day number is exactly n more, so a strictly later one when n > 0 |
| CivilDate.YearLength | payment_wipay/models/payment_recurring.py:94 | a year holds 366 days iff it is a leap year, in the day numbering |
| CivilDate.NextDayNumber | payment_wipay/models/payment_recurring.py:94 | the following date is the following day number |
| CivilDate.AddMonths | payment_wipay/models/payment_recurring.py:96 | the month index advances by n; the day is kept when the target month has it and is that month's last day otherwise |
| CivilDate.AddYears | payment_wipay/models/payment_recurring.py:98 | same month and day n years later, except that 29 February becomes the 28th when the target year is common |
| WipayRecurring.NewRecurring | payment_wipay/models/payment_recurring.py:22-27 | a new record is active with no payment made |
| WipayRecurring.Pause | payment_wipay/models/payment_recurring.py:100-102 | paused, nothing else changes |
| WipayRecurring.Resume | payment_wipay/models/payment_recurring.py:104-109 | active and due today, nothing else changes |
| WipayRecurring.Cancel | payment_wipay/models/payment_recurring.py:111-113 | cancelled, nothing else changes |
| WipayRecurring.NextPaymentDate | payment_wipay/models/payment_recurring.py:88-98 | counted from today, always strictly after it: weekly is 7 days later; monthly is the next month on the same day, or that month's last day when it is shorter; yearly is the same date next year, 29 February becoming the 28th in a common year |
| WipayRecurring.ProcessRecurring | payment_wipay/models/payment_recurring.py:48-86 | succeeds iff the charge ends done; then the count rises by one, last payment is today and the next date is recomputed; otherwise the state message or the raised error is reported and nothing is booked |
| WipayRecurring.CountDue | payment_wipay/models/payment_recurring.py:33-36 | never more records are due than exist |
| WipayRecurring.CronProcess | payment_wipay/models/payment_recurring.py:30-46 | as intended: every record is processed independently, exactly the due ones are charged, and a failure leaves its record unchanged without stopping the loop |
| WipayRecurring.CronProcessAsWritten | payment_wipay/models/payment_recurring.py:30-46 | as written: the job raises NameError iff some due record's charge fails; otherwise every record ends as the intended job leaves it |
| WipayRecurring.LaterDueRecordNeverCharged | payment_wipay/models/payment_recurring.py:38-46 | with two due records of which the first fails, the job as written raises, while the intended job books the second |
| WipayRecurring.CronBooksExactlyTheSuccessfulDueRecords | payment_wipay/models/payment_recurring.py:33-75 | the job changes a record iff it is active, due and its charge is done |
| WipayRecurring.OnlyActiveRecordsAreDue | payment_wipay/models/payment_recurring.py:33-36 | paused and cancelled records are never picked; a resumed one is due the same day |
| WipayRecurring.ChargedRecordNotDueAgain | payment_wipay/models/payment_recurring.py:69-75 | a booked record is not due again the same day |
| WipayToken.CardTypeKey | payment_wipay/models/payment_token.py:10-13 | the stored key is visa or mastercard |
| WipayToken.ParseCardType | payment_wipay/models/payment_token.py:10-13 | exactly the two keys are accepted |
| WipayToken.CardTypeRoundTrip | payment_wipay/models/payment_token.py:10-13 | parsing a card type's key gives the card type back |
| WipayToken.WipayCreate | payment_wipay/models/payment_token.py:17-32 | raises the incomplete-data error iff a required key is missing; succeeds iff also provider and partner are present and the card type is empty or one the selection offers; an empty card type is stored as False; any other card type raises the ORM's ValueError with the value in repr quotes; copies the four values and sets verified |
| WipayToken.CardTypeText | payment_wipay/models/payment_token.py:56 | the stored key parses back to the card type |
| WipayToken.GetPaymentDetails | payment_wipay/models/payment_token.py:50-59 | other providers get the generic details; WiPay returns exactly the four stored fields |
| WipayToken.DetailsRoundTrip | payment_wipay/models/payment_token.py:17-59 | a token created from WiPay's data reports exactly the values it was created from, an empty card type as False |
| WipayToken.WipayTokens | payment_wipay/models/payment_token.py:36-38 | exactly the WiPay tokens are visited |
| WipayToken.HandleDeactivation | payment_wipay/models/payment_token.py:34-48 | never raises, changes no token, and visits exactly the WiPay ones |
| WipaySecurity.SanitizeValue | payment_wipay/controllers/security_middleware.py:134-140 | a sensitive key is masked even over a dict; a non-sensitive dict is sanitised recursively; any other value is kept |
| WipaySecurity.Sanitize | payment_wipay/controllers/security_middleware.py:118-142 | same length and the same key at every position |
| WipaySecurity.SanitizeKeepsKeys | payment_wipay/controllers/security_middleware.py:133-142 | the key set and key order are kept |
| WipaySecurity.SanitizeEntries | payment_wipay/controllers/security_middleware.py:134-140 | every entry is its key with the sanitised value |
| WipaySecurity.SanitizeValueIsClean | payment_wipay/controllers/security_middleware.py:128-140 | a sanitised value hides every sensitive key at every depth |
| WipaySecurity.SanitizeIsClean | payment_wipay/controllers/security_middleware.py:128-142 | a sanitised dict hides every sensitive key at every depth |
| WipaySecurity.SanitizeValueFixesClean | payment_wipay/controllers/security_middleware.py:134-140 | an already clean value is left as is |
| WipaySecurity.SanitizeFixesClean | payment_wipay/controllers/security_middleware.py:133-142 | an already clean dict is left as is |
| WipaySecurity.SanitizeChangesOnlyUnclean | payment_wipay/controllers/security_middleware.py:133-142 | sanitising leaves a dict unchanged iff it is clean |
| WipaySecurity.SanitizeIdempotent | payment_wipay/controllers/security_middleware.py:133-142 | sanitising twice equals sanitising once |
| WipaySecurity.ValidateIp | payment_wipay/controllers/security_middleware.py:144-159 | no list or an empty one admits everyone; otherwise membership decides |
| WipaySecurity.AllowListMonotonic | payment_wipay/controllers/security_middleware.py:155-159 | extending a non-empty allow-list never rejects an admitted address |
| WipaySecurity.RateLimitCheck | payment_wipay/controllers/security_middleware.py:161-175 | always admits |
| WipaySecurity.SortByKey | payment_wipay/controllers/security_middleware.py:43 | the result is strictly key-sorted and holds exactly the payload's entries |
| WipaySecurity.SortedUnique | payment_wipay/controllers/security_middleware.py:43 | two key-sorted dicts with the same entries are equal |
| WipaySecurity.SigningString | payment_wipay/controllers/security_middleware.py:42-46 | the string is the timestamp, a colon, then the rendering of the key-sorted payload |
| WipaySecurity.GenerateSignature | payment_wipay/controllers/security_middleware.py:31-55 | the HMAC under the secret of the timestamp, a colon and the rendering of the key-sorted payload, so it depends on the payload's entries and not their insertion order |
| WipaySecurity.SignatureIndependentOfOrder | payment_wipay/controllers/security_middleware.py:42-55 | equal dicts in any insertion order have the same signing string and signature |
| WipaySecurity.VerifySignature | payment_wipay/controllers/security_middleware.py:57-93 | an unparsable timestamp and a stale request raise; a fresh one returns whether the signature matches and never raises on a mismatch |
| WipaySecurity.SignedRequestVerifies | payment_wipay/controllers/security_middleware.py:75-93 | a fresh request signed over the same dict verifies, whatever the key order |
| WipayControllers.WriteBack | payment_wipay/controllers/main.py:54 | only the WiPay transaction with the processed reference is replaced |
| WipayControllers.NotificationHandler | payment_wipay/controllers/main.py:54 | it raises exactly when the lookup or the processing raises, with the same error; a failed lookup writes nothing; only the WiPay transaction named by order_id can change, and once the lookup succeeds it is stored exactly as the processing left it, so the status mapping and any write made before a raise reach the database |
| WipayControllers.ReturnReference | payment_wipay/controllers/main.py:23 | order_id when truthy, else transaction_id |
| WipayControllers.FirstByReference | payment_wipay/controllers/main.py:27 | the first transaction with the reference, or none when there is none |
| WipayControllers.ApplyReturnStatus | payment_wipay/controllers/main.py:31-35 | success sets done and clears the state message; anything else sets error with "Payment declined: " and the message |
| WipayControllers.ReturnDirectUpdate | payment_wipay/controllers/main.py:23-35 | with no match nothing changes; otherwise only the found record changes: done with no state message and nothing else changed iff status is success, else error declined with the message (default '') |
| WipayControllers.WipayReturn | payment_wipay/controllers/main.py:21-38 | the data is always forwarded after the direct update and the redirect goes to /payment/status with the handled database iff handling does not raise; a raise escapes with the handler's error |
| WipayControllers.MissingStatusDeclines | payment_wipay/controllers/main.py:25-35 | a return without status marks the found transaction as error |
| WipayControllers.WipayWebhook | payment_wipay/controllers/main.py:40-59 | Forbidden iff the form is empty and a non-empty body is not JSON; otherwise, for the form or the decoded body: 'ko' with the handler's writes kept iff handling raises a ValidationError, 'ok' when it succeeds; other errors escape |
| WipayControllers.MissingMethodWebhookKeepsPaymentId | payment_wipay/controllers/main.py:53-57 | a genuine notification with no 'wipay' payment method is answered 'ko' and the WiPay id stays written on the transaction |
| WipayControllers.ForgedWebhookRejected | payment_wipay/controllers/main.py:53-57 | a forged notification for a known transaction is answered 'ko' and changes nothing |
| WipayControllers.ForgedJsonWebhookRejected | payment_wipay/controllers/main.py:45-57 | the same for a forged notification posted as a JSON body |
| WipayControllers.GenuineWebhookAccepted | payment_wipay/controllers/main.py:53-59 | a genuine notification for a known transaction is answered 'ok' and records WiPay's id |
| BankCsvImport.Strip | republic_bank_csv_import/models/import_transaction_wizard.py:34 | a contiguous slice without the surrounding characters `str.isspace()` accepts, and nothing else removed |
| BankCsvImport.StripIdempotent | republic_bank_csv_import/models/import_transaction_wizard.py:34 | stripping twice equals stripping once |
| BankCsvImport.AfterLast | republic_bank_csv_import/models/import_transaction_wizard.py:34 | the suffix after the last separator, containing no separator; the whole text when there is none |
| BankCsvImport.AfterLastOfJoin | republic_bank_csv_import/models/import_transaction_wizard.py:34 | text after a separator that it does not contain is recovered whole |
| BankCsvImport.ExtractAccount | republic_bank_csv_import/models/import_transaction_wizard.py:29-35 | absent iff no dash occurs; otherwise the first of en dash, hyphen, em dash present decides |
| BankCsvImport.EnDashWins | republic_bank_csv_import/models/import_transaction_wizard.py:31-35 | an en dash separator yields the stripped number even when the name holds hyphens |
| BankCsvImport.ParseRow | republic_bank_csv_import/models/import_transaction_wizard.py:38-49 | succeeds iff ten columns, a date and an amount parse; a bad date raises UserError naming row i+1; an unreadable amount raises Python's float message with the cell's repr; columns 3, 5, 6, 7, 8, 9 feed date, description, type, currency, amount, cheque |
| BankCsvImport.Step | republic_bank_csv_import/models/import_transaction_wizard.py:28-50 | row 2 sets the account, rows after 12 that are non-empty add a transaction, every other row is ignored |
| BankCsvImport.ScanRows | republic_bank_csv_import/models/import_transaction_wizard.py:28-50 | the loop computes the scan of all rows |
| BankCsvImport.ScanStopsAtFirstError | republic_bank_csv_import/models/import_transaction_wizard.py:38-41 | once a row raises, later rows change nothing |
| BankCsvImport.AccountFromRowTwo | republic_bank_csv_import/models/import_transaction_wizard.py:29-35 | the account comes only from row 2, column 2 |
| BankCsvImport.TransactionRows | republic_bank_csv_import/models/import_transaction_wizard.py:37 | exactly the non-empty rows after 12, in file order |
| BankCsvImport.TransactionsAreTheTransactionRows | republic_bank_csv_import/models/import_transaction_wizard.py:37-50 | the transactions are the parsed transaction rows, one each, in order |
| BankCsvImport.HeaderRowsIgnored | republic_bank_csv_import/models/import_transaction_wizard.py:28-50 | rows 0-12 other than row 2 do not influence the scan |
| BankCsvImport.SanitizeAccountNumber | republic_bank_csv_import/models/import_transaction_wizard.py:54 | the number that an `acc_number` search compares: only word characters remain, none of them a lower-case letter, and it is empty iff the text holds no word character |
| BankCsvImport.SanitizeAccountNumberIdempotent | republic_bank_csv_import/models/import_transaction_wizard.py:54 | a sanitised number is its own sanitised form |
| BankCsvImport.SanitizeAccountNumberAppend | republic_bank_csv_import/models/import_transaction_wizard.py:54 | sanitising works piece by piece over concatenation |
| BankCsvImport.FindBankAccount | republic_bank_csv_import/models/import_transaction_wizard.py:54-56 | none iff no account's sanitised number equals the sanitised text; a found account is one of the records and matches it |
| BankCsvImport.FindBankAccountSeesSanitized | republic_bank_csv_import/models/import_transaction_wizard.py:54 | two texts with the same sanitised number find the same account |
| BankCsvImport.SeparatorIgnored | republic_bank_csv_import/models/import_transaction_wizard.py:54 | a space, dash or other non-word character in the number never changes the account found |
| BankCsvImport.LetterCaseIgnored | republic_bank_csv_import/models/import_transaction_wizard.py:54 | the case of a letter in the number never changes the account found |
| BankCsvImport.FindCurrency | republic_bank_csv_import/models/import_transaction_wizard.py:75 | none iff no currency has that name |
| BankCsvImport.LineFor | republic_bank_csv_import/models/import_transaction_wizard.py:74-92 | payment_ref is the cheque when non-empty, else the description; foreign-currency fields are set iff the currency is found and is not the company's |
| BankCsvImport.BuildStatement | republic_bank_csv_import/models/import_transaction_wizard.py:52-92 | fails iff the account number is absent, the account unknown, it links several journals (the singleton error of reading `suspense_account_id`), or it links none or one without a suspense account, each with its message; otherwise one line per transaction in order on that one journal |
| Common.PyRepr | republic_bank_csv_import/models/import_transaction_wizard.py:46 | `repr` quotes with ' unless the text holds ' and no ", and a text with nothing to escape is quoted as it is |
| Common.PyReprRoundTrip | republic_bank_csv_import/models/import_transaction_wizard.py:46 | reading back what `repr` wrote between the quotes gives the original text |
| BankCsvImport.ImportTransactions | republic_bank_csv_import/models/import_transaction_wizard.py:17-92 | a missing file raises before any parsing; otherwise the scan then the statement build decide |
| BankCsvImport.OneLinePerTransactionRow | republic_bank_csv_import/models/import_transaction_wizard.py:74-92 | the statement has one line per transaction row of the file |
| PayrollMondays.MondaysIn | payroll_salary_calculation/models/hr_employee.py:11-14 | an empty range has none; no more than its length |
| PayrollMondays.CalculateMondays | payroll_salary_calculation/models/hr_employee.py:9-17 | the number of Mondays in [from, to), or 1 when there are none |
| PayrollMondays.MondaysAreCounted | payroll_salary_calculation/models/hr_employee.py:11-14 | the count equals the size of the set of days in range whose weekday is 0 |
| PayrollMondays.MondaysSplit | payroll_salary_calculation/models/hr_employee.py:11-14 | counts over adjacent ranges add up |
| PayrollMondays.OneMondayPerWeek | payroll_salary_calculation/models/hr_employee.py:11-14 | any seven consecutive days hold exactly one Monday |
| PayrollMondays.WholeWeeks | payroll_salary_calculation/models/hr_employee.py:11-14 | a range of 7k days holds exactly k Mondays |
| PayrollMondays.NoMondayInPartialWeek | payroll_salary_calculation/models/hr_employee.py:11-16 | an empty range, or a span that ends before the next Monday, holds none, so the method returns 1 |
| PayrollMondays.NoMondayBeforeWeekEnds | payroll_salary_calculation/models/hr_employee.py:11-14 | starting after a Monday, no Monday occurs before the week ends |
| LlmChat.ReceivedIn | website_anythingllm_chat/models/llm_chat.py:111-114 | exactly the channel's received messages |
| LlmChat.ReceivedInSnoc | website_anythingllm_chat/models/llm_chat.py:111-114 | a record created last is appended to the selection iff it is a received message of the channel, otherwise the selection is unchanged |
| LlmChat.ReceivedInAppend | website_anythingllm_chat/models/llm_chat.py:111-114 | the selection distributes over concatenation, so the received messages come in creation order |
| LlmChat.Pairs | website_anythingllm_chat/models/llm_chat.py:116-121 | two entries per message: the user message then the assistant response |
| LlmChat.ChatHistory | website_anythingllm_chat/models/llm_chat.py:109-122 | length 2·min(n, limit), 0 meaning no limit, the most recent messages oldest first, each as a "user" entry with its message then an "assistant" entry with its response |
| LlmChat.HistoryIgnoresPendingMessages | website_anythingllm_chat/models/llm_chat.py:111-114 | a message of another channel or not received does not change the history |
| LlmChat.RequestHeaders | website_anythingllm_chat/models/llm_chat.py:58-62 | JSON content type always; Authorization iff an API key is configured |
| LlmChat.SendLlmMessage | website_anythingllm_chat/models/llm_chat.py:34-107 | a disabled channel returns False and records nothing; a missing URL raises before recording; otherwise one message is recorded; it ends received with the API's 'response' and True exactly when the request built from it is answered, and in error with the raised text (and any response already written) and False otherwise |
| LlmChat.RequestCarriesEarlierHistory | website_anythingllm_chat/models/llm_chat.py:49-65 | the request goes to the configured URL with the headers, the message, and the channel's history from before the message was recorded |
| LlmChat.ReceivedMessageExtendsHistory | website_anythingllm_chat/models/llm_chat.py:85-122 | a successful exchange appends its message to the channel's received messages, so the next history ends with the message as the "user" turn and its response as the "assistant" turn |
| LlmChat.CreateChannel | website_anythingllm_chat/models/llm_chat.py:124-129 | a chat channel always has the bridge enabled; other types are unchanged |
| ChatterFields.ChatIconLabel | website_anythingllm_chat/models/chatter_fields.py:41-45 | a label is non-empty exactly for the six known keys |
| ChatterFields.PositionLabel | website_anythingllm_chat/models/chatter_fields.py:47-50 | a label is non-empty exactly for the four known keys |
| ChatterFields.Emitted | website_anythingllm_chat/models/chatter_fields.py:88-109 | ignored fields are skipped; width and height only when non-zero with their suffix; the flag as on/off; text size with px; selections as labels; Char fields iff truthy |
| ChatterFields.Entries | website_anythingllm_chat/models/chatter_fields.py:88-109 | every written attribute is a non-ignored field with its emitted value, and every emittable field is written |
| ChatterFields.GenerateHtml | website_anythingllm_chat/models/chatter_fields.py:85-112 | the tag starts with "<script", ends with ">\n</script>", and in between holds the rendering of the entries in field order |
| ChatterFields.EntriesAppend | website_anythingllm_chat/models/chatter_fields.py:88-109 | the entries distribute over concatenating field lists, so attributes follow field order |
| ChatterFields.EntriesOfOne | website_anythingllm_chat/models/chatter_fields.py:88-109 | one field gives its attribute, with the emitted value, iff it is emitted, and nothing otherwise |
| ChatterFields.EmittedIgnoresHtml | website_anythingllm_chat/models/chatter_fields.py:89-90 | the stored tag never changes whether or how a field is written |
| ChatterFields.RenderAppend | website_anythingllm_chat/models/chatter_fields.py:95-109 | rendering distributes over concatenation, one `\n\t<name>="<value>"` line per entry |
| ChatterFields.EntryInHtml | website_anythingllm_chat/models/chatter_fields.py:85-112 | every entry appears in the tag as its attribute line |
| ChatterFields.OpenOnLoadInHtml | website_anythingllm_chat/models/chatter_fields.py:99-103 | the tag holds the open-on-load line with "on" or "off" |
| ChatterFields.TextSizeInHtml | website_anythingllm_chat/models/chatter_fields.py:104-105 | the tag holds the text-size line with the size in px |
| ChatterFields.SelectionsInHtml | website_anythingllm_chat/models/chatter_fields.py:106-107 | the tag holds the chat-icon and position lines with their labels |
| ChatterFields.CharFieldInHtml | website_anythingllm_chat/models/chatter_fields.py:108-109 | a set Char field appears in the tag with its value |
| ChatterFields.OpenOnLoadAlwaysEmitted | website_anythingllm_chat/models/chatter_fields.py:99-103 | open-on-load is always written, as on or off |
| ChatterFields.TextSizeAlwaysEmitted | website_anythingllm_chat/models/chatter_fields.py:104-105 | the text size is always written with px, even when 0 |
| ChatterFields.ChatIconAlwaysEmitted | website_anythingllm_chat/models/chatter_fields.py:106-107 | the chat icon is always written as its label |
| ChatterFields.PositionAlwaysEmitted | website_anythingllm_chat/models/chatter_fields.py:106-107 | the position is always written as its label |
| ChatterFields.WindowSizeEmittedIffNonZero | website_anythingllm_chat/models/chatter_fields.py:93-98 | width and height are written iff non-zero, with their suffix |
| ChatterFields.CharFieldEmittedIffSet | website_anythingllm_chat/models/chatter_fields.py:108-109 | a Char field is written iff truthy |
| ChatterFields.UpdateHtmlField | website_anythingllm_chat/models/chatter_fields.py:81-83 | only the stored tag changes, to the generated one |
| ChatterFields.UpdateHtmlFieldIdempotent | website_anythingllm_chat/models/chatter_fields.py:81-90 | regenerating after an update gives the same tag, because the stored tag is ignored |
| ChatterFields.EntriesIgnoreHtml | website_anythingllm_chat/models/chatter_fields.py:89-90 | the stored tag never influences the attributes |
| ChatterFields.Create | website_anythingllm_chat/models/chatter_fields.py:65-72 | creation succeeds iff no record exists |
| ChatterFields.CreateMany | website_anythingllm_chat/models/chatter_fields.py:65-72 | a list of records is created iff it is empty, or holds one record and the table is empty; then the table gains exactly those records, otherwise the call raises the source's UserError |
| ChatterFields.CreateManyKeepsOneRecord | website_anythingllm_chat/models/chatter_fields.py:65-72 | a list creation never takes a table of at most one record past one |
| ChatterFields.AtMostOneRecord | website_anythingllm_chat/models/chatter_fields.py:65-72 | no series of creations gets past one record, and the first creation stays |

## Left out

- Hashing, encryption and randomness are parameters. The model only builds the strings they receive and compares their results. This covers:
  - MD5 (payment_transaction.py);
  - HMAC-SHA256 and `compare_digest` (security_middleware.py);
  - Fernet in `encrypt_card_data` and `secrets` in `generate_nonce`.

  The two functions that wrap Fernet and `secrets` are not modelled.
- HTTP and JSON are outcome parameters: the WiPay and AnythingLLM posts, `raise_for_status` and `response.json()`. JSON bodies are objects of strings; a non-object JSON body is not modelled.
- ORM side effects are returned values: `search`, `create`, `write`, `message_post` and `env.ref`. Some rules are not modelled:
  - the allowed-source-state rules of `_set_done`, `_set_pending`, `_set_canceled` and `_set_error`, which live in the generic payment module;
  - the rollback of a request whose error escapes the route: `WipayReturn` then returns the error without a database;
  - `ensure_one`, except where a singleton failure is a visible outcome (`HandleNotification`).
- `_get_payment_method_line_fields`, `_generate_payment_vals_from_tx`, `_get_default_payment_method_id`, `_should_show_payment_icon_wizard`, `_compute_website_url`, `_get_payment_product_id`, `_should_show_in_website_express_checkout`, `_get_website_payment_form_data` and `_compute_feature_support_fields` are not modelled. They only look up ORM records, set framework flags or copy fields into a dictionary.
- `wipay_pay` on the controller is not modelled: it only creates an ORM record. `action_sync` and `_get_attribute_name` of the chat widget are not modelled either: they only write a website field or look up field metadata.
- WipayPaymentProvider.MakeRequest: the intended follow-up is named, not carried out: no transaction is passed in to mark done or cancelled.
- WipayRecurring.CronProcess: models the evident intent, in which a failure is swallowed and the loop goes on. The code as written is `CronProcessAsWritten`; see "## Findings".
- WipayRecurring.CronProcessAsWritten: the cron's rollback of the writes made before the raise is not modelled; the error is returned without records.
- WipayRecurring.ProcessRecurring: the failure is posted with `message_post`, which `payment.recurring.wipay` lacks because it does not inherit `mail.thread`. The model reports the charge's own error instead of the AttributeError that call would raise.
- WipaySecurity.VerifySignature: `SecurityError` is not an exception Odoo defines, so the import itself would fail. It is modelled as an error value with the source's messages. The parsing of the timestamp and the clock are parameters.
- Floating point is replaced by exact reals: fee arithmetic, `float(row[8])`, `:.2f` formatting, and the age of a request in seconds. Fees are exact rather than rounded doubles.
- WipaySecurity.Lower: `str.lower()` is modelled on ASCII letters only.
- Common.PyRepr: every character beyond ASCII is taken to be printable. `repr` would escape the non-printable ones as `\x`, `\u` or `\U` sequences.
- Decoding the upload is not modelled: base64, UTF-8 and CSV quoting. The file is the list of rows `csv.reader` would produce. The debug `print` is left out.
- BankCsvImport.SanitizeAccountNumber: `\W` and `str.upper()` are modelled exactly on ASCII. Every non-ASCII character that is not whitespace counts as a word character and keeps its case, so non-ASCII punctuation such as an en dash inside the number is kept.
- BankCsvImport.FindBankAccount: the records given stand for the active `res.partner.bank` records in their default order; the `active` filter and the ordering are not modelled.
- BankCsvImport.BuildStatement: the singleton error's message is "Expected singleton" without the record ids Odoo appends. The statement name's time stamp, the statement date and `action_open_reconcile` come from the clock and the framework. The time stamp is a parameter and the action is not modelled.
- PayrollMondays.CalculateMondays: takes day ordinals. The `False` defaults of `date_from` and `date_to`, which raise a TypeError in the comparison, are not modelled.
- CivilDate.AddDays: the OverflowError of a date past 9999-12-31 is not modelled; the calendar is unbounded.
- CivilDate.AddMonths: the ValueError of a year past 9999 is not modelled; the calendar is unbounded.
- CivilDate.AddYears: the ValueError of a year past 9999 is not modelled; the calendar is unbounded.
- LlmChat.ChatHistory: messages are ordered by their position in the table. Ties in `create_date` are not modelled. A limit of 0 reads as no limit, as the ORM does. The sender's `user_id` default is not modelled.
- ChatterFields.GenerateHtml: the mapping from field names to attribute names lives in `chatter_fields_mapper`, which is not part of this model, so it is a parameter. The field order is the declaration order, after the ORM's magic fields. No ORM magic field that might be missing from `FIELDS_TO_IGNORE` (such as `__last_update` in some versions) is modelled.
- WipayToken.WipayCreate: the provider and partner ids are kept as the text they were given as. A missing card-type key falls into the incomplete-data error, so a `None` value is not modelled.
- `res_config_settings.py` of the chat addon is not modelled: it only stores the API URL and key that `LlmSettings` receives.

## Findings

| source | as written | input that shows it | evidently intended | confidence | as-written member | corrected member |
|---|---|---|---|---|---|---|
| wipay_payment/models/payment_provider.py:76-79 | on a 'success' or 'failed' answer, `_wipay_make_request` calls `_set_transaction_done` or `_set_transaction_cancel`. Neither is defined by the addon or by `payment`, its only dependency. The AttributeError is caught at lines 88-90 and reported as "Wipay API request failed. Please check your settings." | any answer `{'status': 'success'}` | return the answer and mark the transaction done or cancelled | not executed; high | WipayPaymentProvider.MakeRequestAsWritten, WipayPaymentProvider.SuccessfulAnswerReportedAsFailure | WipayPaymentProvider.MakeRequest |
| payment_wipay/models/payment_recurring.py:41-46 | the `except` clause of the cron loop logs through `_logger`, which payment_recurring.py never defines. The NameError escapes the loop at the first due record whose charge fails | two due records, the first one's charge not ending done | log the failure and go on with the next record | not executed; high | WipayRecurring.CronProcessAsWritten, WipayRecurring.LaterDueRecordNeverCharged | WipayRecurring.CronProcess |

=== FILE: bank_csv_import.dfy ===
/** The `import.transaction.wizard` of `republic_bank_csv_import`: reading a
    Republic Bank CSV export into a bank statement. Row 2 carries the account
    number after a dash; every non-empty row after row 12 is a transaction.
    The uploaded file is given already split into rows of cells; the date
    parser (`strptime` with '%d-%m-%Y %H:%M:%S'), `float()` and the clock
    are parameters. The searches for bank accounts and currencies scan the
    records of the import's `Context`, which stand for the active records
    of `res.partner.bank` and `res.currency` in their default order. */
module BankCsvImport {
  import opened Common
  import opened CivilDate

  type Row = seq<string>

  /** The wizard's `file` field. */
  datatype Upload = NoFile | CsvFile(rows: seq<Row>)

  /** A parsed `datetime`. */
  datatype DateTime = DateTime(date: Date, secondOfDay: int)

  /** The dictionary built for each transaction row. */
  datatype ParsedTransaction = ParsedTransaction(
    date: DateTime,
    description: string,
    amount: real,
    kind: string,
    currency: string,
    cheque: string)

  // ---------------------------------------------------------------------
  // The account number
  // ---------------------------------------------------------------------

  const EN_DASH: char := '–'
  const HYPHEN: char := '-'
  const EM_DASH: char := '—'

  /** The characters `str.strip()` without arguments removes: those for
      which `str.isspace()` holds. */
  predicate IsSpace(c: char) {
    var n := c as int;
    9 <= n <= 13 || 28 <= n <= 32 || n == 0x85 || n == 0xA0 || n == 0x1680
    || 0x2000 <= n <= 0x200A || n == 0x2028 || n == 0x2029 || n == 0x202F || n == 0x205F || n == 0x3000
  }

  function StripLeft(s: string): (r: string)
    ensures |r| <= |s| && r == s[|s| - |r|..]
    ensures forall k :: 0 <= k < |s| - |r| ==> IsSpace(s[k])
    ensures r == "" || !IsSpace(r[0])
  {
    if |s| > 0 && IsSpace(s[0]) then StripLeft(s[1..]) else s
  }

  function StripRight(s: string): (r: string)
    ensures |r| <= |s| && r == s[..|r|]
    ensures forall k :: |r| <= k < |s| ==> IsSpace(s[k])
    ensures r == "" || !IsSpace(r[|r| - 1])
  {
    if |s| > 0 && IsSpace(s[|s| - 1]) then StripRight(s[..|s| - 1]) else s
  }

  /** `r` is a slice of `s` with only whitespace before and after it. */
  predicate FramedByWhitespace(s: string, r: string) {
    exists i, j :: 0 <= i <= j <= |s| && r == s[i..j]
      && (forall k :: 0 <= k < i ==> IsSpace(s[k]))
      && (forall k :: j <= k < |s| ==> IsSpace(s[k]))
  }

  /** Leading and trailing whitespace removed, nothing else. */
  function Strip(s: string): (r: string)
    ensures r == "" || (!IsSpace(r[0]) && !IsSpace(r[|r| - 1]))
    ensures FramedByWhitespace(s, r)
  {
    StripEndsNotSpace(s);
    StripFramed(s);
    StripRight(StripLeft(s))
  }

  /** Neither end of the stripped text is whitespace ... */
  lemma {:induction false} StripEndsNotSpace(s: string)
    ensures var r := StripRight(StripLeft(s));
      r == "" || (!IsSpace(r[0]) && !IsSpace(r[|r| - 1]))
  {
    var l := StripLeft(s);
    var r := StripRight(l);
    assert r == "" || r[0] == l[0];
  }

  /** ... and it is the slice between the leading and the trailing whitespace. */
  lemma {:induction false} StripFramed(s: string)
    ensures FramedByWhitespace(s, StripRight(StripLeft(s)))
  {
    var l := StripLeft(s);
    var r := StripRight(l);
    var i, j := SliceBetween(s, l, r, IsSpace);
    var before := forall k :: 0 <= k < i ==> IsSpace(s[k]);
    var after := forall k :: j <= k < |s| ==> IsSpace(s[k]);
    assert before && after;
    assert 0 <= i <= j <= |s| && r == s[i..j] && before && after;
  }

  /** Dropping a prefix of characters satisfying `p` and then a suffix of
      such characters leaves the slice `s[i..j]` framed by them. */
  lemma {:induction false} SliceBetween(s: string, l: string, r: string, p: char -> bool) returns (i: nat, j: nat)
    requires |l| <= |s| && l == s[|s| - |l|..]
    requires forall k :: 0 <= k < |s| - |l| ==> p(s[k])
    requires |r| <= |l| && r == l[..|r|]
    requires forall k :: |r| <= k < |l| ==> p(l[k])
    ensures i <= j <= |s| && r == s[i..j]
    ensures forall k :: 0 <= k < i ==> p(s[k])
    ensures forall k :: j <= k < |s| ==> p(s[k])
  {
    i, j := |s| - |l|, |s| - |l| + |r|;
    assert r == s[i..j];
    assert forall k :: j <= k < |s| ==> s[k] == l[k - i];
  }

  lemma StripIdempotent(s: string)
    ensures Strip(Strip(s)) == Strip(s)
  {
    var r := Strip(s);
    assert StripLeft(r) == r;
  }

  /** `s.split(c)[-1]`: what follows the last `c`, or all of `s`. */
  function AfterLast(s: string, c: char): (r: string)
    ensures |r| <= |s| && r == s[|s| - |r|..]
    ensures c !in r
    ensures |r| < |s| ==> s[|s| - |r| - 1] == c
    ensures c !in s ==> r == s
  {
    if |s| == 0 then ""
    else if s[|s| - 1] == c then ""
    else AfterLast(s[..|s| - 1], c) + [s[|s| - 1]]
  }

  /** The account text after a separator is recovered whole. */
  lemma {:induction false} AfterLastOfJoin(prefix: string, c: char, tail: string)
    requires c !in tail
    ensures AfterLast(prefix + [c] + tail, c) == tail
    decreases |tail|
  {
    if |tail| > 0 {
      var s := prefix + [c] + tail;
      var t' := tail[..|tail| - 1];
      var last := tail[|tail| - 1];
      assert s[|s| - 1] == last && last in tail;
      assert s[..|s| - 1] == prefix + [c] + t';
      AfterLastOfJoin(prefix, c, t');
      assert AfterLast(s, c) == AfterLast(prefix + [c] + t', c) + [last];
      assert tail == t' + [last];
    } else {
      assert (prefix + [c] + tail)[|prefix|] == c;
    }
  }

  /** The dash loop: the first of en-dash, hyphen, em-dash that occurs in the
      cell decides, and the stripped text after its last occurrence is taken. */
  function ExtractAccount(info: string): (acct: Option<string>)
    ensures acct.None? <==> EN_DASH !in info && HYPHEN !in info && EM_DASH !in info
    ensures EN_DASH in info ==> acct == Some(Strip(AfterLast(info, EN_DASH)))
    ensures EN_DASH !in info && HYPHEN in info ==> acct == Some(Strip(AfterLast(info, HYPHEN)))
    ensures EN_DASH !in info && HYPHEN !in info && EM_DASH in info ==> acct == Some(Strip(AfterLast(info, EM_DASH)))
  {
    if EN_DASH in info then Some(Strip(AfterLast(info, EN_DASH)))
    else if HYPHEN in info then Some(Strip(AfterLast(info, HYPHEN)))
    else if EM_DASH in info then Some(Strip(AfterLast(info, EM_DASH)))
    else None
  }

  /** An account cell "<bank name> – <number>" yields the number, whatever
      hyphens the bank name contains. */
  lemma EnDashWins(name: string, number: string)
    requires EN_DASH !in number
    ensures ExtractAccount(name + [EN_DASH] + number) == Some(Strip(number))
  {
    AfterLastOfJoin(name, EN_DASH, number);
    assert (name + [EN_DASH] + number)[|name|] == EN_DASH;
  }

  // ---------------------------------------------------------------------
  // Reading the rows
  // ---------------------------------------------------------------------

  /** The parsers the row loop calls. */
  datatype Parsers = Parsers(parseDate: string -> Option<DateTime>, parseFloat: string -> Option<real>)

  /** One transaction row (index `i`, non-empty). The dictionary is built
      left to right, so a short row fails at the first column it lacks, and
      an unreadable amount is reported before a missing cheque column. */
  function ParseRow(i: nat, row: Row, p: Parsers): (r: Result<ParsedTransaction>)
    requires |row| > 0
    ensures r.Ok? <==> |row| >= 10 && p.parseDate(row[3]).Some? && p.parseFloat(row[8]).Some?
    ensures |row| >= 4 && p.parseDate(row[3]).None? ==>
      r == Err(UserError("Invalid date format in row " + NatToString(i + 1) + ": " + row[1]))
    ensures |row| >= 9 && p.parseDate(row[3]).Some? && p.parseFloat(row[8]).None? ==>
      r == Err(ValueError("could not convert string to float: " + PyRepr(row[8])))
    ensures r.Ok? ==>
      r.value == ParsedTransaction(p.parseDate(row[3]).value, row[5], p.parseFloat(row[8]).value,
                                   row[6], row[7], row[9])
  {
    if |row| < 4 then Err(IndexError)
    else match p.parseDate(row[3])
      case None => Err(UserError("Invalid date format in row " + NatToString(i + 1) + ": " + row[1]))
      case Some(date) =>
        if |row| < 9 then Err(IndexError)
        else match p.parseFloat(row[8])
          case None => Err(ValueError("could not convert string to float: " + PyRepr(row[8])))
          case Some(amount) =>
            if |row| < 10 then Err(IndexError)
            else Ok(ParsedTransaction(date, row[5], amount, row[6], row[7], row[9]))
  }

  /** What the row loop has gathered so far. */
  datatype Scan = Scan(account: Option<string>, transactions: seq<ParsedTransaction>)

  /** Whether row `i` becomes a transaction. */
  predicate IsTransactionRow(i: nat, row: Row) {
    i > 12 && row != []
  }

  /** The loop body for row `i`. */
  function Step(i: nat, row: Row, p: Parsers, acc: Scan): (r: Result<Scan>)
    ensures i == 2 ==> (r.Ok? <==> |row| >= 3)
    ensures i == 2 && |row| >= 3 ==> r == Ok(acc.(account := ExtractAccount(row[2])))
    ensures IsTransactionRow(i, row) ==>
      r == (match ParseRow(i, row, p) case Err(e) => Err(e) case Ok(t) => Ok(acc.(transactions := acc.transactions + [t])))
    ensures i != 2 && !IsTransactionRow(i, row) ==> r == Ok(acc)
  {
    if i == 2 then
      if |row| < 3 then Err(IndexError) else Ok(acc.(account := ExtractAccount(row[2])))
    else if IsTransactionRow(i, row) then
      match ParseRow(i, row, p)
      case Err(e) => Err(e)
      case Ok(t) => Ok(acc.(transactions := acc.transactions + [t]))
    else Ok(acc)
  }

  /** The loop over the first `n` rows, stopped by the first error. */
  function ScanPrefix(rows: seq<Row>, n: nat, p: Parsers): Result<Scan>
    requires n <= |rows|
  {
    if n == 0 then Ok(Scan(None, []))
    else match ScanPrefix(rows, n - 1, p)
      case Err(e) => Err(e)
      case Ok(acc) => Step(n - 1, rows[n - 1], p, acc)
  }

  /** The `for i, row in enumerate(reader)` loop. */
  method ScanRows(rows: seq<Row>, p: Parsers) returns (r: Result<Scan>)
    ensures r == ScanPrefix(rows, |rows|, p)
  {
    var acc := Scan(None, []);
    var i := 0;
    while i < |rows|
      invariant 0 <= i <= |rows|
      invariant ScanPrefix(rows, i, p) == Ok(acc)
    {
      var step := Step(i, rows[i], p, acc);
      if step.Err? {
        r := step;
        ScanStopsAtFirstError(rows, i + 1, |rows|, p);
        return;
      }
      acc := step.value;
      i := i + 1;
    }
    r := Ok(acc);
  }

  /** Once a prefix fails, every longer prefix fails the same way. */
  lemma {:induction false} ScanStopsAtFirstError(rows: seq<Row>, n: nat, m: nat, p: Parsers)
    requires n <= m <= |rows|
    requires ScanPrefix(rows, n, p).Err?
    ensures ScanPrefix(rows, m, p) == ScanPrefix(rows, n, p)
    decreases m - n
  {
    if n < m {
      ScanStopsAtFirstError(rows, n, m - 1, p);
    }
  }

  /** The account number comes from row 2 alone, and is absent in a file of
      fewer than three rows. */
  lemma {:induction false} AccountFromRowTwo(rows: seq<Row>, n: nat, p: Parsers)
    requires n <= |rows| && ScanPrefix(rows, n, p).Ok?
    ensures n <= 2 ==> ScanPrefix(rows, n, p).value.account.None?
    ensures n > 2 ==> |rows[2]| >= 3 && ScanPrefix(rows, n, p).value.account == ExtractAccount(rows[2][2])
  {
    if n > 0 {
      ScanPrefixOkStep(rows, n, p);
      AccountFromRowTwo(rows, n - 1, p);
    }
  }

  /** A prefix that scans cleanly ends with one clean step over a shorter
      prefix that also scans cleanly. */
  lemma ScanPrefixOkStep(rows: seq<Row>, n: nat, p: Parsers)
    requires 0 < n <= |rows| && ScanPrefix(rows, n, p).Ok?
    ensures ScanPrefix(rows, n - 1, p).Ok?
    ensures ScanPrefix(rows, n, p) == Step(n - 1, rows[n - 1], p, ScanPrefix(rows, n - 1, p).value)
  {
  }

  /** The positions, in file order, of the rows that become transactions. */
  function TransactionRows(rows: seq<Row>, n: nat): (idx: seq<nat>)
    requires n <= |rows|
    ensures forall j :: 0 <= j < |idx| ==> idx[j] < n && IsTransactionRow(idx[j], rows[idx[j]])
    ensures forall i :: 0 <= i < n && IsTransactionRow(i, rows[i]) ==> i in idx
    ensures forall j, k :: 0 <= j < k < |idx| ==> idx[j] < idx[k]
  {
    if n == 0 then []
    else
      var earlier := TransactionRows(rows, n - 1);
      if IsTransactionRow(n - 1, rows[n - 1]) then
        AppendLargerIndex(earlier, n - 1);
        earlier + [n - 1]
      else earlier
  }

  /** Appending an index beyond every earlier one keeps the indices
      increasing and loses none. */
  lemma AppendLargerIndex(xs: seq<nat>, x: nat)
    requires forall j :: 0 <= j < |xs| ==> xs[j] < x
    requires forall j, k :: 0 <= j < k < |xs| ==> xs[j] < xs[k]
    ensures forall j, k :: 0 <= j < k < |xs + [x]| ==> (xs + [x])[j] < (xs + [x])[k]
    ensures forall j :: 0 <= j < |xs| ==> (xs + [x])[j] == xs[j]
    ensures forall i :: i in xs ==> i in xs + [x]
  {
  }

  /** The gathered transactions are exactly the parsed transaction rows, in
      file order. */
  lemma {:induction false} TransactionsAreTheTransactionRows(rows: seq<Row>, n: nat, p: Parsers)
    requires n <= |rows| && ScanPrefix(rows, n, p).Ok?
    ensures var txs := ScanPrefix(rows, n, p).value.transactions;
      var idx := TransactionRows(rows, n);
      |txs| == |idx|
      && forall j :: 0 <= j < |idx| ==> ParseRow(idx[j], rows[idx[j]], p) == Ok(txs[j])
  {
    if n > 0 {
      ScanPrefixOkStep(rows, n, p);
      TransactionRowsStep(rows, n);
      TransactionsAreTheTransactionRows(rows, n - 1, p);
      if IsTransactionRow(n - 1, rows[n - 1]) {
        var acc := ScanPrefix(rows, n - 1, p).value;
        ParsedPairsAppend(rows, p, TransactionRows(rows, n - 1), acc.transactions,
                          n - 1, ParseRow(n - 1, rows[n - 1], p).value);
      }
    }
  }

  /** Pairing one more parsed row with one more transaction keeps every
      position matched. */
  lemma ParsedPairsAppend(rows: seq<Row>, p: Parsers, idx: seq<nat>, txs: seq<ParsedTransaction>,
                          i: nat, t: ParsedTransaction)
    requires i < |rows| && rows[i] != [] && |idx| == |txs|
    requires forall j :: 0 <= j < |idx| ==> idx[j] < |rows| && rows[idx[j]] != []
    requires forall j :: 0 <= j < |idx| ==> ParseRow(idx[j], rows[idx[j]], p) == Ok(txs[j])
    requires ParseRow(i, rows[i], p) == Ok(t)
    ensures var idx', txs' := idx + [i], txs + [t];
      forall j :: 0 <= j < |idx'| ==> ParseRow(idx'[j], rows[idx'[j]], p) == Ok(txs'[j])
  {
  }

  /** One more row adds its own position exactly when it is a transaction row. */
  lemma TransactionRowsStep(rows: seq<Row>, n: nat)
    requires 0 < n <= |rows|
    ensures TransactionRows(rows, n)
      == TransactionRows(rows, n - 1) + (if IsTransactionRow(n - 1, rows[n - 1]) then [n - 1] else [])
  {
  }

  /** Rows 0, 1 and 3 to 12 are never looked at. */
  lemma {:induction false} HeaderRowsIgnored(rows: seq<Row>, other: seq<Row>, n: nat, p: Parsers)
    requires n <= |rows| == |other|
    requires forall i :: 0 <= i < |rows| && (i == 2 || i > 12) ==> rows[i] == other[i]
    ensures ScanPrefix(rows, n, p) == ScanPrefix(other, n, p)
  {
    if n > 0 {
      HeaderRowsIgnored(rows, other, n - 1, p);
    }
  }

  // ---------------------------------------------------------------------
  // Building the statement
  // ---------------------------------------------------------------------

  datatype Journal = Journal(id: nat, suspenseAccount: Option<nat>)
  /** A `res.partner.bank`; `journal_id` on it is a One2many, so it may link
      no journal, one or several. */
  datatype BankAccount = BankAccount(accNumber: string, journals: seq<Journal>)
  datatype Currency = Currency(id: nat, name: string)

  datatype Statement = Statement(name: string, date: Date, journalId: nat)

  datatype StatementLine = StatementLine(
    date: DateTime,
    paymentRef: string,
    paymentReference: string,
    amount: real,
    journalId: nat,
    foreignCurrencyId: Option<nat>,
    amountCurrency: Option<real>)

  /** The characters the `\W` of `re.sub(r'\W+', '', ...)` keeps: letters,
      digits and the underscore. */
  predicate IsWordChar(c: char) {
    'a' <= c <= 'z' || 'A' <= c <= 'Z' || '0' <= c <= '9' || c == '_' || (c as int > 0x7F && !IsSpace(c))
  }

  /** `str.upper()` on ASCII letters. */
  function UpperChar(c: char): (u: char)
    ensures !('a' <= u <= 'z')
    ensures IsWordChar(c) <==> IsWordChar(u)
  {
    if 'a' <= c <= 'z' then (c as int - 'a' as int + 'A' as int) as char else c
  }

  /** `sanitize_account_number`: the account number without its non-word
      characters, upper-cased. It is what `res.partner.bank` stores as
      `sanitized_acc_number` and what a search on `acc_number` compares. */
  function SanitizeAccountNumber(s: string): (t: string)
    ensures |t| <= |s|
    ensures forall i :: 0 <= i < |t| ==> IsWordChar(t[i]) && !('a' <= t[i] <= 'z')
    ensures (forall i :: 0 <= i < |s| ==> !IsWordChar(s[i])) <==> t == ""
  {
    if |s| == 0 then ""
    else if IsWordChar(s[0]) then [UpperChar(s[0])] + SanitizeAccountNumber(s[1..])
    else
      assert forall i :: 0 < i < |s| ==> s[i] == s[1..][i - 1];
      SanitizeAccountNumber(s[1..])
  }

  /** A sanitised number is its own sanitised form. */
  lemma {:induction false} SanitizeAccountNumberIdempotent(s: string)
    ensures SanitizeAccountNumber(SanitizeAccountNumber(s)) == SanitizeAccountNumber(s)
  {
    if |s| > 0 {
      SanitizeAccountNumberIdempotent(s[1..]);
      var t := SanitizeAccountNumber(s);
      if IsWordChar(s[0]) {
        assert t[0] == UpperChar(s[0]) && t[1..] == SanitizeAccountNumber(s[1..]);
      }
    }
  }

  /** `search([('acc_number', '=', number)], limit=1)` on bank accounts:
      Odoo rewrites the domain to compare sanitised numbers. */
  function FindBankAccount(banks: seq<BankAccount>, number: string): (b: Option<BankAccount>)
    ensures b.None? <==>
      forall i :: 0 <= i < |banks| ==> SanitizeAccountNumber(banks[i].accNumber) != SanitizeAccountNumber(number)
    ensures b.Some? ==> b.value in banks && SanitizeAccountNumber(b.value.accNumber) == SanitizeAccountNumber(number)
  {
    if |banks| == 0 then None
    else if SanitizeAccountNumber(banks[0].accNumber) == SanitizeAccountNumber(number) then Some(banks[0])
    else FindBankAccount(banks[1..], number)
  }

  /** Sanitising works piece by piece. */
  lemma {:induction false} SanitizeAccountNumberAppend(a: string, b: string)
    ensures SanitizeAccountNumber(a + b) == SanitizeAccountNumber(a) + SanitizeAccountNumber(b)
    decreases |a|
  {
    if |a| == 0 {
      assert a + b == b;
    } else {
      assert (a + b)[0] == a[0] && (a + b)[1..] == a[1..] + b;
      SanitizeAccountNumberAppend(a[1..], b);
    }
  }

  /** The lookup only sees the sanitised number. */
  lemma {:induction false} FindBankAccountSeesSanitized(banks: seq<BankAccount>, n1: string, n2: string)
    requires SanitizeAccountNumber(n1) == SanitizeAccountNumber(n2)
    ensures FindBankAccount(banks, n1) == FindBankAccount(banks, n2)
  {
    if |banks| > 0 {
      FindBankAccountSeesSanitized(banks[1..], n1, n2);
    }
  }

  /** A space, dash or other non-word character in the typed number never
      changes which account is found ... */
  lemma {:induction false} SeparatorIgnored(banks: seq<BankAccount>, a: string, c: char, b: string)
    requires !IsWordChar(c)
    ensures FindBankAccount(banks, a + [c] + b) == FindBankAccount(banks, a + b)
  {
    assert SanitizeAccountNumber([c]) == [] by {
      assert [c][1..] == [];
    }
    var sa, sb := SanitizeAccountNumber(a), SanitizeAccountNumber(b);
    assert SanitizeAccountNumber(a + [c]) == sa by {
      SanitizeAccountNumberAppend(a, [c]);
      assert sa + [] == sa;
    }
    SanitizeAccountNumberAppend(a + [c], b);
    SanitizeAccountNumberAppend(a, b);
    FindBankAccountSeesSanitized(banks, a + [c] + b, a + b);
  }

  /** ... and neither does the case of a letter. */
  lemma {:induction false} LetterCaseIgnored(banks: seq<BankAccount>, a: string, c: char, b: string)
    requires 'a' <= c <= 'z'
    ensures FindBankAccount(banks, a + [c] + b) == FindBankAccount(banks, a + [UpperChar(c)] + b)
  {
    var u := UpperChar(c);
    assert SanitizeAccountNumber([c]) == [u] == SanitizeAccountNumber([u]) by {
      assert [c][1..] == [] && [u][1..] == [];
    }
    SanitizeAccountNumberAppend(a, [c]);
    SanitizeAccountNumberAppend(a + [c], b);
    SanitizeAccountNumberAppend(a, [u]);
    SanitizeAccountNumberAppend(a + [u], b);
    FindBankAccountSeesSanitized(banks, a + [c] + b, a + [u] + b);
  }

  function FindCurrency(currencies: seq<Currency>, name: string): (c: Option<Currency>)
    ensures c.None? <==> forall i :: 0 <= i < |currencies| ==> currencies[i].name != name
    ensures c.Some? ==> c.value in currencies && c.value.name == name
  {
    if |currencies| == 0 then None
    else if currencies[0].name == name then Some(currencies[0])
    else FindCurrency(currencies[1..], name)
  }

  /** The statement line of one transaction. */
  function LineFor(t: ParsedTransaction, currencies: seq<Currency>, companyCurrency: nat, journalId: nat)
    : (l: StatementLine)
    ensures l.paymentRef == (if t.cheque != "" then t.cheque else t.description)
    ensures l.paymentReference == t.description
    ensures l.date == t.date && l.amount == t.amount && l.journalId == journalId
    ensures l.foreignCurrencyId.Some? <==>
      FindCurrency(currencies, t.currency).Some? && FindCurrency(currencies, t.currency).value.id != companyCurrency
    ensures l.foreignCurrencyId.Some? ==>
      l.foreignCurrencyId == Some(FindCurrency(currencies, t.currency).value.id) && l.amountCurrency == Some(t.amount)
    ensures l.foreignCurrencyId.None? ==> l.amountCurrency.None?
  {
    var found := FindCurrency(currencies, t.currency);
    var foreign := found.Some? && found.value.id != companyCurrency;
    StatementLine(t.date,
                  if t.cheque != "" then t.cheque else t.description,
                  t.description,
                  t.amount,
                  journalId,
                  if foreign then Some(found.value.id) else None,
                  if foreign then Some(t.amount) else None)
  }

  /** What a successful import leaves behind: the statement, its lines and
      the journal whose reconciliation view is opened. */
  datatype Imported = Imported(journal: Journal, statement: Statement, lines: seq<StatementLine>)

  /** The environment of one import: the records searched and the clock. */
  datatype Context = Context(
    banks: seq<BankAccount>,
    currencies: seq<Currency>,
    companyCurrency: nat,
    nowText: string,
    today: Date)

  const STATEMENT_PREFIX: string := "Imported Bank Statement - "

  /** The four ways the statement cannot be built. */
  const NO_ACCOUNT_NUMBER: Error := UserError("Bank account number not found.")
  const UNKNOWN_ACCOUNT: Error := UserError("Bank account not found.")
  const NO_SUSPENSE_ACCOUNT: Error :=
    UserError("The journal associated with this bank account does not have a suspense account set.")
  /** Reading `suspense_account_id` on several journals fails Odoo's singleton check. */
  const JOURNALS_NOT_SINGLETON: Error := ValueError("Expected singleton")

  /** The account's journals as read through `journal.suspense_account_id`:
      none or an unset account is the suspense-account error. */
  predicate LacksSuspenseAccount(bank: BankAccount) {
    |bank.journals| == 0 || (|bank.journals| == 1 && bank.journals[0].suspenseAccount.None?)
  }

  /** Everything after the row loop. */
  function BuildStatement(scan: Scan, ctx: Context): (r: Result<Imported>)
    ensures r.Err? <==>
      !Truthy(scan.account)
      || FindBankAccount(ctx.banks, scan.account.value).None?
      || |FindBankAccount(ctx.banks, scan.account.value).value.journals| != 1
      || FindBankAccount(ctx.banks, scan.account.value).value.journals[0].suspenseAccount.None?
    ensures !Truthy(scan.account) ==> r == Err(NO_ACCOUNT_NUMBER)
    ensures Truthy(scan.account) ==>
      var bank := FindBankAccount(ctx.banks, scan.account.value);
      && (bank.None? ==> r == Err(UNKNOWN_ACCOUNT))
      && (bank.Some? && |bank.value.journals| > 1 ==> r == Err(JOURNALS_NOT_SINGLETON))
      && (bank.Some? && LacksSuspenseAccount(bank.value) ==> r == Err(NO_SUSPENSE_ACCOUNT))
      && (r.Ok? ==> bank.value.journals == [r.value.journal])
    ensures r.Ok? ==>
      && r.value.statement == Statement(STATEMENT_PREFIX + ctx.nowText, ctx.today, r.value.journal.id)
      && |r.value.lines| == |scan.transactions|
      && forall j :: 0 <= j < |scan.transactions| ==>
           r.value.lines[j] == LineFor(scan.transactions[j], ctx.currencies, ctx.companyCurrency, r.value.journal.id)
  {
    if !Truthy(scan.account) then Err(NO_ACCOUNT_NUMBER)
    else match FindBankAccount(ctx.banks, scan.account.value)
      case None => Err(UNKNOWN_ACCOUNT)
      case Some(bank) =>
        if |bank.journals| > 1 then Err(JOURNALS_NOT_SINGLETON)
        else if LacksSuspenseAccount(bank) then Err(NO_SUSPENSE_ACCOUNT)
        else
          var journal := bank.journals[0];
          Ok(Imported(journal,
                      Statement(STATEMENT_PREFIX + ctx.nowText, ctx.today, journal.id),
                      LinesFor(scan.transactions, ctx, journal.id)))
  }

  /** The statement lines of the transactions, in order. */
  function LinesFor(txs: seq<ParsedTransaction>, ctx: Context, journalId: nat): (ls: seq<StatementLine>)
    ensures |ls| == |txs|
    ensures forall j :: 0 <= j < |txs| ==> ls[j] == LineFor(txs[j], ctx.currencies, ctx.companyCurrency, journalId)
  {
    seq(|txs|, j requires 0 <= j < |txs| => LineFor(txs[j], ctx.currencies, ctx.companyCurrency, journalId))
  }

  /** `import_transactions`. */
  method ImportTransactions(upload: Upload, p: Parsers, ctx: Context) returns (r: Result<Imported>)
    ensures upload.NoFile? ==> r == Err(UserError("Please upload a file."))
    ensures upload.CsvFile? ==>
      r == (match ScanPrefix(upload.rows, |upload.rows|, p)
            case Err(e) => Err(e)
            case Ok(scan) => BuildStatement(scan, ctx))
  {
    if upload.NoFile? {
      return Err(UserError("Please upload a file."));
    }
    var scan := ScanRows(upload.rows, p);
    match scan {
      case Err(e) => r := Err(e);
      case Ok(s) => r := BuildStatement(s, ctx);
    }
  }

  /** A file whose rows all read cleanly yields one statement line per
      transaction row, in file order. */
  lemma OneLinePerTransactionRow(rows: seq<Row>, p: Parsers, ctx: Context)
    requires ScanPrefix(rows, |rows|, p).Ok?
    requires BuildStatement(ScanPrefix(rows, |rows|, p).value, ctx).Ok?
    ensures |BuildStatement(ScanPrefix(rows, |rows|, p).value, ctx).value.lines| == |TransactionRows(rows, |rows|)|
  {
    TransactionsAreTheTransactionRows(rows, |rows|, p);
  }
}

=== FILE: chatter_fields.dfy ===
/** `website.chatter.fields` of `website_anythingllm_chat`: the single
    configuration record of the AnythingLLM chat widget and the `<script>`
    tag generated from it. The mapping from field names to the widget's
    `data-*` attribute names lives in a module that is not part of this
    model, so it is a parameter. */
module ChatterFields {
  import opened Common

  /** The fields of the model, in the order the ORM lists them: the magic
      fields first, then the declared ones in declaration order. */
  datatype Field =
    | Id | DisplayName | CreateUid | CreateDate | WriteUid | WriteDate
    | DataEmbedId | DataGreeting | DataNoSponsor | DataSponsorLink | DataSponsorText | Src
    | DataAssistantName | DataUsername | DataSupportEmail | DataDefaultMessage
    | DataWindowHeight | HeightSuffix | DataWindowWidth | WidthSuffix | DataTextSize
    | DataBaseApiUrl | DataBrandImageUrl | DataChatIcon | DataPosition | DataHtml
    | DataButtonColor | DataUserBgColor | DataAssistantBgColor | DataOpenOnLoad | WebsiteIds

  const FIELD_ORDER: seq<Field> := [
    Id, DisplayName, CreateUid, CreateDate, WriteUid, WriteDate,
    DataEmbedId, DataGreeting, DataNoSponsor, DataSponsorLink, DataSponsorText, Src,
    DataAssistantName, DataUsername, DataSupportEmail, DataDefaultMessage,
    DataWindowHeight, HeightSuffix, DataWindowWidth, WidthSuffix, DataTextSize,
    DataBaseApiUrl, DataBrandImageUrl, DataChatIcon, DataPosition, DataHtml,
    DataButtonColor, DataUserBgColor, DataAssistantBgColor, DataOpenOnLoad, WebsiteIds]

  /** `FIELDS_TO_IGNORE`. */
  predicate Ignored(f: Field) {
    f in {Id, WebsiteIds, DataHtml, DisplayName, CreateUid, CreateDate, WriteUid, WriteDate,
          WidthSuffix, HeightSuffix}
  }

  /** A `website.chatter.fields` record; Char and Selection values are `Text`. */
  datatype Record = Record(
    id: nat,
    dataEmbedId: Text,
    dataGreeting: Text,
    dataNoSponsor: Text,
    dataSponsorLink: Text,
    dataSponsorText: Text,
    src: Text,
    dataAssistantName: Text,
    dataUsername: Text,
    dataSupportEmail: Text,
    dataDefaultMessage: Text,
    dataWindowHeight: int,
    heightSuffix: Text,
    dataWindowWidth: int,
    widthSuffix: Text,
    dataTextSize: int,
    dataBaseApiUrl: Text,
    dataBrandImageUrl: Text,
    dataChatIcon: Text,
    dataPosition: Text,
    dataHtml: Text,
    dataButtonColor: Text,
    dataUserBgColor: Text,
    dataAssistantBgColor: Text,
    dataOpenOnLoad: bool,
    websiteId: Option<nat>)

  /** The Char fields of the model. */
  predicate IsCharField(f: Field) {
    f in {DataEmbedId, DataGreeting, DataNoSponsor, DataSponsorLink, DataSponsorText, Src,
          DataAssistantName, DataUsername, DataSupportEmail, DataDefaultMessage,
          DataBaseApiUrl, DataBrandImageUrl, DataButtonColor, DataUserBgColor, DataAssistantBgColor}
  }

  /** The value of a Char field of the record. */
  function CharValue(r: Record, f: Field): (v: Text)
    requires IsCharField(f)
  {
    match f
    case DataEmbedId => r.dataEmbedId
    case DataGreeting => r.dataGreeting
    case DataNoSponsor => r.dataNoSponsor
    case DataSponsorLink => r.dataSponsorLink
    case DataSponsorText => r.dataSponsorText
    case Src => r.src
    case DataAssistantName => r.dataAssistantName
    case DataUsername => r.dataUsername
    case DataSupportEmail => r.dataSupportEmail
    case DataDefaultMessage => r.dataDefaultMessage
    case DataBaseApiUrl => r.dataBaseApiUrl
    case DataBrandImageUrl => r.dataBrandImageUrl
    case DataButtonColor => r.dataButtonColor
    case DataUserBgColor => r.dataUserBgColor
    case DataAssistantBgColor => r.dataAssistantBgColor
  }

  // ---------------------------------------------------------------------
  // Selection labels
  // ---------------------------------------------------------------------

  /** `_get_selection_display_name` for `data_chat_icon`. */
  function ChatIconLabel(key: Text): (shown: string)
    ensures shown != "" <==> key in {Some("plus"), Some("chatBubble"), Some("support"),
                                     Some("search2"), Some("search"), Some("magic")}
  {
    if key == Some("plus") then "Plus"
    else if key == Some("chatBubble") then "Chat Bubble"
    else if key == Some("support") then "Support"
    else if key == Some("search2") then "Search2"
    else if key == Some("search") then "Search"
    else if key == Some("magic") then "Magic"
    else ""
  }

  /** `_get_selection_display_name` for `data_position`. */
  function PositionLabel(key: Text): (shown: string)
    ensures shown != "" <==> key in {Some("bottom_right"), Some("bottom_left"), Some("top_right"), Some("top_left")}
  {
    if key == Some("bottom_right") then "Bottom Right"
    else if key == Some("bottom_left") then "Bottom Left"
    else if key == Some("top_right") then "Top Right"
    else if key == Some("top_left") then "Top Left"
    else ""
  }

  // ---------------------------------------------------------------------
  // _generate_html_content
  // ---------------------------------------------------------------------

  /** The attribute value written for a field, or None when the field is
      skipped. */
  function Emitted(r: Record, f: Field): (v: Option<string>)
    ensures Ignored(f) ==> v.None?
    ensures f == DataWindowWidth ==>
      (v.Some? <==> r.dataWindowWidth != 0)
      && (v.Some? ==> v.value == IntToString(r.dataWindowWidth) + TextStr(r.widthSuffix, FALSE_TEXT))
    ensures f == DataWindowHeight ==>
      (v.Some? <==> r.dataWindowHeight != 0)
      && (v.Some? ==> v.value == IntToString(r.dataWindowHeight) + TextStr(r.heightSuffix, FALSE_TEXT))
    ensures f == DataOpenOnLoad ==> v == Some(if r.dataOpenOnLoad then "on" else "off")
    ensures f == DataTextSize ==> v == Some(IntToString(r.dataTextSize) + "px")
    ensures f == DataChatIcon ==> v == Some(ChatIconLabel(r.dataChatIcon))
    ensures f == DataPosition ==> v == Some(PositionLabel(r.dataPosition))
    ensures IsCharField(f) ==>
      (v.Some? <==> Truthy(CharValue(r, f))) && (v.Some? ==> v.value == CharValue(r, f).value)
  {
    if IsCharField(f) then
      var value := CharValue(r, f);
      if Truthy(value) then Some(value.value) else None
    else
      match f
      case DataWindowWidth =>
        if r.dataWindowWidth != 0 then Some(IntToString(r.dataWindowWidth) + TextStr(r.widthSuffix, FALSE_TEXT)) else None
      case DataWindowHeight =>
        if r.dataWindowHeight != 0 then Some(IntToString(r.dataWindowHeight) + TextStr(r.heightSuffix, FALSE_TEXT)) else None
      case DataOpenOnLoad => Some(if r.dataOpenOnLoad then "on" else "off")
      case DataTextSize => Some(IntToString(r.dataTextSize) + "px")
      case DataChatIcon => Some(ChatIconLabel(r.dataChatIcon))
      case DataPosition => Some(PositionLabel(r.dataPosition))
      // the ignored fields
      case _ => None
  }

  /** The attributes written for `fields`, in order. */
  function Entries(r: Record, fields: seq<Field>): (es: seq<(Field, string)>)
    ensures |es| <= |fields|
    ensures forall e :: e in es ==> e.0 in fields && !Ignored(e.0) && Emitted(r, e.0) == Some(e.1)
    ensures forall f :: f in fields && Emitted(r, f).Some? ==> (f, Emitted(r, f).value) in es
  {
    if |fields| == 0 then []
    else
      var rest := Entries(r, fields[1..]);
      assert forall f :: f in fields <==> f == fields[0] || f in fields[1..];
      match Emitted(r, fields[0])
      case None => rest
      case Some(v) => [(fields[0], v)] + rest
  }

  /** Entries keep the order of the fields: the attributes of an earlier
      part of the field list come first. With `EntriesOfOne` this fixes the
      entries as the ordered selection of emitted fields. */
  lemma {:induction false} EntriesAppend(r: Record, a: seq<Field>, b: seq<Field>)
    ensures Entries(r, a + b) == Entries(r, a) + Entries(r, b)
    decreases |a|
  {
    if |a| == 0 {
      assert a + b == b;
    } else {
      EntriesConsAppend(r, a, b);
      EntriesCons(r, a);
      EntriesAppend(r, a[1..], b);
      ConcatAssoc(Entries(r, [a[0]]), Entries(r, a[1..]), Entries(r, b));
    }
  }

  lemma {:induction false} EntriesConsAppend(r: Record, a: seq<Field>, b: seq<Field>)
    requires |a| > 0
    ensures Entries(r, a + b) == Entries(r, [a[0]]) + Entries(r, a[1..] + b)
  {
    assert (a + b)[0] == a[0] && (a + b)[1..] == a[1..] + b;
    EntriesCons(r, a + b);
  }

  lemma ConcatAssoc<T>(p: seq<T>, q: seq<T>, s: seq<T>)
    ensures p + (q + s) == (p + q) + s
  {
  }

  /** A single field gives its attribute exactly when it is emitted. */
  lemma EntriesOfOne(r: Record, f: Field)
    ensures Entries(r, [f]) == match Emitted(r, f) case None => [] case Some(v) => [(f, v)]
  {
  }

  lemma {:induction false} EntriesCons(r: Record, fs: seq<Field>)
    requires |fs| > 0
    ensures Entries(r, fs) == Entries(r, [fs[0]]) + Entries(r, fs[1..])
  {
    EntriesOfOne(r, fs[0]);
  }

  /** The line written for one attribute. */
  function AttrLine(e: (Field, string), attrName: Field -> string): string {
    "\n\t" + attrName(e.0) + "=\"" + e.1 + "\""
  }

  /** The attribute lines of the entries, in order. */
  function Render(es: seq<(Field, string)>, attrName: Field -> string): (s: string)
    ensures |es| == 0 <==> s == ""
  {
    if |es| == 0 then ""
    else AttrLine(es[0], attrName) + Render(es[1..], attrName)
  }

  /** Rendering is a concatenation of one line per entry. */
  lemma {:induction false} RenderAppend(a: seq<(Field, string)>, b: seq<(Field, string)>, attrName: Field -> string)
    ensures Render(a + b, attrName) == Render(a, attrName) + Render(b, attrName)
    ensures |b| == 1 ==> Render(b, attrName) == AttrLine(b[0], attrName)
    decreases |a|
  {
    if |a| == 0 {
      assert a + b == b;
    } else {
      assert (a + b)[0] == a[0] && (a + b)[1..] == a[1..] + b;
      RenderAppend(a[1..], b, attrName);
    }
    if |b| == 1 {
      assert Render(b[1..], attrName) == "";
    }
  }

  const OPEN_TAG: string := "<script"
  const CLOSE_TAG: string := ">\n</script>"

  /** `_generate_html_content`: the opening of the tag, one line per
      emitted attribute in field order, and the closing of the tag. */
  function GenerateHtml(r: Record, attrName: Field -> string): (html: string)
    ensures |html| >= |OPEN_TAG| + |CLOSE_TAG|
    ensures html[..|OPEN_TAG|] == OPEN_TAG
    ensures html[|html| - |CLOSE_TAG|..] == CLOSE_TAG
    ensures html == OPEN_TAG + Render(Entries(r, FIELD_ORDER), attrName) + CLOSE_TAG
  {
    var body := Render(Entries(r, FIELD_ORDER), attrName);
    var html := OPEN_TAG + body + CLOSE_TAG;
    assert html[..|OPEN_TAG|] == OPEN_TAG;
    assert html[|html| - |CLOSE_TAG|..] == CLOSE_TAG;
    html
  }

  /** `t` occurs in `s` at position `i`. */
  predicate OccursAt(s: string, t: string, i: int) {
    0 <= i <= |s| - |t| && s[i..i + |t|] == t
  }

  /** `t` occurs in `s`. */
  predicate Contains(s: string, t: string) {
    exists i :: 0 <= i <= |s| && OccursAt(s, t, i)
  }

  /** Every entry is rendered as its own attribute line. */
  lemma {:induction false} EntryRendered(es: seq<(Field, string)>, attrName: Field -> string, e: (Field, string),
                                         open: string, close: string)
    requires e in es
    ensures Contains(open + Render(es, attrName) + close, AttrLine(e, attrName))
  {
    var k :| 0 <= k < |es| && es[k] == e;
    var line := AttrLine(e, attrName);
    var before, after := Render(es[..k], attrName), Render(es[k + 1..], attrName);
    assert Render(es, attrName) == before + (line + after) by {
      assert es == es[..k] + ([e] + es[k + 1..]);
      RenderAppend(es[..k], [e] + es[k + 1..], attrName);
      RenderAppend([e], es[k + 1..], attrName);
    }
    OccursBetween(open, before, line, after, close);
  }

  lemma OccursBetween(open: string, before: string, t: string, after: string, close: string)
    ensures OccursAt(open + (before + (t + after)) + close, t, |open| + |before|)
  {
    var s := open + (before + (t + after)) + close;
    assert s[|open| + |before|..|open| + |before| + |t|] == t;
  }

  /** Every entry is written into the tag as its own attribute line. */
  lemma {:induction false} EntryInHtml(r: Record, attrName: Field -> string, e: (Field, string))
    requires e in Entries(r, FIELD_ORDER)
    ensures Contains(GenerateHtml(r, attrName), AttrLine(e, attrName))
  {
    EntryRendered(Entries(r, FIELD_ORDER), attrName, e, OPEN_TAG, CLOSE_TAG);
  }

  /** The widget always receives the open-on-load flag, as "on" or "off". */
  lemma OpenOnLoadAlwaysEmitted(r: Record)
    ensures (DataOpenOnLoad, if r.dataOpenOnLoad then "on" else "off") in Entries(r, FIELD_ORDER)
  {
    EntryAt(r, FIELD_ORDER, 29);
  }

  /** The text size is always written in pixels, even when it is 0. */
  lemma TextSizeAlwaysEmitted(r: Record)
    ensures (DataTextSize, IntToString(r.dataTextSize) + "px") in Entries(r, FIELD_ORDER)
  {
    EntryAt(r, FIELD_ORDER, 20);
  }

  /** Both selections are always written as their label, "" for an unknown key. */
  lemma ChatIconAlwaysEmitted(r: Record)
    ensures (DataChatIcon, ChatIconLabel(r.dataChatIcon)) in Entries(r, FIELD_ORDER)
  {
    EntryAt(r, FIELD_ORDER, 23);
  }

  lemma PositionAlwaysEmitted(r: Record)
    ensures (DataPosition, PositionLabel(r.dataPosition)) in Entries(r, FIELD_ORDER)
  {
    EntryAt(r, FIELD_ORDER, 24);
  }

  /** A Char field is written exactly when it is set and non-empty. */
  lemma CharFieldEmittedIffSet(r: Record, fields: seq<Field>, f: Field)
    requires f in fields && IsCharField(f)
    ensures (exists v :: (f, v) in Entries(r, fields)) <==> Truthy(CharValue(r, f))
  {
    if Truthy(CharValue(r, f)) {
      assert (f, CharValue(r, f).value) in Entries(r, fields);
    }
  }

  /** The window width and height are written only when non-zero, each
      followed by its unit suffix. */
  lemma WindowSizeEmittedIffNonZero(r: Record, fields: seq<Field>)
    requires DataWindowWidth in fields && DataWindowHeight in fields
    ensures (exists v :: (DataWindowWidth, v) in Entries(r, fields)) <==> r.dataWindowWidth != 0
    ensures (exists v :: (DataWindowHeight, v) in Entries(r, fields)) <==> r.dataWindowHeight != 0
    ensures forall v :: (DataWindowWidth, v) in Entries(r, fields) ==>
      v == IntToString(r.dataWindowWidth) + TextStr(r.widthSuffix, FALSE_TEXT)
    ensures forall v :: (DataWindowHeight, v) in Entries(r, fields) ==>
      v == IntToString(r.dataWindowHeight) + TextStr(r.heightSuffix, FALSE_TEXT)
  {
    if r.dataWindowWidth != 0 {
      assert (DataWindowWidth, Emitted(r, DataWindowWidth).value) in Entries(r, fields);
    }
    if r.dataWindowHeight != 0 {
      assert (DataWindowHeight, Emitted(r, DataWindowHeight).value) in Entries(r, fields);
    }
  }

  /** The generated tag carries the open-on-load flag and the text size. */
  lemma {:induction false} OpenOnLoadInHtml(r: Record, attrName: Field -> string)
    ensures Contains(GenerateHtml(r, attrName),
                     "\n\t" + attrName(DataOpenOnLoad) + "=\"" + (if r.dataOpenOnLoad then "on" else "off") + "\"")
  {
    OpenOnLoadAlwaysEmitted(r);
    EntryInHtml(r, attrName, (DataOpenOnLoad, if r.dataOpenOnLoad then "on" else "off"));
  }

  lemma {:induction false} TextSizeInHtml(r: Record, attrName: Field -> string)
    ensures Contains(GenerateHtml(r, attrName),
                     "\n\t" + attrName(DataTextSize) + "=\"" + (IntToString(r.dataTextSize) + "px") + "\"")
  {
    TextSizeAlwaysEmitted(r);
    EntryInHtml(r, attrName, (DataTextSize, IntToString(r.dataTextSize) + "px"));
  }

  /** The selections appear in the tag as their labels. */
  lemma {:induction false} SelectionsInHtml(r: Record, attrName: Field -> string)
    ensures Contains(GenerateHtml(r, attrName), "\n\t" + attrName(DataChatIcon) + "=\"" + ChatIconLabel(r.dataChatIcon) + "\"")
    ensures Contains(GenerateHtml(r, attrName), "\n\t" + attrName(DataPosition) + "=\"" + PositionLabel(r.dataPosition) + "\"")
  {
    ChatIconAlwaysEmitted(r);
    PositionAlwaysEmitted(r);
    EntryInHtml(r, attrName, (DataChatIcon, ChatIconLabel(r.dataChatIcon)));
    EntryInHtml(r, attrName, (DataPosition, PositionLabel(r.dataPosition)));
  }

  /** A set Char field appears in the tag with its value. */
  lemma {:induction false} CharFieldInHtml(r: Record, attrName: Field -> string, f: Field)
    requires IsCharField(f) && Truthy(CharValue(r, f))
    ensures Contains(GenerateHtml(r, attrName), "\n\t" + attrName(f) + "=\"" + CharValue(r, f).value + "\"")
  {
    assert f in FIELD_ORDER;
    assert (f, CharValue(r, f).value) in Entries(r, FIELD_ORDER);
    EntryInHtml(r, attrName, (f, CharValue(r, f).value));
  }

  lemma EntryAt(r: Record, fields: seq<Field>, i: int)
    requires 0 <= i < |fields| && Emitted(r, fields[i]).Some?
    ensures (fields[i], Emitted(r, fields[i]).value) in Entries(r, fields)
  {
    assert fields[i] in fields;
  }

  /** `_update_html_field`: the onchange stores the generated tag. */
  function UpdateHtmlField(r: Record, attrName: Field -> string): (q: Record)
    ensures q.dataHtml == Some(GenerateHtml(r, attrName))
    ensures q.(dataHtml := r.dataHtml) == r
  {
    r.(dataHtml := Some(GenerateHtml(r, attrName)))
  }

  /** The stored tag is itself ignored, so regenerating after an update
      yields the same tag: the onchange is idempotent. */
  lemma UpdateHtmlFieldIdempotent(r: Record, attrName: Field -> string)
    ensures GenerateHtml(UpdateHtmlField(r, attrName), attrName) == GenerateHtml(r, attrName)
    ensures UpdateHtmlField(UpdateHtmlField(r, attrName), attrName) == UpdateHtmlField(r, attrName)
  {
    EntriesIgnoreHtml(r, Some(GenerateHtml(r, attrName)), FIELD_ORDER);
  }

  lemma {:induction false} EntriesIgnoreHtml(r: Record, html: Text, fields: seq<Field>)
    ensures Entries(r.(dataHtml := html), fields) == Entries(r, fields)
  {
    if |fields| > 0 {
      EntriesCons(r, fields);
      EntriesCons(r.(dataHtml := html), fields);
      EmittedIgnoresHtml(r, html, fields[0]);
      EntriesOfOne(r, fields[0]);
      EntriesOfOne(r.(dataHtml := html), fields[0]);
      EntriesIgnoreHtml(r, html, fields[1..]);
    }
  }

  lemma EmittedIgnoresHtml(r: Record, html: Text, f: Field)
    ensures Emitted(r.(dataHtml := html), f) == Emitted(r, f)
  {
  }

  // ---------------------------------------------------------------------
  // The singleton rule
  // ---------------------------------------------------------------------

  /** `create`: refused while any record exists. */
  function Create(existing: seq<Record>, created: Record): (r: Result<seq<Record>>)
    ensures r.Ok? <==> |existing| == 0
    ensures r.Ok? ==> r.value == [created]
    ensures r.Err? ==> r.error == UserError("You cannot create more than one record.")
  {
    if |existing| > 0 then Err(UserError("You cannot create more than one record.")) else Ok([created])
  }

  /** `create` called with a list of value dictionaries. Odoo wraps a
      `create` declared with `@api.model` so that it runs once per
      dictionary, in order, and each run counts the records the earlier ones
      made; the first refusal escapes the call and none of its records stay. */
  function CreateMany(existing: seq<Record>, created: seq<Record>): (r: Result<seq<Record>>)
    ensures r.Ok? <==> |created| == 0 || (|existing| == 0 && |created| == 1)
    ensures r.Ok? ==> r.value == existing + created
    ensures r.Err? ==> r.error == UserError("You cannot create more than one record.")
    decreases |created|
  {
    if |created| == 0 then Ok(existing)
    else match Create(existing, created[0])
      case Err(e) => Err(e)
      case Ok(t) => CreateMany(t, created[1..])
  }

  /** A list of creations never leaves more than one record behind either. */
  lemma CreateManyKeepsOneRecord(existing: seq<Record>, created: seq<Record>)
    requires |existing| <= 1
    ensures CreateMany(existing, created).Ok? ==> |CreateMany(existing, created).value| <= 1
  {
  }

  /** The table after a series of creation attempts, a refused one leaving
      it as it was. */
  function CreateAll(existing: seq<Record>, attempts: seq<Record>): seq<Record>
    decreases |attempts|
  {
    if |attempts| == 0 then existing
    else
      var next := match Create(existing, attempts[0]) case Ok(t) => t case Err(_) => existing;
      CreateAll(next, attempts[1..])
  }

  /** Starting from at most one record, no series of creations gets past one,
      and the first successful creation is the one that stays. */
  lemma {:induction false} AtMostOneRecord(existing: seq<Record>, attempts: seq<Record>)
    requires |existing| <= 1
    ensures |CreateAll(existing, attempts)| <= 1
    ensures |existing| == 1 ==> CreateAll(existing, attempts) == existing
    ensures |existing| == 0 && |attempts| > 0 ==> CreateAll(existing, attempts) == [attempts[0]]
    decreases |attempts|
  {
    if |attempts| > 0 {
      var next := match Create(existing, attempts[0]) case Ok(t) => t case Err(_) => existing;
      AtMostOneRecord(next, attempts[1..]);
    }
  }
}

=== FILE: civil_date.dfy ===
/** Proleptic Gregorian calendar dates with the arithmetic the addons use:
    adding days (`timedelta`, `relativedelta(weeks=..)`) and adding months or
    years the way `dateutil.relativedelta` does, clamping the day of month to
    the length of the target month. */
module CivilDate {

  datatype Date = Date(year: int, month: int, day: int)

  predicate IsLeapYear(y: int) {
    y % 4 == 0 && (y % 100 != 0 || y % 400 == 0)
  }

  function DaysInMonth(y: int, m: int): (n: int)
    requires 1 <= m <= 12
    ensures 28 <= n <= 31
    ensures m == 2 ==> (n == 29 <==> IsLeapYear(y))
  {
    if m == 2 then (if IsLeapYear(y) then 29 else 28)
    else if m in {4, 6, 9, 11} then 30
    else 31
  }

  predicate Valid(d: Date) {
    1 <= d.month <= 12 && 1 <= d.day <= DaysInMonth(d.year, d.month)
  }

  /** Chronological order of dates. */
  predicate Before(a: Date, b: Date) {
    a.year < b.year
    || (a.year == b.year && (a.month < b.month || (a.month == b.month && a.day < b.day)))
  }

  predicate NotAfter(a: Date, b: Date) {
    a == b || Before(a, b)
  }

  /** The following day. */
  function NextDay(d: Date): (r: Date)
    requires Valid(d)
    ensures Valid(r) && Before(d, r)
  {
    if d.day < DaysInMonth(d.year, d.month) then d.(day := d.day + 1)
    else if d.month < 12 then Date(d.year, d.month + 1, 1)
    else Date(d.year + 1, 1, 1)
  }

  /** No valid date lies strictly between a date and the next one. */
  lemma NextDayIsImmediate(d: Date, e: Date)
    requires Valid(d) && Valid(e) && Before(d, e)
    ensures NotAfter(NextDay(d), e)
  {
  }

  /** The days of the years before `y` since the proleptic epoch, counting
      the leap days of every fourth year except centuries not divisible by
      400. */
  function DaysBeforeYear(y: int): int {
    var p := y - 1;
    365 * p + p / 4 - p / 100 + p / 400
  }

  /** The days of the months of year `y` before month `m`. */
  function DaysBeforeMonth(y: int, m: int): (n: int)
    requires 1 <= m <= 12
    ensures m == 12 ==> n + 31 == (if IsLeapYear(y) then 366 else 365)
    decreases m
  {
    if m == 1 then 0 else DaysBeforeMonth(y, m - 1) + DaysInMonth(y, m - 1)
  }

  /** A date's serial day number, as `date.toordinal()` counts it. */
  function DayNumber(d: Date): int
    requires 1 <= d.month <= 12
  {
    DaysBeforeYear(d.year) + DaysBeforeMonth(d.year, d.month) + d.day
  }

  /** Floor division steps up by one exactly at multiples of the divisor. */
  lemma DivStep(p: int, k: int)
    requires k > 0
    ensures (p + 1) / k == p / k + (if (p + 1) % k == 0 then 1 else 0)
  {
    var q, r := p / k, p % k;
    var q', r' := (p + 1) / k, (p + 1) % k;
    assert p == k * q + r && 0 <= r < k;
    assert p + 1 == k * q' + r' && 0 <= r' < k;
    if r == k - 1 {
      assert k * (q' - q - 1) == -r';
      QuotientUnique(k, q' - q - 1, r');
    } else {
      assert k * (q' - q) == r + 1 - r';
      QuotientUnique(k, q' - q, r' - r - 1);
    }
  }

  /** A multiple of `k` strictly between -k and k is 0. */
  lemma QuotientUnique(k: int, m: int, e: int)
    requires k > 0 && -k < e < k && k * m == -e
    ensures m == 0 && e == 0
  {
  }

  /** A year holds 366 days exactly when it is a leap year. */
  lemma YearLength(y: int)
    ensures DaysBeforeYear(y + 1) - DaysBeforeYear(y) == if IsLeapYear(y) then 366 else 365
  {
    var p := y - 1;
    DivStep(p, 4);
    DivStep(p, 100);
    DivStep(p, 400);
  }

  /** The next day is the next day number. */
  lemma NextDayNumber(d: Date)
    requires Valid(d)
    ensures DayNumber(NextDay(d)) == DayNumber(d) + 1
  {
    if d.day == DaysInMonth(d.year, d.month) && d.month == 12 {
      YearLength(d.year);
    }
  }

  /** `d + timedelta(days=n)`: exactly n days later. */
  function AddDays(d: Date, n: nat): (r: Date)
    requires Valid(d)
    ensures Valid(r)
    ensures DayNumber(r) == DayNumber(d) + n
    ensures n > 0 ==> Before(d, r)
    decreases n
  {
    if n == 0 then d
    else
      NextDayNumber(d);
      AddDays(NextDay(d), n - 1)
  }

  /** A month counted from the start of the era, used to state month arithmetic. */
  function MonthIndex(d: Date): int {
    d.year * 12 + (d.month - 1)
  }

  /** `d + relativedelta(months=n)`: move to the n-th following month and
      keep the day of month unless that month is shorter. */
  function AddMonths(d: Date, n: nat): (r: Date)
    requires Valid(d)
    ensures Valid(r)
    ensures MonthIndex(r) == MonthIndex(d) + n
    ensures r.day <= d.day
    ensures r.day == d.day || r.day == DaysInMonth(r.year, r.month)
    ensures r.day == if d.day <= DaysInMonth(r.year, r.month) then d.day else DaysInMonth(r.year, r.month)
    ensures n > 0 ==> Before(d, r)
  {
    var total := (d.month - 1) + n;
    var y := d.year + total / 12;
    var m := total % 12 + 1;
    var last := DaysInMonth(y, m);
    Date(y, m, if d.day <= last then d.day else last)
  }

  /** `d + relativedelta(years=n)`: same month; 29 February becomes the 28th
      in a common year. */
  function AddYears(d: Date, n: nat): (r: Date)
    requires Valid(d)
    ensures Valid(r)
    ensures r.year == d.year + n && r.month == d.month
    ensures r.day <= d.day
    ensures r.day == d.day || (d.month == 2 && d.day == 29 && r.day == 28 && !IsLeapYear(r.year))
    ensures r.day == if d.month == 2 && d.day == 29 && !IsLeapYear(d.year + n) then 28 else d.day
    ensures n > 0 ==> Before(d, r)
  {
    var y := d.year + n;
    var last := DaysInMonth(y, d.month);
    Date(y, d.month, if d.day <= last then d.day else last)
  }
}

=== FILE: common.dfy ===
/** Shared vocabulary for the model: optional values, results carrying the
    exceptions the addons raise, Python dictionaries as association lists,
    and the little bits of Python string semantics the addons depend on. */
module Common {

  datatype Option<T> = None | Some(value: T) {
    /** The value, or `default` when there is none. */
    function GetOr(default: T): T {
      match this
      case None => default
      case Some(v) => v
    }
  }

  /** The exceptions the modelled code raises or lets escape. */
  datatype Error =
    | ValidationError(message: string)
    | UserError(message: string)
    | SecurityError(message: string)
    | ValueError(message: string)
    | KeyError(key: string)
    | IndexError
    | NameError(name: string)

  datatype Result<T> = Ok(value: T) | Err(error: Error)

  /** An Odoo `Char`/`Selection` value: `None` stands for the ORM's `False`. */
  type Text = Option<string>

  /** Python truthiness of an optional string: present and non-empty. */
  predicate Truthy(t: Text) {
    t.Some? && t.value != ""
  }

  /** How `str()` and f-strings print an absent value: Python's `None`, or
      the `False` the ORM reads from an unset field. */
  const NONE_TEXT: string := "None"
  const FALSE_TEXT: string := "False"

  /** `str(x)` / f-string rendering of an optional string, printing an
      absent value as `absent`. */
  function TextStr(t: Text, absent: string): (r: string)
    ensures t.Some? ==> r == t.value
    ensures t.None? ==> r == absent
  {
    match t
    case None => absent
    case Some(s) => s
  }

  // ---------------------------------------------------------------------
  // Python dictionaries as association lists (insertion order kept)
  // ---------------------------------------------------------------------

  type Dict<V> = seq<(string, V)>

  /** The set of keys of a dictionary. */
  function Keys<V>(d: Dict<V>): set<string> {
    set i | 0 <= i < |d| :: d[i].0
  }

  /** The keys in insertion order. */
  function KeyList<V>(d: Dict<V>): (ks: seq<string>)
    ensures |ks| == |d|
    ensures forall i :: 0 <= i < |d| ==> ks[i] == d[i].0
  {
    if |d| == 0 then [] else [d[0].0] + KeyList(d[1..])
  }

  /** A real Python dict never holds a key twice. */
  predicate DistinctKeys<V>(d: Dict<V>) {
    forall i, j :: 0 <= i < j < |d| ==> d[i].0 != d[j].0
  }

  /** `d.get(k)`: the value stored under `k`, if any. */
  function Get<V>(d: Dict<V>, k: string): (r: Option<V>)
    ensures r.Some? <==> k in Keys(d)
    ensures r.Some? ==> (k, r.value) in d
  {
    if |d| == 0 then None
    else if d[0].0 == k then Some(d[0].1)
    else
      KeysCons(d[0], d[1..]);
      assert [d[0]] + d[1..] == d;
      Get(d[1..], k)
  }

  /** Looking up a key whose first occurrence is at position `i`. */
  lemma GetAt<V>(d: Dict<V>, i: int, k: string)
    requires 0 <= i < |d| && d[i].0 == k
    requires forall j :: 0 <= j < i ==> d[j].0 != k
    ensures Get(d, k) == Some(d[i].1)
    decreases i
  {
    if i > 0 {
      GetAt(d[1..], i - 1, k);
    }
  }

  /** `d.get(k, default)`. */
  function GetOr<V>(d: Dict<V>, k: string, default: V): (r: V)
    ensures k !in Keys(d) ==> r == default
    ensures k in Keys(d) ==> Some(r) == Get(d, k)
  {
    match Get(d, k)
    case None => default
    case Some(v) => v
  }

  /** `d[k] = v`: overwrite in place when `k` is present, append otherwise. */
  function Put<V>(d: Dict<V>, k: string, v: V): (r: Dict<V>)
    ensures Get(r, k) == Some(v)
    ensures forall k' :: k' != k ==> Get(r, k') == Get(d, k')
    ensures Keys(r) == Keys(d) + {k}
  {
    if |d| == 0 then [(k, v)]
    else if d[0].0 == k then
      KeysCons(d[0], d[1..]);
      KeysCons((k, v), d[1..]);
      var r := [(k, v)] + d[1..];
      assert r[0] == (k, v) && r[1..] == d[1..];
      r
    else
      var rest := Put(d[1..], k, v);
      var r := [d[0]] + rest;
      KeysCons(d[0], d[1..]);
      KeysCons(d[0], rest);
      assert r[0] == d[0] && r[1..] == rest;
      r
  }

  /** A present key is overwritten where it stands; a new key goes last. */
  lemma {:induction false} PutPosition<V>(d: Dict<V>, k: string, v: V)
    ensures k in Keys(d) ==> |Put(d, k, v)| == |d|
    ensures k !in Keys(d) ==> Put(d, k, v) == d + [(k, v)]
    decreases |d|
  {
    if |d| > 0 && d[0].0 != k {
      PutPosition(d[1..], k, v);
      KeysCons(d[0], d[1..]);
      assert d == [d[0]] + d[1..];
    }
  }

  lemma KeysCons<V>(x: (string, V), d: Dict<V>)
    ensures Keys([x] + d) == {x.0} + Keys(d)
  {
    var e := [x] + d;
    assert e[0].0 == x.0;
    forall y | y in Keys(e) ensures y in {x.0} + Keys(d) {
      var i :| 0 <= i < |e| && e[i].0 == y;
      if i > 0 { assert d[i - 1].0 == y; }
    }
    forall y | y in Keys(d) ensures y in Keys(e) {
      var i :| 0 <= i < |d| && d[i].0 == y;
      assert e[i + 1].0 == y;
    }
  }

  // ---------------------------------------------------------------------
  // Strings
  // ---------------------------------------------------------------------

  /** The decimal digit for 0..9. */
  function DigitChar(n: int): (c: char)
    requires 0 <= n < 10
    ensures '0' <= c <= '9'
  {
    ['0', '1', '2', '3', '4', '5', '6', '7', '8', '9'][n]
  }

  function NatToString(n: nat): (s: string)
    ensures |s| >= 1
    ensures forall i :: 0 <= i < |s| ==> '0' <= s[i] <= '9'
    decreases n
  {
    if n < 10 then [DigitChar(n)] else NatToString(n / 10) + [DigitChar(n % 10)]
  }

  /** `str(n)` for a Python int. */
  function IntToString(n: int): (s: string)
    ensures |s| >= 1
    ensures n < 0 <==> s[0] == '-'
  {
    if n < 0 then "-" + NatToString(-n) else NatToString(n)
  }

  // ---------------------------------------------------------------------
  // repr() of a string
  // ---------------------------------------------------------------------

  /** A lower-case hexadecimal digit. */
  function HexDigit(n: int): (c: char)
    requires 0 <= n < 16
  {
    "0123456789abcdef"[n]
  }

  /** The value of a lower-case hexadecimal digit. */
  function HexValue(c: char): (n: int)
    ensures 0 <= n < 16
    ensures forall k :: 0 <= k < 16 ==> (HexDigit(k) == c ==> n == k)
  {
    if '0' <= c <= '9' then c as int - '0' as int
    else if 'a' <= c <= 'f' then c as int - 'a' as int + 10
    else 0
  }

  /** A control character `repr` writes as `\xhh`. */
  predicate IsHexEscaped(c: char) {
    (c as int < 32 || c as int == 127) && c != '\t' && c != '\n' && c != '\r'
  }

  /** How `repr` writes one character inside quotes `quote`. Characters
      beyond ASCII are taken to be printable and are kept as they are. */
  function ReprChar(c: char, quote: char): (r: string)
    ensures |r| >= 1 && (r[0] == '\\' <==> |r| > 1)
  {
    if c == quote || c == '\\' then ['\\', c]
    else if c == '\t' then "\\t"
    else if c == '\n' then "\\n"
    else if c == '\r' then "\\r"
    else if IsHexEscaped(c) then ['\\', 'x', HexDigit(c as int / 16), HexDigit(c as int % 16)]
    else [c]
  }

  function ReprBody(s: string, quote: char): string {
    if |s| == 0 then "" else ReprChar(s[0], quote) + ReprBody(s[1..], quote)
  }

  /** The quote `repr` picks: double quotes only for a text that holds a
      single quote and no double quote. */
  function ReprQuote(s: string): (q: char)
    ensures q == '"' <==> '\'' in s && '"' !in s
  {
    if '\'' in s && '"' !in s then '"' else '\''
  }

  /** `repr(s)` for a Python `str`. */
  function PyRepr(s: string): (r: string)
    ensures |r| >= 2 && r[0] == r[|r| - 1] == ReprQuote(s)
    ensures (forall k :: 0 <= k < |s| ==> s[k] != ReprQuote(s) && s[k] != '\\' && !IsHexEscaped(s[k])
                                          && s[k] != '\t' && s[k] != '\n' && s[k] != '\r') ==>
      r == [ReprQuote(s)] + s + [ReprQuote(s)]
  {
    var q := ReprQuote(s);
    PlainReprBody(s, q);
    [q] + ReprBody(s, q) + [q]
  }

  /** A text with nothing to escape is written as it is. */
  lemma {:induction false} PlainReprBody(s: string, q: char)
    ensures (forall k :: 0 <= k < |s| ==> s[k] != q && s[k] != '\\' && !IsHexEscaped(s[k])
                                          && s[k] != '\t' && s[k] != '\n' && s[k] != '\r') ==>
      ReprBody(s, q) == s
    decreases |s|
  {
    if |s| > 0 {
      PlainReprBody(s[1..], q);
      assert s == [s[0]] + s[1..];
    }
  }

  /** Reads back the inside of a quoted text written by `repr`. */
  function Unescape(t: string): string
    decreases |t|
  {
    if |t| == 0 then ""
    else if t[0] != '\\' || |t| == 1 then [t[0]] + Unescape(t[1..])
    else if t[1] == 't' then "\t" + Unescape(t[2..])
    else if t[1] == 'n' then "\n" + Unescape(t[2..])
    else if t[1] == 'r' then "\r" + Unescape(t[2..])
    else if t[1] == 'x' && |t| >= 4 then
      [(HexValue(t[2]) * 16 + HexValue(t[3])) as char] + Unescape(t[4..])
    else [t[1]] + Unescape(t[2..])
  }

  /** Unescaping one written character and what follows it. */
  lemma UnescapeChar(c: char, q: char, rest: string)
    requires q == '\'' || q == '"'
    ensures Unescape(ReprChar(c, q) + rest) == [c] + Unescape(rest)
  {
    var t := ReprChar(c, q) + rest;
    if IsHexEscaped(c) && c != q && c != '\\' {
      var n := c as int;
      assert t[2] == HexDigit(n / 16) && t[3] == HexDigit(n % 16);
      assert t[4..] == rest;
    } else if |ReprChar(c, q)| == 2 {
      assert t[2..] == rest;
    } else {
      assert t[1..] == rest;
    }
  }

  /** `repr` loses nothing: the quoted text reads back as the original. */
  lemma {:induction false} ReprRoundTrip(s: string, q: char)
    requires q == '\'' || q == '"'
    ensures Unescape(ReprBody(s, q)) == s
    decreases |s|
  {
    if |s| > 0 {
      UnescapeChar(s[0], q, ReprBody(s[1..], q));
      ReprRoundTrip(s[1..], q);
      assert s == [s[0]] + s[1..];
    }
  }

  /** Reading back what `repr` wrote between the quotes gives the text. */
  lemma PyReprRoundTrip(s: string)
    ensures var r := PyRepr(s); Unescape(r[1..|r| - 1]) == s
  {
    var q := ReprQuote(s);
    var r := PyRepr(s);
    assert r[1..|r| - 1] == ReprBody(s, q);
    ReprRoundTrip(s, q);
  }
}

=== FILE: llm_chat.dfy ===
/** The AnythingLLM chat bridge of `website_anythingllm_chat`: a message sent
    in an LLM-enabled channel is recorded, forwarded with the recent
    conversation to the configured API, and ends up received or in error.
    The HTTP exchange is a function from the request to its outcome; the
    message table is a sequence in creation order. */
module LlmChat {
  import opened Common

  datatype MessageState = Draft | Sent | Received | Errored

  /** An `llm.chat.message` record. */
  datatype ChatMessage = ChatMessage(
    channelId: nat,
    messageId: nat,
    message: string,
    response: Text,
    state: MessageState,
    errorMessage: Text)

  datatype Channel = Channel(id: nat, isLlmEnabled: bool)

  /** One turn of the history sent to the API. */
  datatype HistoryEntry = HistoryEntry(role: string, content: Text)

  /** The channel's received messages, oldest first. */
  function ReceivedIn(store: seq<ChatMessage>, channelId: nat): (r: seq<ChatMessage>)
    ensures |r| <= |store|
    ensures forall m :: m in r ==> m in store && m.channelId == channelId && m.state == Received
    ensures forall m :: m in store && m.channelId == channelId && m.state == Received ==> m in r
  {
    if |store| == 0 then []
    else
      var rest := ReceivedIn(store[..|store| - 1], channelId);
      var last := store[|store| - 1];
      assert forall m :: m in store <==> m in store[..|store| - 1] || m == last by {
        assert store == store[..|store| - 1] + [last];
      }
      if last.channelId == channelId && last.state == Received then rest + [last] else rest
  }

  /** Appending a record to the table appends it to the selection exactly
      when it is a received message of the channel. */
  lemma {:induction false} ReceivedInSnoc(s: seq<ChatMessage>, x: ChatMessage, channelId: nat)
    ensures ReceivedIn(s + [x], channelId)
         == ReceivedIn(s, channelId) + if x.channelId == channelId && x.state == Received then [x] else []
  {
    var t := s + [x];
    assert t[..|t| - 1] == s && t[|t| - 1] == x;
  }

  /** Selecting the received messages commutes with concatenating tables:
      the messages of an earlier part of the table come first, each part in
      its own order. With `ReceivedInSnoc` this fixes the result as the
      creation-ordered selection. */
  lemma {:induction false} ReceivedInAppend(a: seq<ChatMessage>, b: seq<ChatMessage>, channelId: nat)
    ensures ReceivedIn(a + b, channelId) == ReceivedIn(a, channelId) + ReceivedIn(b, channelId)
    decreases |b|
  {
    if |b| == 0 {
      assert a + b == a;
    } else {
      var b', last := b[..|b| - 1], b[|b| - 1];
      var picked := if last.channelId == channelId && last.state == Received then [last] else [];
      assert ReceivedIn(a + b, channelId) == ReceivedIn(a + b', channelId) + picked by {
        assert (a + b)[..|a + b| - 1] == a + b' && (a + b)[|a + b| - 1] == last;
      }
      assert ReceivedIn(b, channelId) == ReceivedIn(b', channelId) + picked;
      ReceivedInAppend(a, b', channelId);
      var x, y := ReceivedIn(a, channelId), ReceivedIn(b', channelId);
      assert (x + y) + picked == x + (y + picked);
    }
  }

  /** The user/assistant pair of one exchange. */
  function Pairs(ms: seq<ChatMessage>): (h: seq<HistoryEntry>)
    ensures |h| == 2 * |ms|
    ensures forall j :: 0 <= j < |ms| ==>
      h[2 * j] == HistoryEntry("user", Some(ms[j].message)) && h[2 * j + 1] == HistoryEntry("assistant", ms[j].response)
  {
    if |ms| == 0 then []
    else [HistoryEntry("user", Some(ms[0].message)), HistoryEntry("assistant", ms[0].response)] + Pairs(ms[1..])
  }

  /** `_get_chat_history`: the `limit` most recent received messages of the
      channel (all of them when `limit` is 0, which the ORM reads as no
      limit), replayed oldest first as user/assistant pairs. */
  function ChatHistory(store: seq<ChatMessage>, channelId: nat, limit: nat): (h: seq<HistoryEntry>)
    ensures var n := |ReceivedIn(store, channelId)|;
      |h| == 2 * (if limit == 0 || n <= limit then n else limit)
    ensures var rs := ReceivedIn(store, channelId);
      var k := if limit == 0 || |rs| <= limit then |rs| else limit;
      forall j :: 0 <= j < k ==>
        && h[2 * j] == HistoryEntry("user", Some(rs[|rs| - k + j].message))
        && h[2 * j + 1] == HistoryEntry("assistant", rs[|rs| - k + j].response)
  {
    var rs := ReceivedIn(store, channelId);
    var k := if limit == 0 || |rs| <= limit then |rs| else limit;
    Pairs(rs[|rs| - k..])
  }

  /** Messages of other channels, and messages not yet received, never enter
      a channel's history. */
  lemma {:induction false} HistoryIgnoresPendingMessages(store: seq<ChatMessage>, m: ChatMessage, channelId: nat, limit: nat)
    requires m.state != Received || m.channelId != channelId
    ensures ChatHistory(store + [m], channelId, limit) == ChatHistory(store, channelId, limit)
  {
    assert ReceivedIn(store + [m], channelId) == ReceivedIn(store, channelId) by {
      ReceivedInSnoc(store, m, channelId);
      assert ReceivedIn(store, channelId) + [] == ReceivedIn(store, channelId);
    }
    HistoryFollowsReceived(store + [m], store, channelId, limit);
  }

  /** The history depends on the table only through the channel's received
      messages. */
  lemma {:induction false} HistoryFollowsReceived(s1: seq<ChatMessage>, s2: seq<ChatMessage>, channelId: nat, limit: nat)
    requires ReceivedIn(s1, channelId) == ReceivedIn(s2, channelId)
    ensures ChatHistory(s1, channelId, limit) == ChatHistory(s2, channelId, limit)
  {
  }

  /** The request posted to the API. */
  datatype LlmRequest = LlmRequest(
    url: string,
    headers: Dict<string>,
    message: string,
    history: seq<HistoryEntry>,
    channelId: nat)

  /** How the exchange went: the API answered with a JSON body, something
      raised before the answer was recorded, or the answer was recorded and
      posting it to the channel raised. */
  datatype LlmCall =
    | Replied(body: Dict<Text>)
    | RequestFailed(error: string)
    | PostFailed(body: Dict<Text>, error: string)

  /** The request headers: JSON, plus a bearer token when a key is configured. */
  function RequestHeaders(apiKey: Text): (h: Dict<string>)
    ensures Get(h, "Content-Type") == Some("application/json")
    ensures "Authorization" in Keys(h) <==> Truthy(apiKey)
    ensures Truthy(apiKey) ==> Get(h, "Authorization") == Some("Bearer " + apiKey.value)
  {
    var base := [("Content-Type", "application/json")];
    if Truthy(apiKey) then Put(base, "Authorization", "Bearer " + apiKey.value) else base
  }

  /** The system parameters read by the bridge. */
  datatype LlmSettings = LlmSettings(apiUrl: Text, apiKey: Text)

  /** What `send_llm_message` leaves behind: the message table, the returned
      flag and the channel post carrying the answer, if one was made. */
  datatype SendOutcome = SendOutcome(store: seq<ChatMessage>, returned: bool, posted: Option<Text>)

  /** The message record `send_llm_message` creates before calling the API. */
  function SentMessage(channel: Channel, messageId: nat, message: string): ChatMessage {
    ChatMessage(channel.id, messageId, message, None, Sent, None)
  }

  /** The request `send_llm_message` posts, built once the new message has
      been recorded as 'sent'. */
  function OutgoingRequest(channel: Channel, messageId: nat, message: string, settings: LlmSettings,
                           store: seq<ChatMessage>): LlmRequest
    requires Truthy(settings.apiUrl)
  {
    LlmRequest(settings.apiUrl.value, RequestHeaders(settings.apiKey), message,
               ChatHistory(store + [SentMessage(channel, messageId, message)], channel.id, 5), channel.id)
  }

  /** `send_llm_message`. */
  function SendLlmMessage(channel: Channel, messageId: nat, message: string, settings: LlmSettings,
                          store: seq<ChatMessage>, call: LlmRequest -> LlmCall): (r: Result<SendOutcome>)
    ensures !channel.isLlmEnabled ==> r == Ok(SendOutcome(store, false, None))
    ensures channel.isLlmEnabled && !Truthy(settings.apiUrl) ==>
      r == Err(UserError("LLM API URL not configured. Please configure it in Settings."))
    ensures channel.isLlmEnabled && Truthy(settings.apiUrl) ==>
      r.Ok? && |r.value.store| == |store| + 1 && r.value.store[..|store|] == store
    ensures r.Ok? && |r.value.store| == |store| + 1 ==>
      var m := r.value.store[|store|];
      m.channelId == channel.id && m.messageId == messageId && m.message == message
      && (m.state == Received <==> r.value.returned)
      && (m.state == Received || m.state == Errored)
      && (m.state == Received ==> m.errorMessage.None? && r.value.posted == Some(m.response))
      && (m.state == Errored ==> m.errorMessage.Some? && r.value.posted.None?)
    // How the exchange with the API decides the outcome.
    ensures channel.isLlmEnabled && Truthy(settings.apiUrl) ==>
      var answer := call(OutgoingRequest(channel, messageId, message, settings, store));
      var m := r.value.store[|store|];
      && (r.value.returned <==> answer.Replied?)
      && (answer.Replied? ==> m.response == GetOr(answer.body, "response", Some("")))
      && (answer.RequestFailed? ==> m.response.None? && m.errorMessage == Some(answer.error))
      && (answer.PostFailed? ==>
            m.response == GetOr(answer.body, "response", Some("")) && m.errorMessage == Some(answer.error))
  {
    if !channel.isLlmEnabled then Ok(SendOutcome(store, false, None))
    else if !Truthy(settings.apiUrl) then
      Err(UserError("LLM API URL not configured. Please configure it in Settings."))
    else
      var sent := SentMessage(channel, messageId, message);
      match call(OutgoingRequest(channel, messageId, message, settings, store))
      case Replied(body) =>
        var answer := GetOr(body, "response", Some(""));
        Ok(SendOutcome(store + [sent.(response := answer, state := Received)], true, Some(answer)))
      case RequestFailed(e) =>
        Ok(SendOutcome(store + [sent.(state := Errored, errorMessage := Some(e))], false, None))
      case PostFailed(body, e) =>
        var answer := GetOr(body, "response", Some(""));
        Ok(SendOutcome(store + [sent.(response := answer, state := Errored, errorMessage := Some(e))], false, None))
  }

  /** The request carries the channel's history from before the message was
      recorded (the new message is still 'sent'), its headers and the
      message itself. */
  lemma RequestCarriesEarlierHistory(channel: Channel, messageId: nat, message: string, settings: LlmSettings,
                                     store: seq<ChatMessage>)
    requires Truthy(settings.apiUrl)
    ensures var req := OutgoingRequest(channel, messageId, message, settings, store);
      && req.history == ChatHistory(store, channel.id, 5)
      && req.url == settings.apiUrl.value && req.message == message && req.channelId == channel.id
      && req.headers == RequestHeaders(settings.apiKey)
  {
    HistoryIgnoresPendingMessages(store, SentMessage(channel, messageId, message), channel.id, 5);
  }

  /** The history closes with this message as the user's turn and this
      response as the assistant's. */
  predicate EndsWithExchange(h: seq<HistoryEntry>, message: string, response: Text) {
    |h| >= 2 && h[|h| - 2] == HistoryEntry("user", Some(message)) && h[|h| - 1] == HistoryEntry("assistant", response)
  }

  /** A successful exchange appends its message to the channel's received
      messages, so the next history ends with that exchange: the message as
      the user's turn and the answer as the assistant's. */
  lemma {:induction false} ReceivedMessageExtendsHistory(channel: Channel, messageId: nat, message: string, settings: LlmSettings,
                                      store: seq<ChatMessage>, call: LlmRequest -> LlmCall)
    requires channel.isLlmEnabled && Truthy(settings.apiUrl)
    requires SendLlmMessage(channel, messageId, message, settings, store, call).value.returned
    ensures var after := SendLlmMessage(channel, messageId, message, settings, store, call).value.store;
      && |ReceivedIn(after, channel.id)| == |ReceivedIn(store, channel.id)| + 1
      && ReceivedIn(after, channel.id) == ReceivedIn(store, channel.id) + [after[|store|]]
    ensures var after := SendLlmMessage(channel, messageId, message, settings, store, call).value.store;
      EndsWithExchange(ChatHistory(after, channel.id, 5), message, after[|store|].response)
  {
    var after := SendLlmMessage(channel, messageId, message, settings, store, call).value.store;
    var m := after[|store|];
    assert after == store + [m] && m.channelId == channel.id && m.state == Received && m.message == message by {
      assert after[..|store|] == store;
    }
    HistoryEndsWithReceived(store, m, after, channel.id);
  }

  lemma {:induction false} HistoryEndsWithReceived(store: seq<ChatMessage>, m: ChatMessage, after: seq<ChatMessage>,
                                                   channelId: nat)
    requires m.channelId == channelId && m.state == Received && after == store + [m]
    ensures |ReceivedIn(after, channelId)| == |ReceivedIn(store, channelId)| + 1
    ensures ReceivedIn(after, channelId) == ReceivedIn(store, channelId) + [m]
    ensures EndsWithExchange(ChatHistory(after, channelId, 5), m.message, m.response)
  {
    ReceivedInSnoc(store, m, channelId);
    var rs := ReceivedIn(after, channelId);
    assert rs == ReceivedIn(store, channelId) + [m];
    var k := if |rs| <= 5 then |rs| else 5;
    var recent := rs[|rs| - k..];
    assert ChatHistory(after, channelId, 5) == Pairs(recent);
    assert recent[|recent| - 1] == m;
    PairsEndWithLast(recent);
  }

  lemma {:induction false} PairsEndWithLast(ms: seq<ChatMessage>)
    requires |ms| >= 1
    ensures EndsWithExchange(Pairs(ms), ms[|ms| - 1].message, ms[|ms| - 1].response)
  {
    var j := |ms| - 1;
    assert Pairs(ms)[2 * j] == HistoryEntry("user", Some(ms[j].message));
  }

  /** The `create_channel` override: `created` is the channel the generic
      method made; a direct chat always has the bridge switched on. */
  function CreateChannel(created: Channel, channelType: string): (c: Channel)
    ensures channelType == "chat" ==> c.isLlmEnabled
    ensures channelType != "chat" ==> c == created
    ensures c.id == created.id
  {
    if channelType == "chat" then created.(isLlmEnabled := true) else created
  }
}

=== FILE: payroll_mondays.dfy ===
/** `hr.employee.calculate_mondays` of `payroll_salary_calculation`: the
    number of Mondays in a half-open date range, never less than one. Dates
    are proleptic Gregorian ordinals as returned by `date.toordinal()`
    (1 January of year 1 is day 1, a Monday). */
module PayrollMondays {

  /** `date.weekday()`: Monday is 0, Sunday is 6. */
  function Weekday(ordinal: int): (w: int)
    ensures 0 <= w < 7
  {
    (ordinal + 6) % 7
  }

  /** The Mondays d with lo <= d < hi, counted from the top of the range. */
  function MondaysIn(lo: int, hi: int): (n: nat)
    ensures lo >= hi ==> n == 0
    ensures lo < hi ==> n <= hi - lo
    decreases hi - lo
  {
    if lo >= hi then 0
    else MondaysIn(lo, hi - 1) + (if Weekday(hi - 1) == 0 then 1 else 0)
  }

  /** `calculate_mondays(date_from, date_to)`: one step per day until the
      start reaches the end, then a zero count is replaced by one. */
  method CalculateMondays(dateFrom: int, dateTo: int) returns (mondays: int)
    ensures mondays == if MondaysIn(dateFrom, dateTo) == 0 then 1 else MondaysIn(dateFrom, dateTo)
    ensures mondays >= 1
  {
    mondays := 0;
    var d := dateFrom;
    while d < dateTo
      invariant dateFrom <= d || dateTo <= dateFrom
      invariant d >= dateTo ==> d == dateFrom || d == dateTo
      invariant mondays == MondaysIn(dateFrom, if d < dateFrom then dateFrom else d)
      decreases dateTo - d
    {
      if Weekday(d) == 0 {
        mondays := mondays + 1;
      }
      d := d + 1;
    }
    if mondays == 0 {
      mondays := 1;
    }
  }

  /** The count is the size of the set of Mondays in the range. */
  lemma {:induction false} MondaysAreCounted(lo: int, hi: int)
    ensures MondaysIn(lo, hi) == |set d | lo <= d < hi && Weekday(d) == 0|
    decreases hi - lo
  {
    if lo < hi {
      MondaysAreCounted(lo, hi - 1);
      var below := set d | lo <= d < hi - 1 && Weekday(d) == 0;
      var all := set d | lo <= d < hi && Weekday(d) == 0;
      if Weekday(hi - 1) == 0 {
        assert all == below + {hi - 1};
      } else {
        assert all == below;
      }
    } else {
      assert (set d | lo <= d < hi && Weekday(d) == 0) == {};
    }
  }

  /** Counting splits at any point of the range. */
  lemma {:induction false} MondaysSplit(a: int, b: int, c: int)
    requires a <= b <= c
    ensures MondaysIn(a, c) == MondaysIn(a, b) + MondaysIn(b, c)
    decreases c - b
  {
    if b < c {
      MondaysSplit(a, b, c - 1);
    }
  }

  /** Any seven consecutive days hold exactly one Monday. */
  lemma OneMondayPerWeek(a: int)
    ensures MondaysIn(a, a + 7) == 1
  {
    WeekdayStep(a);
    WeekdayStep(a + 1);
    WeekdayStep(a + 2);
    WeekdayStep(a + 3);
    WeekdayStep(a + 4);
    WeekdayStep(a + 5);
    assert MondaysIn(a, a + 1) == (if Weekday(a) == 0 then 1 else 0);
    assert MondaysIn(a, a + 2) == MondaysIn(a, a + 1) + (if Weekday(a + 1) == 0 then 1 else 0);
    assert MondaysIn(a, a + 3) == MondaysIn(a, a + 2) + (if Weekday(a + 2) == 0 then 1 else 0);
    assert MondaysIn(a, a + 4) == MondaysIn(a, a + 3) + (if Weekday(a + 3) == 0 then 1 else 0);
    assert MondaysIn(a, a + 5) == MondaysIn(a, a + 4) + (if Weekday(a + 4) == 0 then 1 else 0);
    assert MondaysIn(a, a + 6) == MondaysIn(a, a + 5) + (if Weekday(a + 5) == 0 then 1 else 0);
  }

  /** The day after a Sunday is a Monday; otherwise the weekday advances by one. */
  lemma WeekdayStep(d: int)
    ensures Weekday(d + 1) == if Weekday(d) == 6 then 0 else Weekday(d) + 1
  {
  }

  /** A range of k whole weeks holds exactly k Mondays. */
  lemma {:induction false} WholeWeeks(lo: int, k: nat)
    ensures MondaysIn(lo, lo + 7 * k) == k
    decreases k
  {
    if k > 0 {
      WholeWeeks(lo, k - 1);
      MondaysSplit(lo, lo + 7 * (k - 1), lo + 7 * k);
      OneMondayPerWeek(lo + 7 * (k - 1));
    }
  }

  /** An empty or reversed range counts no Monday, and neither does a range
      that ends before the next Monday; `CalculateMondays` reports 1 for both. */
  lemma NoMondayInPartialWeek(lo: int, hi: int)
    ensures lo >= hi ==> MondaysIn(lo, hi) == 0
    ensures hi - lo <= 7 && Weekday(lo) != 0 && Weekday(lo) + (hi - lo) <= 7 ==> MondaysIn(lo, hi) == 0
  {
    if hi - lo <= 7 && Weekday(lo) != 0 && Weekday(lo) + (hi - lo) <= 7 && lo < hi {
      NoMondayBeforeWeekEnds(lo, hi);
    }
  }

  lemma {:induction false} NoMondayBeforeWeekEnds(lo: int, hi: int)
    requires lo <= hi && Weekday(lo) != 0 && Weekday(lo) + (hi - lo) <= 7
    ensures MondaysIn(lo, hi) == 0
    decreases hi - lo
  {
    if lo < hi {
      NoMondayBeforeWeekEnds(lo, hi - 1);
      assert Weekday(hi - 1) == Weekday(lo) + (hi - 1 - lo);
    }
  }
}

=== FILE: wipay_controllers.dfy ===
/** The HTTP routes of the `payment_wipay` controller: the customer's return
    from WiPay and the server-to-server webhook. Both forward the received
    data to the notification handling of `WipayTransaction`; the database of
    transactions, the MD5 function and the WiPay payment method are passed
    through to it. */
module WipayControllers {
  import opened Common
  import opened WipayProvider
  import opened WipayTransaction

  const STATUS_PAGE: string := "/payment/status"

  /** Replaces the WiPay transaction with the same reference by its processed
      version; the notification lookup has made sure there is exactly one. */
  function WriteBack(db: seq<Transaction>, tx: Transaction): (r: seq<Transaction>)
    ensures |r| == |db|
    ensures forall i :: 0 <= i < |db| ==>
      r[i] == (if db[i].reference == tx.reference && db[i].providerCode == WIPAY then tx else db[i])
  {
    if |db| == 0 then []
    else [if db[0].reference == tx.reference && db[0].providerCode == WIPAY then tx else db[0]]
         + WriteBack(db[1..], tx)
  }

  /** The database after `_handle_notification_data('wipay', data)`, and
      the error it raised, if any. */
  datatype Handled = Handled(db: seq<Transaction>, raised: Option<Error>)

  /** `_handle_notification_data('wipay', data)` followed by the write to the
      database. Whatever the processing wrote before raising is written back
      too; a failed lookup writes nothing. */
  function NotificationHandler(data: Dict<string>, db: seq<Transaction>, md5: string -> string, wipayMethod: Option<nat>)
    : (r: Handled)
    ensures |r.db| == |db|
    ensures var h := HandleNotification(data, db, md5, wipayMethod);
      && (r.raised.Some? <==> h.Err? || h.value.raised.Some?)
      && (h.Err? ==> r == Handled(db, Some(h.error)))
      && (h.Ok? ==> r.raised == h.value.raised)
    // Only the WiPay transaction named by the notification can change.
    ensures forall i :: 0 <= i < |db| && (db[i].providerCode != WIPAY || Some(db[i].reference) != Get(data, "order_id")) ==>
      r.db[i] == db[i]
    // ... and it is stored exactly as the processing left it.
    ensures var h := HandleNotification(data, db, md5, wipayMethod);
      h.Ok? ==>
        forall i :: 0 <= i < |db| && db[i].providerCode == WIPAY && Some(db[i].reference) == Get(data, "order_id") ==>
          r.db[i] == h.value.tx
  {
    match HandleNotification(data, db, md5, wipayMethod)
    case Err(e) => Handled(db, Some(e))
    case Ok(p) => Handled(WriteBack(db, p.tx), p.raised)
  }

  // ---------------------------------------------------------------------
  // /payment/wipay/return
  // ---------------------------------------------------------------------

  /** `kwargs.get('order_id') or kwargs.get('transaction_id')`. */
  function ReturnReference(kwargs: Dict<string>): (ref: Text)
    ensures Truthy(Get(kwargs, "order_id")) ==> ref == Get(kwargs, "order_id")
    ensures !Truthy(Get(kwargs, "order_id")) ==> ref == Get(kwargs, "transaction_id")
  {
    var orderId := Get(kwargs, "order_id");
    if Truthy(orderId) then orderId else Get(kwargs, "transaction_id")
  }

  /** `search([('reference', '=', ref)], limit=1)` over every provider: the
      position of the first transaction with that reference. */
  function FirstByReference(db: seq<Transaction>, ref: Text): (i: Option<nat>)
    ensures i.None? <==> ref.None? || forall j :: 0 <= j < |db| ==> db[j].reference != ref.value
    ensures i.Some? ==> i.value < |db| && db[i.value].reference == ref.value
    ensures i.Some? ==> forall j :: 0 <= j < i.value ==> db[j].reference != ref.value
  {
    if ref.None? || |db| == 0 then None
    else if db[0].reference == ref.value then Some(0)
    else match FirstByReference(db[1..], ref)
      case None => None
      case Some(k) => Some(k + 1)
  }

  /** The state the return route sets directly on the transaction it found:
      `_set_done()`, which clears the state message, or `_set_error` with
      the declined message. */
  function ApplyReturnStatus(tx: Transaction, status: string, message: string): (r: Transaction)
    ensures status == "success" ==> r == tx.(state := Done, stateMessage := None)
    ensures status != "success" ==> r == tx.(state := Error, stateMessage := Some("Payment declined: " + message))
  {
    if status == "success" then tx.(state := Done, stateMessage := None)
    else tx.(state := Error, stateMessage := Some("Payment declined: " + message))
  }

  /** The first half of `wipay_return`: the status the customer came back
      with (default 'failed') is written on the first transaction carrying
      the returned reference, if there is one. */
  function ReturnDirectUpdate(kwargs: Dict<string>, db: seq<Transaction>): (r: seq<Transaction>)
    ensures |r| == |db|
    ensures FirstByReference(db, ReturnReference(kwargs)).None? ==> r == db
    ensures FirstByReference(db, ReturnReference(kwargs)).Some? ==>
      var i := FirstByReference(db, ReturnReference(kwargs)).value;
      && (forall j :: 0 <= j < |db| && j != i ==> r[j] == db[j])
      && (r[i].state == Done <==> Get(kwargs, "status") == Some("success"))
      && (r[i].state == Done ==> r[i] == db[i].(state := Done, stateMessage := None))
      && (r[i].state != Done ==>
            r[i] == db[i].(state := Error, stateMessage := Some("Payment declined: " + GetOr(kwargs, "message", ""))))
  {
    var status := GetOr(kwargs, "status", "failed");
    var message := GetOr(kwargs, "message", "");
    match FirstByReference(db, ReturnReference(kwargs))
    case None => db
    case Some(i) => db[i := ApplyReturnStatus(db[i], status, message)]
  }

  /** `wipay_return`: after the direct update the data is always forwarded to
      the notification handling, and the customer is redirected to the status
      page unless that raises. A raise escapes the route, so the request's
      writes, the direct update included, are not committed. */
  function WipayReturn(kwargs: Dict<string>, db: seq<Transaction>, md5: string -> string, wipayMethod: Option<nat>)
    : (r: Result<(seq<Transaction>, string)>)
    ensures var h := NotificationHandler(kwargs, ReturnDirectUpdate(kwargs, db), md5, wipayMethod);
      && (r.Ok? <==> h.raised.None?)
      && (r.Ok? ==> r.value == (h.db, STATUS_PAGE))
      && (r.Err? ==> r.error == h.raised.value)
  {
    var h := NotificationHandler(kwargs, ReturnDirectUpdate(kwargs, db), md5, wipayMethod);
    match h.raised
    case Some(e) => Err(e)
    case None => Ok((h.db, STATUS_PAGE))
  }

  /** A customer who comes back without any status is treated as declined. */
  lemma MissingStatusDeclines(kwargs: Dict<string>, db: seq<Transaction>)
    requires "status" !in Keys(kwargs)
    requires FirstByReference(db, ReturnReference(kwargs)).Some?
    ensures var i := FirstByReference(db, ReturnReference(kwargs)).value;
      ReturnDirectUpdate(kwargs, db)[i].state == Error
  {
  }

  // ---------------------------------------------------------------------
  // /payment/wipay/webhook
  // ---------------------------------------------------------------------

  /** What the webhook answers. */
  datatype WebhookOutcome =
    | Body(text: string, db: seq<Transaction>)
    | Forbidden
    | Raised(error: Error)

  /** `wipay_webhook`: `form` are the request parameters, `body` the raw
      request body and `parseJson` `json.loads` restricted to objects of
      strings. A validation error in the handling is caught and answered with
      'ko', so what the handling wrote before raising is kept; any other
      error escapes. */
  function WipayWebhook(form: Dict<string>, body: string, parseJson: string -> Option<Dict<string>>,
                        db: seq<Transaction>, md5: string -> string, wipayMethod: Option<nat>)
    : (r: WebhookOutcome)
    ensures r == Forbidden <==> |form| == 0 && body != "" && parseJson(body).None?
    // The handling decides the answer, whether the data came as request
    // parameters or as a JSON body.
    ensures var data := if |form| == 0 && body != "" then parseJson(body) else Some(form);
      data.Some? ==>
      var h := NotificationHandler(data.value, db, md5, wipayMethod);
      && (r == Body("ko", h.db) <==> h.raised.Some? && h.raised.value.ValidationError?)
      && (r.Raised? <==> h.raised.Some? && !h.raised.value.ValidationError?)
      && (h.raised.None? ==> r == Body("ok", h.db))
    ensures r.Body? ==> r.text in {"ok", "ko"} && |r.db| == |db|
  {
    var data :=
      if |form| == 0 && body != "" then parseJson(body)
      else Some(form);
    match data
    case None => Forbidden
    case Some(d) =>
      var h := NotificationHandler(d, db, md5, wipayMethod);
      match h.raised
      case Some(e) => if e.ValidationError? then Body("ko", h.db) else Raised(e)
      case None => Body("ok", h.db)
  }

  /** A notification for a known WiPay transaction whose signature does not
      match the configured secret is answered with 'ko' and changes nothing. */
  lemma ForgedWebhookRejected(form: Dict<string>, body: string, parseJson: string -> Option<Dict<string>>,
                              db: seq<Transaction>, tx: Transaction, md5: string -> string, wipayMethod: Option<nat>)
    requires tx.providerCode == WIPAY && tx.reference != ""
    requires Get(form, "order_id") == Some(tx.reference)
    requires SearchWipay(db, tx.reference) == [tx]
    requires SignatureRejected(tx, form, md5)
    ensures WipayWebhook(form, body, parseJson, db, md5, wipayMethod) == Body("ko", db)
  {
    assert "order_id" in Keys(form);
    var p := ProcessNotification(tx, form, md5, wipayMethod);
    assert HandleNotification(form, db, md5, wipayMethod) == Ok(p);
    assert p == Processed(tx, Some(INVALID_SIGNATURE));
    assert NotificationHandler(form, db, md5, wipayMethod) == Handled(WriteBack(db, tx), p.raised);
  }

  /** The same holds for a notification posted as a JSON body with no
      request parameters. */
  lemma ForgedJsonWebhookRejected(body: string, parseJson: string -> Option<Dict<string>>, data: Dict<string>,
                                  db: seq<Transaction>, tx: Transaction, md5: string -> string, wipayMethod: Option<nat>)
    requires body != "" && parseJson(body) == Some(data)
    requires tx.providerCode == WIPAY && tx.reference != ""
    requires Get(data, "order_id") == Some(tx.reference)
    requires SearchWipay(db, tx.reference) == [tx]
    requires SignatureRejected(tx, data, md5)
    ensures WipayWebhook([], body, parseJson, db, md5, wipayMethod) == Body("ko", db)
  {
    assert "order_id" in Keys(data);
    var p := ProcessNotification(tx, data, md5, wipayMethod);
    assert HandleNotification(data, db, md5, wipayMethod) == Ok(p);
    assert p == Processed(tx, Some(INVALID_SIGNATURE));
    assert NotificationHandler(data, db, md5, wipayMethod) == Handled(WriteBack(db, tx), p.raised);
  }

  /** A genuine notification for a known WiPay transaction is answered with
      'ok' and records the transaction id WiPay sent. */
  lemma GenuineWebhookAccepted(form: Dict<string>, body: string, parseJson: string -> Option<Dict<string>>,
                               db: seq<Transaction>, tx: Transaction, md5: string -> string, wipayMethod: nat)
    requires tx.providerCode == WIPAY && tx.reference != ""
    requires Get(form, "order_id") == Some(tx.reference)
    requires SearchWipay(db, tx.reference) == [tx]
    requires !SignatureRejected(tx, form, md5)
    ensures var r := WipayWebhook(form, body, parseJson, db, md5, Some(wipayMethod));
      r.Body? && r.text == "ok"
      && forall i :: 0 <= i < |db| && db[i].reference == tx.reference && db[i].providerCode == WIPAY ==>
           r.db[i].wipayPaymentId == Get(form, "transaction_id")
  {
    assert "order_id" in Keys(form);
  }

  /** A genuine notification for a known WiPay transaction when no 'wipay'
      payment method exists is answered with 'ko', yet the transaction id
      WiPay sent has already been recorded and is kept. */
  lemma MissingMethodWebhookKeepsPaymentId(form: Dict<string>, body: string, parseJson: string -> Option<Dict<string>>,
                                           db: seq<Transaction>, tx: Transaction, md5: string -> string)
    requires tx.providerCode == WIPAY && tx.reference != ""
    requires Get(form, "order_id") == Some(tx.reference)
    requires SearchWipay(db, tx.reference) == [tx]
    requires !SignatureRejected(tx, form, md5)
    ensures var r := WipayWebhook(form, body, parseJson, db, md5, None);
      r.Body? && r.text == "ko"
      && forall i :: 0 <= i < |db| && db[i].reference == tx.reference && db[i].providerCode == WIPAY ==>
           r.db[i] == db[i].(wipayPaymentId := Get(form, "transaction_id"))
  {
    assert "order_id" in Keys(form);
    var p := ProcessNotification(tx, form, md5, None);
    assert HandleNotification(form, db, md5, None) == Ok(p);
    assert NotificationHandler(form, db, md5, None) == Handled(WriteBack(db, p.tx), p.raised);
  }
}

=== FILE: wipay_fees.dfy ===
/** The WiPay fee computation of `payment_wipay` (`_compute_wipay_fees`
    and `_compute_fees`): a per-country percentage table, a fixed fee for
    Trinidad and Tobago, a consumption tax for Jamaica and Barbados, and a
    split of the result according to the provider's fee structure.
    Amounts are exact reals rather than floats. */
module WipayFees {
  import opened Common
  import opened WipayProvider
  import opened WipayTransaction

  /** One row of the rate table. `fixedUsd` is only present for TT and
      `tax` (called 'gct' for Jamaica) only for JM and BB. */
  datatype CountryRates = CountryRates(percentage: real, premiumPercentage: real, fixedUsd: real, tax: real)

  const TT_RATES: CountryRates := CountryRates(3.50, 3.00, 0.25, 0.0)
  const JM_RATES: CountryRates := CountryRates(4.20, 3.50, 0.0, 0.15)
  const BB_RATES: CountryRates := CountryRates(3.80, 3.80, 0.0, 0.15)

  /** The USD to TTD rate the fixed fee is converted with. */
  const TTD_PER_USD: real := 6.80

  /** `rates.get(country, rates['TT'])`: unknown countries use TT's row. */
  function RatesFor(country: Text): (rates: CountryRates)
    ensures country !in {Some("JM"), Some("BB")} ==> rates == TT_RATES
  {
    if country == Some("JM") then JM_RATES
    else if country == Some("BB") then BB_RATES
    else TT_RATES
  }

  /** The percentage in force: the premium one only for an enabled provider. */
  function Percentage(country: Text, state: ProviderState): real {
    if state != Enabled then RatesFor(country).percentage else RatesFor(country).premiumPercentage
  }

  /** The fee before the fee structure is applied. The fixed fee and the tax
      test the raw country code, not the row that was looked up. */
  function FullFee(amount: real, country: Text, state: ProviderState, currency: string): (fee: real)
    ensures amount >= 0.0 ==> fee >= 0.0
  {
    var rates := RatesFor(country);
    var fee := amount * Percentage(country, state) / 100.0;
    var fee := if country == Some("TT") && currency in ["USD", "TTD"] then
                 (if currency == "TTD" then fee + rates.fixedUsd * TTD_PER_USD else fee + rates.fixedUsd)
               else fee;
    if country in {Some("JM"), Some("BB")} then fee * (1.0 + rates.tax) else fee
  }

  /** The share of the fee charged to the customer. */
  function ApplyFeeStructure(structure: Text, fee: real): (charged: real)
    ensures structure == Some("merchant_absorb") ==> charged == 0.0
    ensures structure == Some("split") ==> charged + charged == fee
    ensures structure !in {Some("merchant_absorb"), Some("split")} ==> charged == fee
    ensures fee >= 0.0 ==> 0.0 <= charged <= fee
  {
    if structure == Some("merchant_absorb") then 0.0
    else if structure == Some("split") then fee / 2.0
    else fee
  }

  /** `_compute_wipay_fees`. */
  function WipayFee(tx: Transaction): (fee: real)
    ensures tx.providerCode != WIPAY ==> fee == 0.0
    ensures tx.providerCode == WIPAY ==>
      fee == ApplyFeeStructure(tx.provider.feeStructure,
                               FullFee(tx.amount, tx.provider.countryCode, tx.provider.state, tx.currency))
    ensures tx.amount >= 0.0 ==>
      0.0 <= fee <= FullFee(tx.amount, tx.provider.countryCode, tx.provider.state, tx.currency)
  {
    if tx.providerCode != WIPAY then 0.0
    else ApplyFeeStructure(tx.provider.feeStructure,
                           FullFee(tx.amount, tx.provider.countryCode, tx.provider.state, tx.currency))
  }

  /** `_compute_fees`: `tx` is the transaction after the generic computation;
      only WiPay transactions get their `fees` overwritten. */
  function ComputeFees(tx: Transaction): (r: Transaction)
    ensures tx.providerCode != WIPAY ==> r == tx
    ensures tx.providerCode == WIPAY ==> r == tx.(fees := WipayFee(tx))
  {
    if tx.providerCode == WIPAY then tx.(fees := WipayFee(tx)) else tx
  }

  // ---------------------------------------------------------------------
  // The table written out, one closed form per case
  // ---------------------------------------------------------------------

  /** Trinidad and Tobago: the TT percentage plus US$0.25, charged in TTD at 6.80. */
  lemma TrinidadFee(amount: real, state: ProviderState, currency: string)
    ensures var pct := if state == Enabled then 3.00 else 3.50;
      FullFee(amount, Some("TT"), state, currency)
        == amount * pct / 100.0
           + (if currency == "USD" then 0.25 else if currency == "TTD" then 1.70 else 0.0)
  {
  }

  /** Jamaica and Barbados: their own percentage, then 15% tax on top. */
  lemma TaxedCountryFee(amount: real, country: string, state: ProviderState, currency: string)
    requires country in {"JM", "BB"}
    ensures var pct := if country == "JM" then (if state == Enabled then 3.50 else 4.20) else 3.80;
      FullFee(amount, Some(country), state, currency) == amount * pct / 100.0 * 1.15
  {
  }

  /** Any other country (or none) pays the TT percentage but neither the
      fixed fee nor a tax, whatever the currency. */
  lemma UnknownCountryFee(amount: real, country: Text, state: ProviderState, currency: string)
    requires country !in {Some("TT"), Some("JM"), Some("BB")}
    ensures var pct := if state == Enabled then 3.00 else 3.50;
      FullFee(amount, country, state, currency) == amount * pct / 100.0
  {
  }

  /** A larger amount never costs a smaller fee, under every structure. */
  lemma {:induction false} FeeMonotonic(tx: Transaction, larger: real)
    requires tx.amount <= larger
    ensures WipayFee(tx) <= WipayFee(tx.(amount := larger))
  {
    var c := tx.provider.countryCode;
    var pct := Percentage(c, tx.provider.state);
    assert pct >= 0.0;
    assert tx.amount * pct <= larger * pct;
    var a := FullFee(tx.amount, c, tx.provider.state, tx.currency);
    var b := FullFee(larger, c, tx.provider.state, tx.currency);
    assert a <= b;
  }
}

=== FILE: wipay_payment_provider.dfy ===
/** The `payment.provider` extension of the separate `wipay_payment` addon:
    its two field constraints, its live-environment fee table, and the
    preparation and outcome handling of a request to the WiPay API. */
module WipayPaymentProvider {
  import opened Common

  const WIPAY: string := "wipay"

  datatype Provider = Provider(
    code: string,
    apiKey: Text,
    accountNumber: Text,
    environment: Text,
    avsEnabled: bool,
    tokenizationEnabled: bool)

  /** `_compute_fee`: only the live environment charges, per currency. */
  function ComputeFee(p: Provider, amount: real, currency: string, superFee: real): (fee: real)
    ensures p.code != WIPAY ==> fee == superFee
    ensures p.code == WIPAY && p.environment != Some("live") ==> fee == 0.0
    ensures p.code == WIPAY && currency !in {"USD", "TTD", "JMD"} ==> fee == 0.0
    ensures p.code == WIPAY && amount >= 0.0 ==> 0.0 <= fee
  {
    if p.code != WIPAY then superFee
    else if p.environment == Some("live") then
      if currency == "USD" then amount * 0.038 + 0.25
      else if currency == "TTD" then amount * 0.035 + 0.25
      else if currency == "JMD" then amount * 0.042
      else 0.0
    else 0.0
  }

  /** The live rates written out: 3.8% + 0.25 in USD, 3.5% + 0.25 in TTD, 4.2% in JMD. */
  lemma LiveFeeTable(p: Provider, amount: real)
    requires p.code == WIPAY && p.environment == Some("live")
    ensures ComputeFee(p, amount, "USD", 0.0) == amount * 38.0 / 1000.0 + 0.25
    ensures ComputeFee(p, amount, "TTD", 0.0) == amount * 35.0 / 1000.0 + 0.25
    ensures ComputeFee(p, amount, "JMD", 0.0) == amount * 42.0 / 1000.0
  {
  }

  /** `_check_wipay_api_key` over a record set: the first WiPay provider
      without an API key raises. */
  function CheckApiKey(ps: seq<Provider>): (r: Result<()>)
    ensures r.Ok? <==> forall i :: 0 <= i < |ps| ==> ps[i].code != WIPAY || Truthy(ps[i].apiKey)
    ensures r.Err? ==> r.error == ValidationError("Wipay API Key is required for Wipay providers.")
  {
    if |ps| == 0 then Ok(())
    else if ps[0].code == WIPAY && !Truthy(ps[0].apiKey) then
      Err(ValidationError("Wipay API Key is required for Wipay providers."))
    else
      var rest := CheckApiKey(ps[1..]);
      assert forall i :: 0 < i < |ps| ==> ps[i] == ps[1..][i - 1];
      rest
  }

  /** `_check_wipay_account_number` over a record set. */
  function CheckAccountNumber(ps: seq<Provider>): (r: Result<()>)
    ensures r.Ok? <==> forall i :: 0 <= i < |ps| ==> ps[i].code != WIPAY || Truthy(ps[i].accountNumber)
    ensures r.Err? ==> r.error == ValidationError("Wipay Account Number is required for Wipay providers.")
  {
    if |ps| == 0 then Ok(())
    else if ps[0].code == WIPAY && !Truthy(ps[0].accountNumber) then
      Err(ValidationError("Wipay Account Number is required for Wipay providers."))
    else
      var rest := CheckAccountNumber(ps[1..]);
      assert forall i :: 0 < i < |ps| ==> ps[i] == ps[1..][i - 1];
      rest
  }

  /** Providers of other codes never trip either constraint. */
  lemma ConstraintsIgnoreOtherProviders(ps: seq<Provider>)
    requires forall i :: 0 <= i < |ps| ==> ps[i].code != WIPAY
    ensures CheckApiKey(ps) == Ok(()) && CheckAccountNumber(ps) == Ok(())
  {
  }

  /** The first `data.update(...)`: the credentials overwrite whatever the
      caller sent under the same keys. */
  function WithCredentials(p: Provider, data: Dict<Text>): (r: Dict<Text>)
    ensures Get(r, "account_number") == Some(p.accountNumber)
    ensures Get(r, "api_key") == Some(p.apiKey)
    ensures Get(r, "environment") == Some(p.environment)
    ensures forall k :: k != "account_number" && k != "api_key" && k != "environment" ==> Get(r, k) == Get(data, k)
    ensures Keys(r) == Keys(data) + {"account_number", "api_key", "environment"}
  {
    var d1 := Put(data, "account_number", p.accountNumber);
    var d2 := Put(d1, "api_key", p.apiKey);
    assert Get(d2, "account_number") == Some(p.accountNumber);
    var d3 := Put(d2, "environment", p.environment);
    assert Get(d3, "account_number") == Some(p.accountNumber);
    assert Get(d3, "api_key") == Some(p.apiKey);
    assert Keys(d3) == Keys(d2) + {"environment"} == Keys(d1) + {"api_key", "environment"};
    d3
  }

  /** Sets `key` to '1' when `on`, and leaves the data alone otherwise. */
  function WithFlag(data: Dict<Text>, key: string, on: bool): (r: Dict<Text>)
    ensures on ==> Get(r, key) == Some(Some("1"))
    ensures !on ==> r == data
    ensures forall k :: k != key ==> Get(r, k) == Get(data, k)
    ensures Keys(r) == if on then Keys(data) + {key} else Keys(data)
  {
    if on then Put(data, key, Some("1")) else data
  }

  /** The request data after `_wipay_make_request` has added the
      credentials and the optional AVS and tokenization flags. */
  function AugmentRequestData(p: Provider, data: Dict<Text>): (r: Dict<Text>)
    ensures Get(r, "account_number") == Some(p.accountNumber)
    ensures Get(r, "api_key") == Some(p.apiKey)
    ensures Get(r, "environment") == Some(p.environment)
    ensures p.avsEnabled ==> Get(r, "avs") == Some(Some("1"))
    ensures !p.avsEnabled ==> Get(r, "avs") == Get(data, "avs")
    ensures p.tokenizationEnabled ==> Get(r, "tokenize") == Some(Some("1"))
    ensures !p.tokenizationEnabled ==> Get(r, "tokenize") == Get(data, "tokenize")
  {
    var d := WithCredentials(p, data);
    var d' := WithFlag(d, "avs", p.avsEnabled);
    WithFlag(d', "tokenize", p.tokenizationEnabled)
  }

  /** Every other key the caller sent goes out unchanged. */
  lemma AugmentKeepsCallerData(p: Provider, data: Dict<Text>)
    ensures forall k :: k !in {"account_number", "api_key", "environment", "avs", "tokenize"} ==>
      Get(AugmentRequestData(p, data), k) == Get(data, k)
  {
    var d := WithCredentials(p, data);
    var d' := WithFlag(d, "avs", p.avsEnabled);
    assert AugmentRequestData(p, data) == WithFlag(d', "tokenize", p.tokenizationEnabled);
  }

  /** No key the caller sent is dropped. */
  lemma AugmentDropsNoKey(p: Provider, data: Dict<Text>)
    ensures Keys(data) <= Keys(AugmentRequestData(p, data))
  {
    var d := WithCredentials(p, data);
    var d' := WithFlag(d, "avs", p.avsEnabled);
    assert Keys(data) <= Keys(d) <= Keys(d');
  }

  /** The flags are added exactly when their option is switched on, for a
      caller that did not send them itself. */
  lemma FlagsIffEnabled(p: Provider, data: Dict<Text>)
    requires "avs" !in Keys(data) && "tokenize" !in Keys(data)
    ensures "avs" in Keys(AugmentRequestData(p, data)) <==> p.avsEnabled
    ensures "tokenize" in Keys(AugmentRequestData(p, data)) <==> p.tokenizationEnabled
  {
    var r := AugmentRequestData(p, data);
    assert "avs" in Keys(r) <==> Get(r, "avs").Some?;
    assert "tokenize" in Keys(r) <==> Get(r, "tokenize").Some?;
  }

  /** How the HTTP call ended. */
  datatype HttpOutcome =
    | Replied(data: Dict<Text>)
    | TimedOut
    | HttpFailed
    | OtherFailure

  /** The follow-up the source calls on a decoded answer, by its 'status'. */
  datatype FollowUp = MarkDone | MarkCanceled | NoFollowUp

  /** The error each failure surfaces as; every one is a ValidationError. */
  function FailureError(o: HttpOutcome): (e: Error)
    requires !o.Replied?
    ensures e.ValidationError?
  {
    match o
    case TimedOut => ValidationError("Wipay API request timed out. Please try again.")
    case HttpFailed => ValidationError("Wipay API HTTP error. Please check your settings.")
    case OtherFailure => ValidationError("Wipay API request failed. Please check your settings.")
  }

  /** `_wipay_make_request` as intended: the augmented data that is posted,
      and either the decoded answer with the follow-up its status asks for
      (marking the transaction done or cancelled) or the error the failure
      surfaces as. */
  function MakeRequest(p: Provider, data: Dict<Text>, outcome: HttpOutcome)
    : (r: (Dict<Text>, Result<(Dict<Text>, FollowUp)>))
    ensures r.0 == AugmentRequestData(p, data)
    ensures outcome.Replied? ==> r.1.Ok? && r.1.value.0 == outcome.data
    ensures outcome.Replied? && Get(outcome.data, "status") == Some(Some("success")) ==> r.1.value.1 == MarkDone
    ensures outcome.Replied? && Get(outcome.data, "status") == Some(Some("failed")) ==> r.1.value.1 == MarkCanceled
    ensures outcome.Replied? && Get(outcome.data, "status") !in {Some(Some("success")), Some(Some("failed"))} ==>
      r.1.value.1 == NoFollowUp
    ensures !outcome.Replied? ==> r.1.Err? && r.1.error.ValidationError?
  {
    var sent := AugmentRequestData(p, data);
    match outcome
    case Replied(answer) =>
      var status := Get(answer, "status");
      var follow := if status == Some(Some("success")) then MarkDone
                    else if status == Some(Some("failed")) then MarkCanceled
                    else NoFollowUp;
      (sent, Ok((answer, follow)))
    case _ => (sent, Err(FailureError(outcome)))
  }

  const REQUEST_FAILED: Error := ValidationError("Wipay API request failed. Please check your settings.")

  /** `_wipay_make_request` as written: the follow-up calls
      `_set_transaction_done` and `_set_transaction_cancel` are not defined on
      `payment.transaction` by this addon or by `payment`, its only
      dependency, so they raise an AttributeError, which the catch-all
      handler turns into the generic request failure. */
  function MakeRequestAsWritten(p: Provider, data: Dict<Text>, outcome: HttpOutcome)
    : (r: (Dict<Text>, Result<Dict<Text>>))
    ensures r.0 == AugmentRequestData(p, data)
    ensures outcome.Replied? ==>
      (r.1.Ok? <==> Get(outcome.data, "status") !in {Some(Some("success")), Some(Some("failed"))})
    ensures outcome.Replied? && r.1.Ok? ==> r.1.value == outcome.data
    ensures outcome.Replied? && r.1.Err? ==> r.1.error == REQUEST_FAILED
    ensures !outcome.Replied? ==> r.1 == Err(FailureError(outcome))
  {
    var sent := AugmentRequestData(p, data);
    match outcome
    case Replied(answer) =>
      var status := Get(answer, "status");
      if status == Some(Some("success")) || status == Some(Some("failed")) then (sent, Err(REQUEST_FAILED))
      else (sent, Ok(answer))
    case _ => (sent, Err(FailureError(outcome)))
  }

  /** The discrepancy: a successful payment answer, which the intended
      request returns with the follow-up `MarkDone`, is reported by the code
      as written as a failed request. */
  lemma SuccessfulAnswerReportedAsFailure(p: Provider, data: Dict<Text>)
    ensures var answer := [("status", Some("success"))];
      && MakeRequestAsWritten(p, data, Replied(answer)).1 == Err(REQUEST_FAILED)
      && MakeRequest(p, data, Replied(answer)).1 == Ok((answer, MarkDone))
  {
    var answer: Dict<Text> := [("status", Some("success"))];
    assert Get(answer, "status") == Some(Some("success"));
  }

  /** Apart from the two statuses that ask for a follow-up, the code as
      written and the intended request agree on every outcome. */
  lemma AsWrittenAgreesWithoutFollowUp(p: Provider, data: Dict<Text>, outcome: HttpOutcome)
    requires outcome.Replied? ==> MakeRequest(p, data, outcome).1.value.1 == NoFollowUp
    ensures MakeRequestAsWritten(p, data, outcome).0 == MakeRequest(p, data, outcome).0
    ensures MakeRequestAsWritten(p, data, outcome).1.Ok? <==> MakeRequest(p, data, outcome).1.Ok?
    ensures MakeRequestAsWritten(p, data, outcome).1.Ok? ==>
      MakeRequestAsWritten(p, data, outcome).1.value == MakeRequest(p, data, outcome).1.value.0
    ensures MakeRequestAsWritten(p, data, outcome).1.Err? ==>
      MakeRequestAsWritten(p, data, outcome).1.error == MakeRequest(p, data, outcome).1.error
  {
  }
}

=== FILE: wipay_provider.dfy ===
/** The WiPay `payment.provider` extension of the `payment_wipay` addon:
    currency-driven endpoint selection, the required-field and publishing
    rules, country and sale-order availability, and auto-publishing on
    creation. Each override falls back to the generic provider behaviour
    (`super()`), which is passed in as a parameter. */
module WipayProvider {
  import opened Common

  const WIPAY: string := "wipay"
  const TT_ENDPOINT: string := "https://tt.wipayfinancial.com/plugins/payments/request"
  const JM_ENDPOINT: string := "https://jm.wipayfinancial.com/plugins/payments/request"

  /** The provider `state` selection of Odoo's payment module. */
  datatype ProviderState = Disabled | Enabled | Test

  /** A `payment.provider` record, restricted to the fields the WiPay code reads.
      `countryCode` and `feeStructure` are the `wipay_country_code` and
      `wipay_fee_structure` fields read by the fee computation. */
  datatype Provider = Provider(
    code: string,
    name: string,
    state: ProviderState,
    isPublished: bool,
    merchantAccountId: Text,
    apiKey: Text,
    secretKey: Text,
    apiUrl: Text,
    currency: Text,
    countryCode: Text,
    feeStructure: Text)

  /** The `wipay_currency` selection: the currencies with a known endpoint. */
  predicate KnownCurrency(c: Text) {
    c == Some("TTD") || c == Some("JMD") || c == Some("USD")
  }

  /** `currency_url_map.get(wipay_currency, '')`. */
  function CurrencyUrl(currency: Text): (url: string)
    ensures url != "" <==> KnownCurrency(currency)
    ensures currency == Some("JMD") ==> url == JM_ENDPOINT
    ensures currency == Some("TTD") || currency == Some("USD") ==> url == TT_ENDPOINT
  {
    if currency == Some("TTD") || currency == Some("USD") then TT_ENDPOINT
    else if currency == Some("JMD") then JM_ENDPOINT
    else ""
  }

  /** `_onchange_wipay_currency`: rewrites the API URL from the currency and
      touches no other field. */
  function OnchangeCurrency(p: Provider): (q: Provider)
    ensures q.apiUrl.Some?
    ensures Truthy(q.apiUrl) <==> KnownCurrency(p.currency)
    ensures q.(apiUrl := p.apiUrl) == p
  {
    p.(apiUrl := Some(CurrencyUrl(p.currency)))
  }

  /** `_is_missing_required_fields`. */
  function IsMissingRequiredFields(p: Provider, superResult: bool): (missing: bool)
    ensures p.code != WIPAY ==> missing == superResult
    ensures p.code == WIPAY ==>
      (missing <==> !Truthy(p.merchantAccountId) || !Truthy(p.apiKey) || !Truthy(p.apiUrl))
  {
    if p.code == WIPAY then !(Truthy(p.merchantAccountId) && Truthy(p.apiKey) && Truthy(p.apiUrl))
    else superResult
  }

  /** Choosing a known currency completes the configuration of a WiPay provider
      whose merchant id and API key are set; an unknown one leaves it incomplete. */
  lemma OnchangeCompletesConfiguration(p: Provider, superResult: bool)
    requires p.code == WIPAY
    requires Truthy(p.merchantAccountId) && Truthy(p.apiKey)
    ensures !IsMissingRequiredFields(OnchangeCurrency(p), superResult) <==> KnownCurrency(p.currency)
  {
  }

  /** `_is_publishable_in_website`. */
  function IsPublishable(p: Provider, superResult: bool): (publishable: bool)
    ensures p.code != WIPAY ==> publishable == superResult
    ensures p.code == WIPAY ==> (publishable <==> p.state in {Enabled, Test})
  {
    if p.code != WIPAY then superResult else p.state != Disabled
  }

  /** `_is_available_for_country`: in test mode WiPay is offered everywhere,
      otherwise only when no country is given or the country is Trinidad and Tobago. */
  function IsAvailableForCountry(p: Provider, countryCode: Text, superResult: bool): (available: bool)
    ensures p.code != WIPAY ==> available == superResult
    ensures p.code == WIPAY && p.state == Test ==> available
    ensures p.code == WIPAY && p.state != Test ==>
      (available <==> countryCode in {None, Some(""), Some("TT")})
  {
    if p.code == WIPAY then
      if p.state == Test then true
      else !Truthy(countryCode) || countryCode == Some("TT")
    else superResult
  }

  /** `_is_available_for_sale_order`: WiPay accepts every sale order. */
  function IsAvailableForSaleOrder<Order>(p: Provider, order: Order, superResult: bool): (available: bool)
    ensures p.code == WIPAY ==> available
    ensures p.code != WIPAY ==> available == superResult
  {
    if p.code == WIPAY then true else superResult
  }

  /** The `create` override: `created` is the record the generic `create`
      produced from a dictionary whose keys are `suppliedKeys`. */
  function Create(created: Provider, suppliedKeys: set<string>): (r: Provider)
    ensures r.(isPublished := created.isPublished) == created
    ensures r.isPublished <==>
      created.isPublished
      || (created.code == WIPAY && created.state != Disabled && "is_published" !in suppliedKeys)
  {
    if created.code == WIPAY && created.state != Disabled && "is_published" !in suppliedKeys
    then created.(isPublished := true)
    else created
  }

  /** A WiPay provider created without an explicit publication flag ends up
      published exactly when it may be published at all. */
  lemma CreatePublishesExactlyThePublishable(created: Provider, suppliedKeys: set<string>, superResult: bool)
    requires created.code == WIPAY && !created.isPublished
    requires "is_published" !in suppliedKeys
    ensures Create(created, suppliedKeys).isPublished <==> IsPublishable(created, superResult)
  {
  }

  /** `_get_default_payment_method_codes`. */
  function DefaultPaymentMethodCodes(p: Provider, superCodes: seq<string>): (codes: seq<string>)
    ensures p.code == WIPAY ==> codes == [WIPAY]
    ensures p.code != WIPAY ==> codes == superCodes
  {
    if p.code != WIPAY then superCodes else [WIPAY]
  }
}

=== FILE: wipay_recurring.dfy ===
/** WiPay recurring payments (`payment.recurring.wipay`): the
    active/paused/cancelled life cycle, the next due date, the bookkeeping
    after a charge, and the daily job that charges every due record. The
    clock is the `today` parameter; the charge itself (creating a
    transaction and sending it with the stored token) is an outcome
    parameter. */
module WipayRecurring {
  import opened Common
  import opened CivilDate
  import opened WipayTransaction

  datatype Interval = Weekly | Monthly | Yearly
  datatype RecurringState = Active | Paused | Cancelled

  datatype Recurring = Recurring(
    name: string,
    amount: real,
    interval: Interval,
    nextPayment: Date,
    state: RecurringState,
    paymentCount: int,
    lastPayment: Option<Date>)

  /** A new record: the field defaults make it active with no payment made. */
  function NewRecurring(name: string, amount: real, interval: Interval, nextPayment: Date): (r: Recurring)
    ensures r.state == Active && r.paymentCount == 0 && r.lastPayment.None?
    ensures r.name == name && r.amount == amount && r.interval == interval && r.nextPayment == nextPayment
  {
    Recurring(name, amount, interval, nextPayment, Active, 0, None)
  }

  /** `action_pause`. */
  function Pause(r: Recurring): (q: Recurring)
    ensures q.state == Paused && q.(state := r.state) == r
  {
    r.(state := Paused)
  }

  /** `action_cancel`. */
  function Cancel(r: Recurring): (q: Recurring)
    ensures q.state == Cancelled && q.(state := r.state) == r
  {
    r.(state := Cancelled)
  }

  /** `action_resume`: active again and due today. */
  function Resume(r: Recurring, today: Date): (q: Recurring)
    ensures q.state == Active && q.nextPayment == today
    ensures q.(state := r.state, nextPayment := r.nextPayment) == r
  {
    r.(state := Active, nextPayment := today)
  }

  /** `_compute_next_payment_date`: one interval after today (not after the
      previous due date). */
  function NextPaymentDate(r: Recurring, today: Date): (next: Date)
    requires Valid(today)
    ensures Valid(next) && Before(today, next)
    ensures r.interval == Weekly ==> next == AddDays(today, 7)
    // A month later keeps the day of month unless the next month is shorter.
    ensures r.interval == Monthly ==>
      && MonthIndex(next) == MonthIndex(today) + 1
      && next.day == if today.day <= DaysInMonth(next.year, next.month) then today.day
                     else DaysInMonth(next.year, next.month)
    // A year later keeps the date, 29 February becoming the 28th in a common year.
    ensures r.interval == Yearly ==>
      && next.year == today.year + 1 && next.month == today.month
      && next.day == if today.month == 2 && today.day == 29 && !IsLeapYear(today.year + 1) then 28 else today.day
  {
    match r.interval
    case Weekly => AddDays(today, 7)
    case Monthly => AddMonths(today, 1)
    case Yearly => AddYears(today, 1)
  }

  /** How sending the payment request for the new transaction ended. */
  datatype ChargeOutcome =
    | Settled(state: TxState, stateMessage: Text)
    | Raised(error: Error)

  /** `_process_recurring_payment`: a charge that ends 'done' is booked; any
      other end raises, and the record keeps its counters and dates. */
  function ProcessRecurring(r: Recurring, today: Date, charge: ChargeOutcome): (q: Result<Recurring>)
    requires Valid(today)
    ensures q.Ok? <==> charge.Settled? && charge.state == Done
    ensures q.Ok? ==>
      && q.value.paymentCount == r.paymentCount + 1
      && q.value.lastPayment == Some(today)
      && q.value.nextPayment == NextPaymentDate(r, today)
      && Before(today, q.value.nextPayment)
      && q.value.(paymentCount := r.paymentCount, lastPayment := r.lastPayment, nextPayment := r.nextPayment) == r
    ensures charge.Settled? && charge.state != Done ==>
      q == Err(ValidationError("Recurring payment failed: " + TextStr(charge.stateMessage, FALSE_TEXT)))
    ensures charge.Raised? ==> q == Err(charge.error)
  {
    match charge
    case Raised(e) => Err(e)
    case Settled(state, message) =>
      if state == Done then
        Ok(r.(lastPayment := Some(today), paymentCount := r.paymentCount + 1, nextPayment := NextPaymentDate(r, today)))
      else
        Err(ValidationError("Recurring payment failed: " + TextStr(message, FALSE_TEXT)))
  }

  /** The cron domain: active and due on or before today. */
  predicate Due(r: Recurring, today: Date) {
    r.state == Active && NotAfter(r.nextPayment, today)
  }

  /** What the job leaves in place of one record. */
  function AfterCron(r: Recurring, today: Date, charge: ChargeOutcome): Recurring
    requires Valid(today)
  {
    if !Due(r, today) then r
    else match ProcessRecurring(r, today, charge)
      case Ok(q) => q
      case Err(_) => r
  }

  /** How many records of `rs` the job would pick up. */
  function CountDue(rs: seq<Recurring>, today: Date): (n: nat)
    ensures n <= |rs|
  {
    if |rs| == 0 then 0
    else CountDue(rs[..|rs| - 1], today) + (if Due(rs[|rs| - 1], today) then 1 else 0)
  }

  /** Extending the scanned prefix by one record counts that record if it
      is due. */
  lemma CountDueStep(rs: seq<Recurring>, i: nat, today: Date)
    requires i < |rs|
    ensures CountDue(rs[..i + 1], today) == CountDue(rs[..i], today) + (if Due(rs[i], today) then 1 else 0)
  {
    assert rs[..i + 1][..i] == rs[..i];
  }

  /** A charge that `_process_recurring_payment` books. */
  predicate Books(charge: ChargeOutcome) {
    charge.Settled? && charge.state == Done
  }

  /** Appending the next record's outcome extends the processed prefix. */
  lemma AfterCronStep(result: seq<Recurring>, records: seq<Recurring>, today: Date, charges: seq<ChargeOutcome>, i: nat)
    requires Valid(today) && i < |records| == |charges| && |result| == i
    requires forall j :: 0 <= j < i ==> result[j] == AfterCron(records[j], today, charges[j])
    ensures forall j :: 0 <= j < i + 1 ==>
      (result + [AfterCron(records[i], today, charges[i])])[j] == AfterCron(records[j], today, charges[j])
  {
  }

  /** `_cron_process_recurring_payments` as intended: every due record is
      processed in turn; a failure is swallowed and the loop goes on.
      `charges[i]` is how charging `records[i]` would end. */
  method CronProcess(records: seq<Recurring>, today: Date, charges: seq<ChargeOutcome>)
    returns (result: seq<Recurring>, processed: nat)
    requires Valid(today)
    requires |charges| == |records|
    ensures |result| == |records|
    ensures forall i :: 0 <= i < |records| ==> result[i] == AfterCron(records[i], today, charges[i])
    ensures processed == CountDue(records, today)
  {
    result := [];
    processed := 0;
    var i := 0;
    while i < |records|
      invariant 0 <= i <= |records|
      invariant |result| == i
      invariant forall j :: 0 <= j < i ==> result[j] == AfterCron(records[j], today, charges[j])
      invariant processed == CountDue(records[..i], today)
    {
      CountDueStep(records, i, today);
      if Due(records[i], today) {
        processed := processed + 1;
      }
      AfterCronStep(result, records, today, charges, i);
      result := result + [AfterCron(records[i], today, charges[i])];
      i := i + 1;
    }
    assert records[..i] == records;
  }

  /** What the handler of a failed record raises: `_logger` is not defined
      in the module. */
  const LOGGER_UNDEFINED: Error := NameError("_logger")

  /** `_cron_process_recurring_payments` as written: the first due record
      whose charge fails sends the loop into its `except` clause, whose
      `_logger` lookup raises, so the job ends there with that error and no
      later record is charged. */
  function CronProcessAsWritten(records: seq<Recurring>, today: Date, charges: seq<ChargeOutcome>)
    : (r: Result<seq<Recurring>>)
    requires Valid(today)
    requires |charges| == |records|
    ensures r.Err? <==> exists i :: 0 <= i < |records| && Due(records[i], today) && !Books(charges[i])
    ensures r.Err? ==> r.error == LOGGER_UNDEFINED
    ensures r.Ok? ==>
      |r.value| == |records| && forall i :: 0 <= i < |records| ==> r.value[i] == AfterCron(records[i], today, charges[i])
  {
    if |records| == 0 then Ok([])
    else if Due(records[0], today) && !Books(charges[0]) then Err(LOGGER_UNDEFINED)
    else
      var rest := CronProcessAsWritten(records[1..], today, charges[1..]);
      assert forall i :: 1 <= i < |records| ==> records[1..][i - 1] == records[i] && charges[1..][i - 1] == charges[i];
      match rest
      case Err(e) => Err(e)
      case Ok(tail) => Ok([AfterCron(records[0], today, charges[0])] + tail)
  }

  /** Two due records, the first failing: as written the job raises and
      the second is never charged, where the intended job books it. */
  lemma LaterDueRecordNeverCharged(r1: Recurring, r2: Recurring, today: Date, c1: ChargeOutcome, c2: ChargeOutcome)
    requires Valid(today)
    requires Due(r1, today) && Due(r2, today)
    requires !Books(c1) && Books(c2)
    ensures CronProcessAsWritten([r1, r2], today, [c1, c2]) == Err(LOGGER_UNDEFINED)
    ensures AfterCron(r2, today, c2).paymentCount == r2.paymentCount + 1
  {
  }

  /** The job books exactly the due records whose charge went through and
      leaves every other record as it was. */
  lemma CronBooksExactlyTheSuccessfulDueRecords(r: Recurring, today: Date, charge: ChargeOutcome)
    requires Valid(today)
    ensures AfterCron(r, today, charge) != r <==> Due(r, today) && charge.Settled? && charge.state == Done
    ensures Due(r, today) && charge.Settled? && charge.state == Done ==>
      AfterCron(r, today, charge).paymentCount == r.paymentCount + 1
      && Before(today, AfterCron(r, today, charge).nextPayment)
  {
  }

  /** A paused or cancelled record is never charged by the job, and resuming
      makes it due on the very day it is resumed. */
  lemma OnlyActiveRecordsAreDue(r: Recurring, today: Date)
    ensures Due(Pause(r), today) == false && Due(Cancel(r), today) == false
    ensures Due(Resume(r, today), today)
  {
  }

  /** A successful charge makes the record not due again on the same day. */
  lemma ChargedRecordNotDueAgain(r: Recurring, today: Date, charge: ChargeOutcome)
    requires Valid(today) && ProcessRecurring(r, today, charge).Ok?
    ensures !Due(ProcessRecurring(r, today, charge).value, today)
  {
  }
}

=== FILE: wipay_security.dfy ===
/** `WiPaySecurityUtils` of the `payment_wipay` controllers: recursive
    redaction of sensitive response fields, the IP allow-list, the
    order-independent HMAC signing string with its freshness check, and the
    rate-limit placeholder. HMAC-SHA256, the timestamp parser, the clock and
    Python's `repr` of a dictionary are parameters. */
module WipaySecurity {
  import opened Common

  /** A JSON-like Python value as found in a request or response payload. */
  datatype Value =
    | Str(s: string)
    | Num(n: int)
    | Bool(b: bool)
    | Null
    | List(items: seq<Value>)
    | Obj(entries: seq<(string, Value)>)

  // ---------------------------------------------------------------------
  // sanitize_response
  // ---------------------------------------------------------------------

  const SENSITIVE_FIELDS: set<string> :=
    {"card_number", "cvv", "expiry", "api_key", "token", "password", "secret", "authorization"}

  /** `str.lower()` on ASCII letters. */
  function LowerChar(c: char): (l: char)
    ensures !('A' <= l <= 'Z')
  {
    if 'A' <= c <= 'Z' then (c as int - 'A' as int + 'a' as int) as char else c
  }

  function Lower(s: string): (l: string)
    ensures |l| == |s|
    ensures forall i :: 0 <= i < |s| ==> l[i] == LowerChar(s[i])
  {
    if |s| == 0 then "" else [LowerChar(s[0])] + Lower(s[1..])
  }

  predicate Sensitive(key: string) {
    Lower(key) in SENSITIVE_FIELDS
  }

  const MASK: Value := Str("***")

  /** The value a single entry is replaced by. The key test comes before the
      dictionary test, so a sensitive key hides a whole nested dictionary. */
  function SanitizeValue(key: string, v: Value): (r: Value)
    ensures Sensitive(key) ==> r == MASK
    ensures !Sensitive(key) && !v.Obj? ==> r == v
    ensures !Sensitive(key) && v.Obj? ==> r.Obj? && |r.entries| == |v.entries|
    decreases v
  {
    if Sensitive(key) then MASK
    else if v.Obj? then Obj(Sanitize(v.entries))
    else v
  }

  /** `sanitize_response`: same keys in the same order, each value passed
      through `SanitizeValue`. */
  function Sanitize(d: Dict<Value>): (r: Dict<Value>)
    ensures |r| == |d|
    ensures forall i :: 0 <= i < |d| ==> r[i].0 == d[i].0
    decreases d
  {
    if |d| == 0 then []
    else
      var e := d[0];
      assert e.1 < e;
      [(e.0, SanitizeValue(e.0, e.1))] + Sanitize(d[1..])
  }

  /** The dictionary keeps exactly its key set. */
  lemma SanitizeKeepsKeys(d: Dict<Value>)
    ensures Keys(Sanitize(d)) == Keys(d)
    ensures KeyList(Sanitize(d)) == KeyList(d)
  {
  }

  /** Every entry of the result is the sanitised entry of the input. */
  lemma {:induction false} SanitizeEntries(d: Dict<Value>, i: int)
    requires 0 <= i < |d|
    ensures Sanitize(d)[i] == (d[i].0, SanitizeValue(d[i].0, d[i].1))
    decreases i
  {
    if i > 0 {
      SanitizeEntries(d[1..], i - 1);
      assert Sanitize(d)[i] == Sanitize(d[1..])[i - 1];
    }
  }

  /** No sensitive key, at any depth of nested dictionaries, holds anything
      but the mask. */
  predicate CleanEntry(key: string, v: Value)
    decreases v
  {
    (Sensitive(key) ==> v == MASK)
    && (!Sensitive(key) && v.Obj? ==> Clean(v.entries))
  }

  predicate Clean(d: Dict<Value>)
    decreases d
  {
    |d| == 0 ||
    (var e := d[0];
     assert e.1 < e;
     CleanEntry(e.0, e.1) && Clean(d[1..]))
  }

  /** The result of sanitising is clean. */
  lemma {:induction false} SanitizeValueIsClean(key: string, v: Value)
    ensures CleanEntry(key, SanitizeValue(key, v))
    decreases v
  {
    if !Sensitive(key) && v.Obj? {
      SanitizeIsClean(v.entries);
    }
  }

  lemma {:induction false} SanitizeIsClean(d: Dict<Value>)
    ensures Clean(Sanitize(d))
    decreases d
  {
    if |d| > 0 {
      var e := d[0];
      assert e.1 < e;
      SanitizeValueIsClean(e.0, e.1);
      SanitizeIsClean(d[1..]);
      assert Sanitize(d)[1..] == Sanitize(d[1..]);
    }
  }

  /** A clean dictionary is left exactly as it is. */
  lemma {:induction false} SanitizeValueFixesClean(key: string, v: Value)
    requires CleanEntry(key, v)
    ensures SanitizeValue(key, v) == v
    decreases v
  {
    if !Sensitive(key) && v.Obj? {
      SanitizeFixesClean(v.entries);
    }
  }

  lemma {:induction false} SanitizeFixesClean(d: Dict<Value>)
    requires Clean(d)
    ensures Sanitize(d) == d
    decreases d
  {
    if |d| > 0 {
      var e := d[0];
      assert e.1 < e;
      SanitizeValueFixesClean(e.0, e.1);
      SanitizeFixesClean(d[1..]);
      assert d == [e] + d[1..];
    }
  }

  /** Sanitising changes a dictionary exactly when it is not clean. */
  lemma SanitizeChangesOnlyUnclean(d: Dict<Value>)
    ensures Sanitize(d) == d <==> Clean(d)
  {
    SanitizeIsClean(d);
    if Clean(d) {
      SanitizeFixesClean(d);
    }
  }

  /** `sanitize_response` is idempotent. */
  lemma SanitizeIdempotent(d: Dict<Value>)
    ensures Sanitize(Sanitize(d)) == Sanitize(d)
  {
    SanitizeIsClean(d);
    SanitizeFixesClean(Sanitize(d));
  }

  // ---------------------------------------------------------------------
  // validate_ip_address and rate_limit_check
  // ---------------------------------------------------------------------

  /** `validate_ip_address`: no list, or an empty one, lets every address in. */
  function ValidateIp(ip: string, allowed: Option<seq<string>>): (ok: bool)
    ensures allowed.None? || allowed.value == [] ==> ok
    ensures allowed.Some? && allowed.value != [] ==> (ok <==> ip in allowed.value)
  {
    match allowed
    case None => true
    case Some(ips) => if ips == [] then true else ip in ips
  }

  /** Adding an address to a non-empty allow-list never locks anyone out
      (adding one to an empty list does: it stops admitting everyone). */
  lemma AllowListMonotonic(ip: string, ips: seq<string>, extra: string)
    requires ips != [] && ValidateIp(ip, Some(ips))
    ensures ValidateIp(ip, Some(ips + [extra]))
  {
  }

  /** `rate_limit_check`: the placeholder admits every request. */
  function RateLimitCheck(key: string, limit: int, period: int): (ok: bool)
    ensures ok
  {
    true
  }

  // ---------------------------------------------------------------------
  // Sorting a payload by key (`sorted(payload.keys())`)
  // ---------------------------------------------------------------------

  /** Python's `<` on strings: code point by code point, a proper prefix first. */
  predicate StrLt(a: string, b: string)
    decreases |a|
  {
    |b| > 0 && (|a| == 0 || a[0] < b[0] || (a[0] == b[0] && StrLt(a[1..], b[1..])))
  }

  lemma {:induction false} StrLtIrreflexive(a: string)
    ensures !StrLt(a, a)
    decreases |a|
  {
    if |a| > 0 {
      StrLtIrreflexive(a[1..]);
    }
  }

  lemma {:induction false} StrLtTransitive(a: string, b: string, c: string)
    requires StrLt(a, b) && StrLt(b, c)
    ensures StrLt(a, c)
    decreases |a|
  {
    if |a| > 0 && a[0] == b[0] && b[0] == c[0] {
      StrLtTransitive(a[1..], b[1..], c[1..]);
    }
  }

  lemma {:induction false} StrLtTotal(a: string, b: string)
    requires a != b
    ensures StrLt(a, b) || StrLt(b, a)
    decreases |a|
  {
    if |a| > 0 && |b| > 0 && a[0] == b[0] {
      assert a == [a[0]] + a[1..] && b == [b[0]] + b[1..];
      StrLtTotal(a[1..], b[1..]);
    }
  }

  lemma StrLtAsymmetric(a: string, b: string)
    requires StrLt(a, b)
    ensures !StrLt(b, a)
  {
    if StrLt(b, a) {
      StrLtTransitive(a, b, a);
      StrLtIrreflexive(a);
    }
  }

  /** Entries in strictly increasing key order. */
  predicate SortedByKey(s: Dict<Value>) {
    forall i, j :: 0 <= i < j < |s| ==> StrLt(s[i].0, s[j].0)
  }

  /** Inserts an entry with a new key into a sorted dictionary. */
  function Insert(x: (string, Value), s: Dict<Value>): (r: Dict<Value>)
    requires SortedByKey(s)
    requires forall e :: e in s ==> e.0 != x.0
    ensures SortedByKey(r)
    ensures |r| == |s| + 1
    ensures forall e :: e in r <==> e == x || e in s
  {
    if |s| == 0 then [x]
    else if StrLt(x.0, s[0].0) then
      assert forall j :: 0 < j < |s| ==> StrLt(x.0, s[j].0) by {
        forall j | 0 < j < |s| ensures StrLt(x.0, s[j].0) {
          StrLtTransitive(x.0, s[0].0, s[j].0);
        }
      }
      [x] + s
    else
      StrLtTotal(x.0, s[0].0);
      assert s == [s[0]] + s[1..];
      var rest := Insert(x, s[1..]);
      forall j | 0 <= j < |rest| ensures StrLt(s[0].0, rest[j].0) {
        assert rest[j] in rest;
        if rest[j] != x {
          var k :| 0 <= k < |s[1..]| && s[1..][k] == rest[j];
          assert s[k + 1] == rest[j];
        }
      }
      var r := [s[0]] + rest;
      forall i, j | 0 <= i < j < |r| ensures StrLt(r[i].0, r[j].0) {
        assert r[j] == rest[j - 1];
        if i > 0 {
          assert r[i] == rest[i - 1];
        }
      }
      r
  }

  /** The payload's entries in key order. */
  function SortByKey(d: Dict<Value>): (r: Dict<Value>)
    requires DistinctKeys(d)
    ensures SortedByKey(r)
    ensures |r| == |d|
    ensures forall e :: e in r <==> e in d
  {
    if |d| == 0 then []
    else
      var rest := SortByKey(d[1..]);
      assert forall e :: e in d[1..] ==> e.0 != d[0].0 by {
        forall e | e in d[1..] ensures e.0 != d[0].0 {
          var j :| 0 <= j < |d[1..]| && d[1..][j] == e;
          assert d[j + 1] == e;
        }
      }
      assert forall e :: e in d <==> e == d[0] || e in d[1..] by {
        assert d == [d[0]] + d[1..];
      }
      Insert(d[0], rest)
  }

  lemma NonEmptyHasElement(s: Dict<Value>)
    ensures |s| > 0 <==> exists e :: e in s
  {
    if |s| > 0 {
      assert s[0] in s;
    }
  }

  /** A key-sorted dictionary is determined by its set of entries. */
  lemma {:induction false} SortedUnique(s: Dict<Value>, t: Dict<Value>)
    requires SortedByKey(s) && SortedByKey(t)
    requires forall e :: e in s <==> e in t
    ensures s == t
    decreases |s|
  {
    NonEmptyHasElement(s);
    NonEmptyHasElement(t);
    if |s| == 0 || |t| == 0 {
    } else {
      assert s[0] in t;
      var j :| 0 <= j < |t| && t[j] == s[0];
      assert t[0] in s;
      var i :| 0 <= i < |s| && s[i] == t[0];
      if i > 0 && j > 0 {
        StrLtAsymmetric(s[0].0, t[0].0);
      }
      assert s[0] == t[0];
      forall e | e in s[1..] ensures e in t[1..] {
        var k :| 0 <= k < |s[1..]| && s[1..][k] == e;
        assert StrLt(s[0].0, s[k + 1].0);
        StrLtIrreflexive(s[0].0);
        assert s[k + 1] in s;
        var m :| 0 <= m < |t| && t[m] == e;
        assert m != 0;
        assert t[1..][m - 1] == e;
      }
      forall e | e in t[1..] ensures e in s[1..] {
        var k :| 0 <= k < |t[1..]| && t[1..][k] == e;
        assert StrLt(t[0].0, t[k + 1].0);
        StrLtIrreflexive(t[0].0);
        assert t[k + 1] in t;
        var m :| 0 <= m < |s| && s[m] == e;
        assert m != 0;
        assert s[1..][m - 1] == e;
      }
      SortedUnique(s[1..], t[1..]);
      assert s == [s[0]] + s[1..] && t == [t[0]] + t[1..];
    }
  }

  /** In a real dictionary, an entry is present exactly when looking up its
      key yields its value. */
  lemma EntryIffGet(d: Dict<Value>, e: (string, Value))
    requires DistinctKeys(d)
    ensures e in d <==> Get(d, e.0) == Some(e.1)
  {
    if e in d {
      var i :| 0 <= i < |d| && d[i] == e;
      GetAt(d, i, e.0);
    }
  }

  // ---------------------------------------------------------------------
  // generate_signature and verify_signature
  // ---------------------------------------------------------------------

  /** `f"{timestamp}:{str(sorted_payload)}"`; `render` is Python's `str()` of
      a dictionary. */
  function SigningString(timestamp: string, payload: Dict<Value>, render: Dict<Value> -> string): (s: string)
    requires DistinctKeys(payload)
    ensures |s| > |timestamp| && s[..|timestamp|] == timestamp && s[|timestamp|] == ':'
    ensures s[|timestamp| + 1..] == render(SortByKey(payload))
  {
    timestamp + ":" + render(SortByKey(payload))
  }

  /** `generate_signature`: `hmac(key, message)` is the hex HMAC-SHA256 digest. */
  function GenerateSignature(secretKey: string, payload: Dict<Value>, timestamp: string,
                             hmac: (string, string) -> string, render: Dict<Value> -> string): (sig: string)
    requires DistinctKeys(payload)
    ensures sig == hmac(secretKey, timestamp + ":" + render(SortByKey(payload)))
  {
    hmac(secretKey, SigningString(timestamp, payload, render))
  }

  /** Two payloads that are the same dictionary, whatever their insertion
      order, have the same signing string and therefore the same signature. */
  lemma SignatureIndependentOfOrder(a: Dict<Value>, b: Dict<Value>, timestamp: string,
                                    secretKey: string, hmac: (string, string) -> string,
                                    render: Dict<Value> -> string)
    requires DistinctKeys(a) && DistinctKeys(b)
    requires forall k :: Get(a, k) == Get(b, k)
    ensures SigningString(timestamp, a, render) == SigningString(timestamp, b, render)
    ensures GenerateSignature(secretKey, a, timestamp, hmac, render)
         == GenerateSignature(secretKey, b, timestamp, hmac, render)
  {
    forall e ensures e in a <==> e in b {
      EntryIffGet(a, e);
      EntryIffGet(b, e);
    }
    SortedUnique(SortByKey(a), SortByKey(b));
  }

  /** `verify_signature`. `parseTimestamp` is `float()` followed by
      `datetime.fromtimestamp`, `now` is the current time in seconds. A stale
      request raises; a fresh one yields the comparison result and never
      raises on a mismatch. */
  function VerifySignature(secretKey: string, payload: Dict<Value>, timestamp: string,
                           receivedSignature: string, maxAge: int,
                           parseTimestamp: string -> Option<real>, now: real,
                           hmac: (string, string) -> string, render: Dict<Value> -> string): (r: Result<bool>)
    requires DistinctKeys(payload)
    ensures parseTimestamp(timestamp).None? ==> r == Err(SecurityError("Invalid timestamp format"))
    ensures parseTimestamp(timestamp).Some? && now - parseTimestamp(timestamp).value > maxAge as real ==>
      r == Err(SecurityError("Request too old"))
    ensures r.Ok? <==> parseTimestamp(timestamp).Some? && now - parseTimestamp(timestamp).value <= maxAge as real
    ensures r.Ok? ==>
      (r.value <==> receivedSignature == GenerateSignature(secretKey, payload, timestamp, hmac, render))
  {
    match parseTimestamp(timestamp)
    case None => Err(SecurityError("Invalid timestamp format"))
    case Some(ts) =>
      if now - ts > maxAge as real then Err(SecurityError("Request too old"))
      else Ok(receivedSignature == GenerateSignature(secretKey, payload, timestamp, hmac, render))
  }

  /** A fresh request signed with the shared secret verifies, even when the
      receiver holds the payload in a different key order. */
  lemma SignedRequestVerifies(secretKey: string, sent: Dict<Value>, received: Dict<Value>, timestamp: string,
                              maxAge: int, parseTimestamp: string -> Option<real>, now: real,
                              hmac: (string, string) -> string, render: Dict<Value> -> string)
    requires DistinctKeys(sent) && DistinctKeys(received)
    requires forall k :: Get(sent, k) == Get(received, k)
    requires parseTimestamp(timestamp).Some? && now - parseTimestamp(timestamp).value <= maxAge as real
    ensures VerifySignature(secretKey, received, timestamp,
                            GenerateSignature(secretKey, sent, timestamp, hmac, render),
                            maxAge, parseTimestamp, now, hmac, render) == Ok(true)
  {
    SignatureIndependentOfOrder(sent, received, timestamp, secretKey, hmac, render);
  }
}

=== FILE: wipay_token.dfy ===
/** The WiPay `payment.token` extension: building a token from the data
    WiPay returns after tokenising a card, the card details it hands back,
    and the (empty) deactivation hook. Values arrive as text; the provider
    and partner ids are kept as the text they were given as. */
module WipayToken {
  import opened Common

  const WIPAY: string := "wipay"

  /** The `wipay_card_type` selection. */
  datatype CardType = Visa | Mastercard

  /** The selection key stored for a card type. */
  function CardTypeKey(c: CardType): (key: string)
    ensures key in {"visa", "mastercard"}
  {
    match c
    case Visa => "visa"
    case Mastercard => "mastercard"
  }

  /** Writing a value into the selection field: only the two keys are accepted. */
  function ParseCardType(key: string): (c: Option<CardType>)
    ensures c.Some? <==> key in {"visa", "mastercard"}
    ensures c.Some? ==> CardTypeKey(c.value) == key
  {
    if key == "visa" then Some(Visa)
    else if key == "mastercard" then Some(Mastercard)
    else None
  }

  lemma CardTypeRoundTrip(c: CardType)
    ensures ParseCardType(CardTypeKey(c)) == Some(c)
  {
  }

  /** A `payment.token` record with the fields the WiPay code reads. */
  datatype Token = Token(
    providerId: string,
    providerCode: string,
    partnerId: string,
    wipayToken: Text,
    cardType: Option<CardType>,
    last4: Text,
    expiry: Text,
    verified: bool)

  /** All four values WiPay must send back are present. */
  predicate Complete(values: Dict<string>) {
    "token" in Keys(values) && "card_type" in Keys(values)
    && "last4" in Keys(values) && "expiry" in Keys(values)
  }

  /** The ORM's message for a value the `wipay_card_type` selection does not offer. */
  function WrongCardType(value: string): Error {
    ValueError("Wrong value for payment.token.wipay_card_type: " + PyRepr(value))
  }

  /** `wipay_create`: `providerCode` is the code of the provider whose id is
      `values['provider_id']`. The required-key check comes first; the record
      is then built in dictionary order, so a missing provider id is reported
      before a missing partner id. When the record is written, an empty card
      type is stored as False, and any other value the selection does not
      offer is refused. */
  function WipayCreate(values: Dict<string>, providerCode: string): (r: Result<Token>)
    ensures r == Err(ValidationError("Incomplete token data received from WiPay")) <==> !Complete(values)
    ensures Complete(values) ==>
      (r == Err(KeyError("provider_id")) <==> "provider_id" !in Keys(values))
    ensures r.Ok? <==>
      Complete(values) && "provider_id" in Keys(values) && "partner_id" in Keys(values)
      && (Get(values, "card_type") == Some("") || ParseCardType(Get(values, "card_type").value).Some?)
    ensures (Complete(values) && "provider_id" in Keys(values) && "partner_id" in Keys(values)
             && Get(values, "card_type") != Some("") && ParseCardType(Get(values, "card_type").value).None?) ==>
      r == Err(WrongCardType(Get(values, "card_type").value))
    ensures r.Ok? ==>
      && Some(r.value.providerId) == Get(values, "provider_id")
      && Some(r.value.partnerId) == Get(values, "partner_id")
      && r.value.wipayToken == Get(values, "token")
      && (r.value.cardType.None? <==> Get(values, "card_type") == Some(""))
      && (r.value.cardType.Some? ==> Some(CardTypeKey(r.value.cardType.value)) == Get(values, "card_type"))
      && r.value.last4 == Get(values, "last4")
      && r.value.expiry == Get(values, "expiry")
      && r.value.providerCode == providerCode
      && r.value.verified
  {
    var token := Get(values, "token");
    var cardType := Get(values, "card_type");
    var last4 := Get(values, "last4");
    var expiry := Get(values, "expiry");
    if token.None? || cardType.None? || last4.None? || expiry.None? then
      Err(ValidationError("Incomplete token data received from WiPay"))
    else
      var providerId := Get(values, "provider_id");
      var partnerId := Get(values, "partner_id");
      if providerId.None? then Err(KeyError("provider_id"))
      else if partnerId.None? then Err(KeyError("partner_id"))
      else if cardType.value == "" then
        Ok(Token(providerId.value, providerCode, partnerId.value, token, None, last4, expiry, true))
      else match ParseCardType(cardType.value)
        case None => Err(WrongCardType(cardType.value))
        case Some(c) =>
          Ok(Token(providerId.value, providerCode, partnerId.value, token, Some(c), last4, expiry, true))
  }

  /** What `_get_payment_details` returns. */
  datatype PaymentDetails =
    | GenericDetails(details: Dict<Text>)
    | WipayDetails(token: Text, cardType: Text, last4: Text, expiry: Text)

  /** The stored selection key, or False when none is stored. */
  function CardTypeText(c: Option<CardType>): (t: Text)
    ensures t.Some? <==> c.Some?
    ensures c.Some? ==> ParseCardType(t.value) == c
  {
    match c
    case None => None
    case Some(k) => Some(CardTypeKey(k))
  }

  /** `_get_payment_details`: `superDetails` is what the generic method returns. */
  function GetPaymentDetails(t: Token, superDetails: Dict<Text>): (d: PaymentDetails)
    ensures t.providerCode != WIPAY ==> d == GenericDetails(superDetails)
    ensures t.providerCode == WIPAY ==>
      d.WipayDetails? && d.token == t.wipayToken && d.last4 == t.last4 && d.expiry == t.expiry
      && (d.cardType.Some? <==> t.cardType.Some?)
      && (t.cardType.Some? ==> ParseCardType(d.cardType.value) == t.cardType)
  {
    if t.providerCode != WIPAY then GenericDetails(superDetails)
    else WipayDetails(t.wipayToken, CardTypeText(t.cardType), t.last4, t.expiry)
  }

  /** The details of a token created from WiPay's data give back exactly the
      four values it was created from, an empty card type reading back as
      False. */
  lemma DetailsRoundTrip(values: Dict<string>, superDetails: Dict<Text>)
    requires WipayCreate(values, WIPAY).Ok?
    ensures var d := GetPaymentDetails(WipayCreate(values, WIPAY).value, superDetails);
      var cardType := Get(values, "card_type");
      d == WipayDetails(Get(values, "token"), if cardType == Some("") then None else cardType,
                        Get(values, "last4"), Get(values, "expiry"))
  {
  }

  /** The tokens whose deactivation would be sent to WiPay, in order. */
  function WipayTokens(tokens: seq<Token>): (targets: seq<Token>)
    ensures |targets| <= |tokens|
    ensures forall t :: t in targets <==> t in tokens && t.providerCode == WIPAY
  {
    if |tokens| == 0 then []
    else
      var rest := WipayTokens(tokens[1..]);
      assert forall t :: t in tokens <==> t == tokens[0] || t in tokens[1..];
      if tokens[0].providerCode == WIPAY then [tokens[0]] + rest else rest
  }

  /** `_handle_deactivation_request`: non-WiPay tokens are skipped and the
      WiPay branch contains no call yet, so the hook never raises and changes
      no record. The result pairs the records after the call with the tokens
      the WiPay branch was entered for. */
  function HandleDeactivation(tokens: seq<Token>): (r: Result<(seq<Token>, seq<Token>)>)
    ensures r.Ok?
    ensures r.value.0 == tokens
    ensures forall t :: t in r.value.1 <==> t in tokens && t.providerCode == WIPAY
  {
    Ok((tokens, WipayTokens(tokens)))
  }
}

=== FILE: wipay_transaction.dfy ===
/** The WiPay `payment.transaction` extension of the `payment_wipay` addon:
    the outgoing payment request, the handling of WiPay's answer to it,
    the lookup of the transaction a notification refers to, and the
    notification state machine behind its MD5 signature gate.

    MD5, `url_join` and the `:.2f` amount formatting are parameters;
    the ORM search is a filter over a sequence of transactions. */
module WipayTransaction {
  import opened Common
  import opened WipayProvider

  /** The transaction `state` selection of Odoo's payment module. */
  datatype TxState = Draft | Pending | Authorized | Done | Canceled | Error

  datatype Transaction = Transaction(
    reference: string,
    providerCode: string,
    provider: Provider,
    amount: real,
    currency: string,
    partnerEmail: Text,
    partnerName: Text,
    state: TxState,
    stateMessage: Text,
    wipayPaymentId: Text,
    paymentMethodId: Option<nat>,
    fees: real)

  // ---------------------------------------------------------------------
  // Looking transactions up
  // ---------------------------------------------------------------------

  /** `search([('reference', '=', ref), ('provider_code', '=', 'wipay')])`. */
  function SearchWipay(db: seq<Transaction>, ref: string): (found: seq<Transaction>)
    ensures |found| <= |db|
    ensures forall t :: t in found ==> t in db && t.reference == ref && t.providerCode == WIPAY
    ensures forall t :: t in db && t.reference == ref && t.providerCode == WIPAY ==> t in found
  {
    if |db| == 0 then []
    else
      var rest := SearchWipay(db[1..], ref);
      assert forall t :: t in db ==> t == db[0] || t in db[1..];
      if db[0].reference == ref && db[0].providerCode == WIPAY then [db[0]] + rest else rest
  }

  function NotFoundMessage(reference: Text): string {
    "Wipay: No transaction found matching reference " + TextStr(reference, NONE_TEXT) + "."
  }

  /** `_get_tx_from_notification_data`: `superTx` is what the generic lookup found. */
  function TxFromNotification(providerCode: string, data: Dict<string>, superTx: seq<Transaction>, db: seq<Transaction>)
    : (r: Result<seq<Transaction>>)
    ensures providerCode != WIPAY || |superTx| > 0 ==> r == Ok(superTx)
    ensures providerCode == WIPAY && |superTx| == 0 ==>
      (r.Err? <==> !Truthy(Get(data, "order_id"))
                   || forall t :: t in db ==> t.reference != Get(data, "order_id").value || t.providerCode != WIPAY)
    ensures providerCode == WIPAY && |superTx| == 0 && r.Ok? ==>
      |r.value| > 0
      && forall t :: t in r.value ==> t in db && Some(t.reference) == Get(data, "order_id") && t.providerCode == WIPAY
    ensures r.Err? ==> r.error == ValidationError(NotFoundMessage(Get(data, "order_id")))
  {
    if providerCode != WIPAY || |superTx| > 0 then Ok(superTx)
    else
      var reference := Get(data, "order_id");
      if !Truthy(reference) then Err(ValidationError(NotFoundMessage(reference)))
      else
        var found := SearchWipay(db, reference.value);
        if |found| == 0 then Err(ValidationError(NotFoundMessage(reference)))
        else
          assert found[0] in found;
          Ok(found)
  }

  /** `_get_tx_from_feedback_data`: like the notification lookup, but an
      empty result is returned instead of raised. */
  function TxFromFeedback(providerCode: string, data: Dict<string>, superTx: seq<Transaction>, db: seq<Transaction>)
    : (r: seq<Transaction>)
    ensures providerCode != WIPAY || |superTx| > 0 ==> r == superTx
    ensures providerCode == WIPAY && |superTx| == 0 && !Truthy(Get(data, "order_id")) ==> r == []
    ensures providerCode == WIPAY && |superTx| == 0 && Truthy(Get(data, "order_id")) ==>
      forall t :: t in db ==> (t in r <==> Some(t.reference) == Get(data, "order_id") && t.providerCode == WIPAY)
  {
    if providerCode != WIPAY || |superTx| > 0 then superTx
    else
      var reference := Get(data, "order_id");
      if Truthy(reference) then SearchWipay(db, reference.value) else superTx
  }

  /** Where both lookups have work to do they agree on every notification
      that names a known reference. */
  lemma FeedbackAgreesWithNotification(data: Dict<string>, db: seq<Transaction>)
    requires TxFromNotification(WIPAY, data, [], db).Ok?
    ensures TxFromFeedback(WIPAY, data, [], db) == TxFromNotification(WIPAY, data, [], db).value
  {
  }

  // ---------------------------------------------------------------------
  // Notification processing
  // ---------------------------------------------------------------------

  /** The signature WiPay is expected to send with a notification:
      md5(secret ++ transaction_id ++ reference), where a missing
      transaction id prints as "None". */
  function NotificationSignature(md5: string -> string, secret: string, transactionId: Text, reference: string): string {
    md5(secret + TextStr(transactionId, NONE_TEXT) + reference)
  }

  /** The signature gate: it is only consulted when a signature was received
      and a secret key is configured. */
  predicate SignatureRejected(tx: Transaction, data: Dict<string>, md5: string -> string) {
    var received := Get(data, "signature");
    Truthy(received) && Truthy(tx.provider.secretKey)
    && received.value != NotificationSignature(md5, tx.provider.secretKey.value, Get(data, "transaction_id"), tx.reference)
  }

  /** The two errors notification processing raises. */
  const INVALID_SIGNATURE: Error := ValidationError("Wipay: Invalid signature received.")
  const NO_PAYMENT_METHOD: Error := ValidationError("Wipay: Payment method not found.")

  /** What processing a notification leaves behind: the transaction as
      written so far, and the error it raised, if any. A raise caught by the
      caller does not undo the fields written before it. */
  datatype Processed = Processed(tx: Transaction, raised: Option<Error>)

  /** `_process_notification_data` for one transaction. `wipayMethod` is the
      `payment.method` with code 'wipay', if one exists. The generic part of
      the processing (the `super()` call) leaves `tx` as it is. */
  function ProcessNotification(tx: Transaction, data: Dict<string>, md5: string -> string, wipayMethod: Option<nat>)
    : (r: Processed)
    // Other providers are not touched by this override.
    ensures tx.providerCode != WIPAY ==> r == Processed(tx, None)
    // Exactly two ways to fail.
    ensures tx.providerCode == WIPAY ==> (r.raised.Some? <==> SignatureRejected(tx, data, md5) || wipayMethod.None?)
    // A rejected signature raises before anything is written ...
    ensures tx.providerCode == WIPAY && SignatureRejected(tx, data, md5) ==>
      r == Processed(tx, Some(INVALID_SIGNATURE))
    // ... a missing payment method only after the WiPay id has been written.
    ensures tx.providerCode == WIPAY && !SignatureRejected(tx, data, md5) && wipayMethod.None? ==>
      r == Processed(tx.(wipayPaymentId := Get(data, "transaction_id")),
                     Some(NO_PAYMENT_METHOD))
    // Past both checks: the WiPay id and payment method are recorded and
    // only the state and its message change besides.
    ensures tx.providerCode == WIPAY && r.raised.None? ==>
      r.tx == tx.(wipayPaymentId := Get(data, "transaction_id"),
                  paymentMethodId := wipayMethod,
                  state := r.tx.state,
                  stateMessage := r.tx.stateMessage)
    // The status mapping.
    ensures tx.providerCode == WIPAY && r.raised.None? ==>
      && (r.tx.state == Done <==> Get(data, "status") == Some("success"))
      && (r.tx.state == Pending <==> Get(data, "status") == Some("pending"))
      && (r.tx.state == Canceled <==> Get(data, "status") == Some("failed"))
      && (r.tx.state == Error <==> Get(data, "status") !in {Some("success"), Some("pending"), Some("failed")})
    // `_set_done` and `_set_pending` clear the state message; the other two
    // setters write theirs.
    ensures tx.providerCode == WIPAY && r.raised.None? ==>
      && (r.tx.state in {Done, Pending} ==> r.tx.stateMessage == None)
      && (r.tx.state == Canceled ==> r.tx.stateMessage == Some("Wipay: Payment failed."))
      && (r.tx.state == Error ==>
            r.tx.stateMessage == Some("Wipay: Received unrecognized payment status: " + TextStr(Get(data, "status"), NONE_TEXT)))
  {
    if tx.providerCode != WIPAY then Processed(tx, None)
    else if SignatureRejected(tx, data, md5) then Processed(tx, Some(INVALID_SIGNATURE))
    else
      var withId := tx.(wipayPaymentId := Get(data, "transaction_id"));
      if wipayMethod.None? then Processed(withId, Some(NO_PAYMENT_METHOD))
      else
        var recorded := withId.(paymentMethodId := wipayMethod);
        var status := Get(data, "status");
        if status == Some("success") then Processed(recorded.(state := Done, stateMessage := None), None)
        else if status == Some("pending") then Processed(recorded.(state := Pending, stateMessage := None), None)
        else if status == Some("failed") then
          Processed(recorded.(state := Canceled, stateMessage := Some("Wipay: Payment failed.")), None)
        else
          Processed(recorded.(state := Error,
                              stateMessage := Some("Wipay: Received unrecognized payment status: " + TextStr(status, NONE_TEXT))),
                    None)
  }

  /** A notification signed with the configured secret over its own
      transaction id and the transaction's reference always passes the gate. */
  lemma GenuineSignatureAccepted(tx: Transaction, data: Dict<string>, md5: string -> string, wipayMethod: nat)
    requires tx.providerCode == WIPAY && Truthy(tx.provider.secretKey)
    requires Get(data, "signature")
             == Some(NotificationSignature(md5, tx.provider.secretKey.value, Get(data, "transaction_id"), tx.reference))
    ensures ProcessNotification(tx, data, md5, Some(wipayMethod)).raised.None?
  {
  }

  /** Without a configured secret key, or without a received signature,
      the gate lets every notification through. */
  lemma UnsignedNotificationAccepted(tx: Transaction, data: Dict<string>, md5: string -> string, wipayMethod: nat)
    requires tx.providerCode == WIPAY
    requires !Truthy(tx.provider.secretKey) || !Truthy(Get(data, "signature"))
    ensures ProcessNotification(tx, data, md5, Some(wipayMethod)).raised.None?
  {
  }

  /** The generic `_handle_notification_data` path: find the one transaction
      the data refers to, then process the data on it. `Err` is a lookup that
      raised before any transaction was touched; a lookup that finds several
      records fails Odoo's singleton check. */
  function HandleNotification(data: Dict<string>, db: seq<Transaction>, md5: string -> string, wipayMethod: Option<nat>)
    : (r: Result<Processed>)
    ensures r.Ok? ==> r.value.tx.providerCode == WIPAY && Some(r.value.tx.reference) == Get(data, "order_id")
    ensures r.Ok? && r.value.raised.None? ==> r.value.tx.wipayPaymentId == Get(data, "transaction_id")
  {
    match TxFromNotification(WIPAY, data, [], db)
    case Err(e) => Err(e)
    case Ok(found) =>
      if |found| != 1 then Err(ValueError("Expected singleton"))
      else Ok(ProcessNotification(found[0], data, md5, wipayMethod))
  }

  // ---------------------------------------------------------------------
  // The outgoing payment request
  // ---------------------------------------------------------------------

  /** The helpers the request construction relies on. */
  datatype Formatting = Formatting(
    md5: string -> string,
    urlJoin: (string, string) -> string,
    twoDecimals: real -> string)

  /** The form fields posted to WiPay, in the order the source lists them;
      `signature` is only sent when an API key is configured. */
  datatype PaymentPayload = PaymentPayload(
    accountNumber: Text,
    total: string,
    currency: string,
    orderId: string,
    countryCode: string,
    environment: string,
    responseUrl: string,
    webhookUrl: string,
    email: Text,
    name: Text,
    origin: string,
    feeStructure: string,
    paymentMethod: string,
    description: string,
    signature: Option<string>)

  /** The request: endpoint, form payload, and the value of the
      `Authorization` header when there is one (the `Accept` and
      `Content-Type` headers are always the same). */
  datatype PaymentRequest = PaymentRequest(url: Text, payload: PaymentPayload, authorization: Option<string>)

  /** The signature sent with a payment request:
      md5(api_key ++ merchant_id ++ amount(2dp) ++ reference), where an unset
      merchant id is the ORM's `False` and prints as "False". */
  function RequestSignature(f: Formatting, tx: Transaction): string
    requires tx.provider.apiKey.Some?
  {
    f.md5(tx.provider.apiKey.value + TextStr(tx.provider.merchantAccountId, FALSE_TEXT) + f.twoDecimals(tx.amount) + tx.reference)
  }

  /** The request `_get_specific_rendering_values` posts to WiPay. Currency,
      country and environment are fixed values whatever the transaction says. */
  function BuildPaymentRequest(tx: Transaction, baseUrl: string, f: Formatting): (req: PaymentRequest)
    ensures req.url == tx.provider.apiUrl
    ensures req.payload.currency == "TTD" && req.payload.countryCode == "TT" && req.payload.environment == "sandbox"
    ensures req.payload.orderId == tx.reference && req.payload.total == f.twoDecimals(tx.amount)
    ensures req.payload.accountNumber == tx.provider.merchantAccountId
    ensures req.payload.responseUrl == f.urlJoin(baseUrl, "/payment/wipay/return")
    ensures req.payload.webhookUrl == f.urlJoin(baseUrl, "/payment/wipay/webhook")
    ensures req.payload.signature.Some? <==> Truthy(tx.provider.apiKey)
    ensures Truthy(tx.provider.apiKey) ==> req.payload.signature == Some(RequestSignature(f, tx))
    ensures req.authorization.Some? <==> Truthy(tx.provider.apiKey)
    ensures Truthy(tx.provider.apiKey) ==> req.authorization == Some("Bearer " + tx.provider.apiKey.value)
  {
    var signed := Truthy(tx.provider.apiKey);
    var payload := PaymentPayload(
      tx.provider.merchantAccountId,
      f.twoDecimals(tx.amount),
      "TTD",
      tx.reference,
      "TT",
      "sandbox",
      f.urlJoin(baseUrl, "/payment/wipay/return"),
      f.urlJoin(baseUrl, "/payment/wipay/webhook"),
      tx.partnerEmail,
      tx.partnerName,
      "WiPay-example_app",
      "customer_pay",
      "credit_card",
      "Payment for " + tx.reference,
      if signed then Some(RequestSignature(f, tx)) else None);
    PaymentRequest(tx.provider.apiUrl, payload, if signed then Some("Bearer " + tx.provider.apiKey.value) else None)
  }

  /** Two transactions that differ only in their API key produce the same
      request apart from the signature and the `Authorization` header. */
  lemma ApiKeyOnlyAffectsSigning(tx: Transaction, key: Text, baseUrl: string, f: Formatting)
    ensures var a := BuildPaymentRequest(tx, baseUrl, f);
            var b := BuildPaymentRequest(tx.(provider := tx.provider.(apiKey := key)), baseUrl, f);
            a.url == b.url && a.payload.(signature := None) == b.payload.(signature := None)
  {
  }

  /** What the HTTP round trip to WiPay produced: the decoded JSON answer, or
      a `RequestException`/`ValueError` (connection, HTTP status or JSON). */
  datatype WipayReply = Answer(data: Dict<Text>) | RequestFailed(reason: string)

  /** The error text for an answer without a payment URL: its 'message',
      or 'Unknown error' when there is no such key. */
  function AnswerErrorMessage(data: Dict<Text>): (msg: string)
    ensures "message" !in Keys(data) ==> msg == "Unknown error"
    ensures Get(data, "message") == Some(None) ==> msg == "None"
  {
    match Get(data, "message")
    case None => "Unknown error"
    case Some(m) => TextStr(m, NONE_TEXT)
  }

  /** The rendering values of a transaction: whatever the generic code
      produced for another provider, or for WiPay the posted payload
      extended with the payment URL and the reference. In the source the
      WiPay dictionary also holds itself under 'post_params'; that entry is
      represented by `payload`. */
  datatype Rendering =
    | GenericRendering(values: Dict<Text>)
    | WipayRendering(payload: PaymentPayload, paymentUrl: string, reference: string)

  /** The rendering values and the updated transaction once WiPay answered. */
  function ProcessPaymentReply(tx: Transaction, req: PaymentRequest, reply: WipayReply)
    : (r: Result<(Transaction, Rendering)>)
    ensures reply.RequestFailed? ==>
      r == Err(ValidationError("Could not establish connection with Wipay API: " + reply.reason))
    ensures reply.Answer? && !Truthy(Get(reply.data, "url").GetOr(None)) ==>
      r == Err(ValidationError("Wipay: " + AnswerErrorMessage(reply.data)))
    ensures reply.Answer? && Truthy(Get(reply.data, "url").GetOr(None)) ==>
      r.Ok?
      && r.value.0 == tx.(wipayPaymentId := Get(reply.data, "transaction_id").GetOr(None))
      && r.value.1 == WipayRendering(req.payload, Get(reply.data, "url").value.value, tx.reference)
  {
    match reply
    case RequestFailed(reason) =>
      Err(ValidationError("Could not establish connection with Wipay API: " + reason))
    case Answer(data) =>
      var url := Get(data, "url").GetOr(None);
      if Truthy(url) then
        var paid := tx.(wipayPaymentId := Get(data, "transaction_id").GetOr(None));
        Ok((paid, WipayRendering(req.payload, url.value, tx.reference)))
      else
        Err(ValidationError("Wipay: " + AnswerErrorMessage(data)))
  }

  /** `_get_specific_rendering_values`: other providers keep the generic
      values; WiPay builds the request, posts it and interprets the answer. */
  function SpecificRenderingValues(tx: Transaction, superValues: Dict<Text>, baseUrl: string, f: Formatting, reply: WipayReply)
    : (r: Result<(Transaction, Rendering)>)
    ensures tx.providerCode != WIPAY ==> r == Ok((tx, GenericRendering(superValues)))
    ensures tx.providerCode == WIPAY && r.Ok? ==>
      && r.value.1.WipayRendering?
      && r.value.1.payload.currency == "TTD"
      && r.value.1.payload.environment == "sandbox"
      && (r.value.1.payload.signature.Some? <==> Truthy(tx.provider.apiKey))
      && r.value.0 == tx.(wipayPaymentId := r.value.0.wipayPaymentId)
    ensures tx.providerCode == WIPAY ==>
      (r.Ok? <==> reply.Answer? && Truthy(Get(reply.data, "url").GetOr(None)))
    ensures tx.providerCode == WIPAY && reply.RequestFailed? ==>
      r == Err(ValidationError("Could not establish connection with Wipay API: " + reply.reason))
    ensures tx.providerCode == WIPAY && reply.Answer? && !Truthy(Get(reply.data, "url").GetOr(None)) ==>
      r == Err(ValidationError("Wipay: " + AnswerErrorMessage(reply.data)))
    ensures tx.providerCode == WIPAY && r.Ok? ==>
      && r.value.0 == tx.(wipayPaymentId := Get(reply.data, "transaction_id").GetOr(None))
      && r.value.1 == WipayRendering(BuildPaymentRequest(tx, baseUrl, f).payload,
                                     Get(reply.data, "url").value.value, tx.reference)
  {
    if tx.providerCode != WIPAY then Ok((tx, GenericRendering(superValues)))
    else ProcessPaymentReply(tx, BuildPaymentRequest(tx, baseUrl, f), reply)
  }

  /** The checkout values: the generic ones, or WiPay's provider name and reference. */
  datatype CheckoutValues =
    | GenericCheckout(values: Dict<Text>)
    | WipayCheckout(providerName: string, reference: string)

  /** `_get_specific_checkout_rendering_values`: a WiPay provider in test
      mode is switched to enabled; other states are written back unchanged. */
  function CheckoutRendering(tx: Transaction, superValues: Dict<Text>): (r: (Provider, CheckoutValues))
    ensures tx.providerCode != WIPAY ==> r == (tx.provider, GenericCheckout(superValues))
    ensures tx.providerCode == WIPAY ==>
      && r.0 == tx.provider.(state := r.0.state)
      && (tx.provider.state == Test ==> r.0.state == Enabled)
      && (tx.provider.state != Test ==> r.0.state == tx.provider.state)
      && r.1 == WipayCheckout(tx.provider.name, tx.reference)
  {
    if tx.providerCode != WIPAY then (tx.provider, GenericCheckout(superValues))
    else
      var state := if tx.provider.state == Test then Enabled else tx.provider.state;
      (tx.provider.(state := state), WipayCheckout(tx.provider.name, tx.reference))
  }

  /** After a checkout rendering a WiPay provider is never left in test mode,
      so a second rendering changes nothing more. */
  lemma CheckoutRenderingIdempotent(tx: Transaction, superValues: Dict<Text>)
    requires tx.providerCode == WIPAY
    ensures var p := CheckoutRendering(tx, superValues).0;
            p.state != Test && CheckoutRendering(tx.(provider := p), superValues).0 == p
  {
  }
}
